=== FILE: README.md ===
# EKS upgrade planner — verified model of the planning and risk engine

This project models the decision logic of `eks-upgrade-planner` in Dafny. That tool
plans a version upgrade of an Amazon EKS cluster. It does the following:

- checks which EKS versions are supported and whether a direct upgrade is legal;
- matches installed addons against a compatibility catalog;
- builds the sequential upgrade path and the addon upgrade order;
- builds the runbook, the node-group rotation plan, the checklist and the time estimate;
- rates five risk factors and aggregates them into an overall risk;
- turns deprecated-API findings into a migration plan;
- classifies resources against a table of deprecated Kubernetes APIs;
- filters a table of known breaking changes by version range;
- derives a filesystem-safe cache file name from a cache key.

Layout, one module per source file plus shared modules:

| module | file | models |
|---|---|---|
| `Wrappers` | `wrappers.dfy` | `Option`, Python's `None` |
| `Text` | `text.dfy` | digit strings, `str(n)`, substring `in`, `", ".join` |
| `Versions` | `versions.dfy` | `"major.minor"` strings as `(major, minor)` pairs, and the `float(...)` reading the source also uses |
| `Snapshot` | `snapshot.dfy` | the input records: addons, node groups, deprecated-API findings, breaking changes |
| `Compatibility` | `compatibility.dfy` | `src/analyzer/compatibility.py` |
| `UpgradePath` | `upgrade_path.dfy` | `src/planner/upgrade_path.py` |
| `RiskAssessment` | `risk_assessment.dfy` | `src/planner/risk_assessment.py` |
| `MigrationPlan` | `migration_plan.dfy` | `src/planner/migration_plan.py` |
| `Deprecation` | `deprecation.dfy` | `src/analyzer/deprecation.py` |
| `ReleaseNotes` | `release_notes.dfy` | `get_breaking_changes` of `src/analyzer/release_notes.py` |
| `Cache` | `cache.dfy` | `_get_cache_path` of `src/utils/cache.py` |

Modelling decisions:

- Versions are compared as `(major, minor)` pairs in lexicographic order. The source compares
  with `float(...)` at four places:
  - `src/analyzer/compatibility.py:103-113`
  - `src/analyzer/deprecation.py:141`
  - `src/planner/migration_plan.py:41`
  - `src/analyzer/release_notes.py:227-232`

  The two readings disagree in two ways. First, when a one-digit minor meets a two-digit minor:
  the number 1.9 is greater than 1.16, but Kubernetes 1.9 comes before 1.16. Second, in the
  one-minor test of `can_upgrade_directly`, which subtracts two doubles: the doubles of 1.28 and
  1.29 differ by slightly more than the double nearest 0.01, so that test refuses every
  one-minor upgrade. The model takes the pair order as the intended meaning.
  `Versions.FloatAtLeast` and `Compatibility.CanUpgradeDirectlyAsWritten` keep the source's
  reading, and the Findings section exhibits where the two differ. `Versions.FloatAtLeast`
  compares exact decimals, which decides `>=` as Python does for decimals of at most 15
  significant digits, every version string of the source included.
- The source's dictionaries become sequences of records. Where the source reads a key with a
  default, a missing key reads as that default: `""`, `"unknown"`, `"default"`, or `"999.0"` for
  a missing removal version. Where the source tells a missing value apart, the field is an
  `Option`. Three fields the source reads with no default are plain strings in the model: the
  addon name and the node group's name and version. A missing one is `None` in the source and
  `""` in the model (see "## Left out").
- Loops that build lists in the source are methods with loop invariants. Each is specified by a
  recursive function over the input (for example `MigrationPlan.MigrationsOf`,
  `ReleaseNotes.ChangesInRange`). Lemmas then prove what the source promises about that
  function: membership in both directions, order, counts and bounds.
- The addon order uses Python's stable `list.sort`. It is modelled as an insertion sort
  (`UpgradePath.StableSortByPriority`). Its result is proved equal to a bucket concatenation
  (`UpgradePath.PriorityOrder`). A stable sort is unique (`UpgradePath.StableSortUnique`), so
  this is the result Python's sort returns.

## Model

| member | source | states |
|---|---|---|
| Versions.ParseVersionSpec | src/planner/upgrade_path.py:38-48 | a version string parses exactly when it is two dot-separated decimal numerals, and parsing reads both numerals |
| Versions.ParseFormat | src/planner/upgrade_path.py:62-64 | rendering a version as `f"{major}.{minor}"` and parsing it back returns the same version |
| Versions.LessIsStrictTotalOrder | src/planner/upgrade_path.py:51-53 | the (major, minor) order used for every comparison is a strict total order |
| Versions.VersionAtLeast | src/analyzer/deprecation.py:140-144 | gives a verdict exactly when both strings parse; true means at-or-after and false means before, in pair order |
| Versions.FloatValue | src/analyzer/deprecation.py:141 | `float(s)` of a version string is defined exactly when the string parses as a version |
| Versions.RoundHalfEvenNearest | src/analyzer/compatibility.py:103-104 | the rounded quotient is within half of a / b, and even on a tie, as IEEE 754 rounds a significand |
| Versions.DoubleValue | src/analyzer/compatibility.py:103-104 | `float(s)` as a double is defined only where the exact decimal is |
| Versions.DoubleOfOneDotTwoDigits | src/analyzer/compatibility.py:103-104 | "1.dd" becomes the multiple of 2^-52 nearest to 1 + dd/100 |
| Versions.FloatAtLeast | src/analyzer/deprecation.py:141 | the source's `float(a) >= float(b)` gives a verdict exactly when both strings parse; compared as exact decimals, as Python orders decimals of at most 15 significant digits |
| Versions.FloatAtLeastSplitsOneDouble | src/analyzer/deprecation.py:141 | "1.0" and "1.0000000000000001" round to the same double 1.0, so Python's `>=` holds, while the exact decimals order them the other way |
| Versions.FloatOrderMisranksMinors | src/analyzer/deprecation.py:141 | reading versions as numbers ranks "1.9" at or above "1.16", while the pair order puts 1.9 before 1.16 |
| Versions.ParseOneDotTwoDigits | src/analyzer/release_notes.py:227-229 | a string "1.dd" parses to major 1 and minor dd |
| Text.NatToString | src/planner/migration_plan.py:138-140 | `str(n)` is a numeral without a leading zero whose value is n |
| Text.ContainsIff | src/analyzer/compatibility.py:148-150 | substring `in` holds exactly when the needle occurs at some position |
| Snapshot.HighImpactCount | src/planner/risk_assessment.py:79-81 | the number of HIGH-impact changes is at most the number of changes |
| Compatibility.SupportedVersionsAreMinors23To30 | src/analyzer/compatibility.py:13-22 | a version is supported exactly when it is one of "1.23" to "1.30" |
| Compatibility.FormattedSupported | src/analyzer/compatibility.py:13-22 | rendering 1.23 to 1.30 gives exactly the listed version strings |
| Compatibility.SupportedVersionParses | src/analyzer/compatibility.py:73-83 | every supported version parses, to major 1 and minor 23 to 30 |
| Compatibility.Unsupported115 | src/analyzer/compatibility.py:73-83 | "1.15" is not supported |
| Compatibility.CanUpgradeDirectly | src/analyzer/compatibility.py:96-116 | an unsupported source is rejected first, then an unsupported target, each with its "Unsupported … version" reason; otherwise the pair order decides |
| Compatibility.UpgradeLegality | src/analyzer/compatibility.py:106-116 | between supported versions: a downgrade is rejected with "Cannot downgrade EKS versions"; the same version is allowed as a no-op; the next minor is allowed; any other later version is rejected with "Cannot skip minor versions in EKS upgrade"; allowed exactly in the two permitted cases |
| Compatibility.CanUpgradeDirectlyAsWritten | src/analyzer/compatibility.py:96-119 | the source's version of the check on doubles: the same support checks and reasons come first |
| Compatibility.DoubleOfMinor | src/analyzer/compatibility.py:103-104 | the double of "1.m" for a two-digit minor is the multiple of 2^-52 nearest to 1 + m/100 |
| Compatibility.OneMinorDoubleGap | src/analyzer/compatibility.py:113 | the doubles of consecutive supported minors are 45035996273705 units of 2^-52 apart |
| Compatibility.OneMinorGapExceedsHundredth | src/analyzer/compatibility.py:113 | that gap is larger than the double nearest 0.01 |
| Compatibility.GapRefusedAsWritten | src/analyzer/compatibility.py:106-114 | two supported versions whose doubles are that gap apart are refused as a skipped minor |
| Compatibility.OneMinorUpgradeAllowed | src/analyzer/compatibility.py:96-116 | in pair order, every one-minor upgrade between supported versions is allowed as a direct upgrade |
| Compatibility.OneMinorUpgradeRefusedAsWritten | src/analyzer/compatibility.py:113-114 | as written, every one-minor upgrade from 1.23 to 1.30 is refused with "Cannot skip minor versions in EKS upgrade", while the pair order allows it |
| Compatibility.CheckAddonCompatibility | src/analyzer/compatibility.py:138-152 | with no catalog entry the result is (False, None); otherwise compatible exactly when the addon version is a substring of some catalog string, and the recommendation is always the last catalog string |
| Compatibility.EmptyVersionIsCompatible | src/analyzer/compatibility.py:146-152 | the empty version is compatible whenever a catalog entry exists |
| Compatibility.CatalogVersionIsCompatible | src/analyzer/compatibility.py:146-152 | every version listed in the catalog is compatible |
| Compatibility.RecommendationFor | src/analyzer/compatibility.py:176-199 | action is required exactly when incompatible; the action is "No action required", "Upgrade to R" or a manual review, by case |
| Compatibility.GetAddonRecommendations | src/analyzer/compatibility.py:171-201 | one recommendation per addon, in input order |
| Compatibility.NeedingAction | src/analyzer/compatibility.py:238-240 | keeps exactly the recommendations that require action |
| Compatibility.ValidateUpgradePath | src/analyzer/compatibility.py:222-256 | a version issue exists exactly when the upgrade is not allowed, and it comes first; an addon issue exists exactly when some addon needs action, and it lists exactly those addons; addons are compatible exactly when none needs action |
| Compatibility.BlockingIssues | src/analyzer/compatibility.py:231-256 | the version issue comes first and only when the upgrade is refused; the addon issue comes last and exists exactly when some recommendation requires action |
| Compatibility.SupportedVersionListParses | src/analyzer/compatibility.py:261-268 | the k-th listed supported version is 1.(23+k) |
| Compatibility.SupportedVersionListMembers | src/analyzer/compatibility.py:261-268 | a version is listed exactly when it is supported |
| Compatibility.GetSupportedVersions | src/analyzer/compatibility.py:261-268 | returns exactly the supported versions, in strictly ascending order |
| UpgradePath.GenerateUpgradePath | src/planner/upgrade_path.py:36-77 | the path starts with the current version verbatim; an unparsable version or a target not after the current one gives only the current version; with the same major, the path has one entry per minor up to the target, each one minor apart; across majors it is exactly [current, target] |
| UpgradePath.SequentialPathParses | src/planner/upgrade_path.py:62-64 | the k-th element of a same-major path parses to minor current+k, so each step adds exactly one minor |
| UpgradePath.SequentialPathEndsAtTarget | src/planner/upgrade_path.py:62-64 | the last element of a same-major path is the normalised target |
| UpgradePath.Priority | src/planner/upgrade_path.py:94-106 | vpc-cni=1, kube-proxy=2, coredns=3, aws-ebs-csi-driver=4, every other name 99 |
| UpgradePath.Tag | src/planner/upgrade_path.py:104-113 | an addon keeps its fields, gains its priority, and is timed before the EKS upgrade exactly when its priority is at most 3 |
| UpgradePath.Tagged | src/planner/upgrade_path.py:102-113 | one tagged addon per input addon, in input order |
| UpgradePath.WithPriority | src/planner/upgrade_path.py:116 | the addons of one priority class, in order |
| UpgradePath.WithPriorityMember | src/planner/upgrade_path.py:116 | an addon is in its class exactly when it is in the input with that priority |
| UpgradePath.Buckets | src/planner/upgrade_path.py:116 | concatenating the classes in rank order keeps only ranked priorities |
| UpgradePath.WithPriorityConcat | src/planner/upgrade_path.py:116 | taking a class distributes over concatenation |
| UpgradePath.WithPriorityAll | src/planner/upgrade_path.py:116 | a list of one class is its own class |
| UpgradePath.WithPriorityNone | src/planner/upgrade_path.py:116 | a list without a priority has an empty class for it |
| UpgradePath.WithPriorityTwice | src/planner/upgrade_path.py:116 | taking a class of a class keeps it or empties it |
| UpgradePath.SortedConcat | src/planner/upgrade_path.py:116 | two sorted lists whose priorities do not overlap out of order concatenate to a sorted list |
| UpgradePath.BucketsSorted | src/planner/upgrade_path.py:116 | the bucket concatenation is sorted by priority |
| UpgradePath.BucketsKeepClasses | src/planner/upgrade_path.py:116 | the bucket concatenation keeps each ranked class in input order |
| UpgradePath.BucketsMember | src/planner/upgrade_path.py:116 | an addon is in the bucket concatenation exactly when it is in the input with a ranked priority |
| UpgradePath.PriorityOrderIsStableSort | src/planner/upgrade_path.py:116 | the priority order is sorted, and ties keep their input order |
| UpgradePath.StableSortUnique | src/planner/upgrade_path.py:116 | two sorted lists with the same classes in the same order are equal |
| UpgradePath.InsertKeepsSorted | src/planner/upgrade_path.py:116 | inserting after the last addon of lower or equal priority keeps the list sorted |
| UpgradePath.InsertKeepsClasses | src/planner/upgrade_path.py:116 | that insertion appends the addon to its own class and leaves the other classes alone |
| UpgradePath.InsertAt | src/planner/upgrade_path.py:116 | inserting at the boundary between lower-or-equal and higher priorities keeps the list sorted and appends the element to its own class |
| UpgradePath.InsertMultiset | src/planner/upgrade_path.py:116 | an insertion adds exactly that element to the multiset of elements |
| UpgradePath.InsertStable | src/planner/upgrade_path.py:116 | one insertion step: the result is sorted, each class gains the element only if it is its own, and the elements are those before plus the new one |
| UpgradePath.StableSortByPriority | src/planner/upgrade_path.py:116 | the result is sorted by priority, keeps the order of ties, and is a permutation of the input |
| UpgradePath.DetermineAddonUpgradeOrder | src/planner/upgrade_path.py:94-118 | the ordered addons are the stable priority sort of the tagged input: sorted, ties in input order, and a permutation |
| UpgradePath.PriorityOrderMembers | src/planner/upgrade_path.py:116 | no addon is lost or added by the ordering |
| UpgradePath.RankedAddonsComeFirst | src/planner/upgrade_path.py:116 | an addon of lower priority value comes before one of higher value |
| UpgradePath.WithTiming | src/planner/upgrade_path.py:283-288 | the addons of one timing, in order |
| UpgradePath.WithTimingMember | src/planner/upgrade_path.py:283-288 | an addon has that timing exactly when it is selected |
| UpgradePath.AddonSteps | src/planner/upgrade_path.py:309-318 | one "Upgrade <name> …" step per addon, in order |
| UpgradePath.CollectAddonSteps | src/planner/upgrade_path.py:309-318 | the loop builds exactly those steps |
| UpgradePath.ControlPlaneSeq | src/planner/upgrade_path.py:321-333 | one control-plane phase per element of `path[1:]`, in order |
| UpgradePath.OptionalPhase | src/planner/upgrade_path.py:307-318 | an addon phase appears exactly when its addon list is non-empty |
| UpgradePath.ControlPlanePhases | src/planner/upgrade_path.py:321-333 | the loop builds exactly those control-plane phases |
| UpgradePath.SplitByTiming | src/planner/upgrade_path.py:283-288 | splits the ordered addons into the before-EKS and after-EKS lists |
| UpgradePath.CreateUpgradeRunbook | src/planner/upgrade_path.py:290-387 | the runbook keeps the cluster name and path, and its phases are the fixed phase sequence |
| UpgradePath.RunbookPhaseCount | src/planner/upgrade_path.py:290-387 | the number of phases is 3 + (len(path) − 1) + [some addon before EKS] + [some addon after EKS] |
| UpgradePath.RunbookPhaseOrder | src/planner/upgrade_path.py:290-387 | Pre-Upgrade first; then the optional pre-EKS addon phase; the control-plane phases in path order; Node Group Updates; the optional post-EKS addon phase; Validation last |
| UpgradePath.AddonPhasesPresent | src/planner/upgrade_path.py:283-288 | a pre-EKS phase exists exactly when some addon has priority at most 3, and a post-EKS phase exactly when some addon has a larger priority |
| UpgradePath.RotationSteps | src/planner/upgrade_path.py:226-252 | steps exist exactly for the "rolling" and "blue-green" strategies, five each, among them the workload health check |
| UpgradePath.PlanNodeGroupRotation | src/planner/upgrade_path.py:212-261 | one plan per node group in order, carrying its capacity, the strategy and its steps |
| UpgradePath.PreUpgradeChecklist | src/planner/upgrade_path.py:121-210 | ten items, all required except the ninth, the Monitoring item; the fourth item is the Validation review and names the target version |
| UpgradePath.EstimateUpgradeTime | src/planner/upgrade_path.py:409-427 | the total is the sum of its parts, 165 + 40·(len(path) − 1) + 90·node groups + 10·addons, and at least 165 for a non-empty path |
| RiskAssessment.RiskLevel.Score | src/planner/risk_assessment.py:209-212 | LOW < MEDIUM < HIGH < CRITICAL score 1 to 4 |
| RiskAssessment.LevelOfScore | src/planner/risk_assessment.py:230-235 | the level whose score is the given score |
| RiskAssessment.ScoreOf | src/planner/risk_assessment.py:209-212 | every level name, known or not, scores between 1 and 4 |
| RiskAssessment.ScoreOfName | src/planner/risk_assessment.py:209-212 | the score of a level's name is its score, and the level of that score is the level itself |
| RiskAssessment.MaxScore | src/planner/risk_assessment.py:224-230 | the maximum score is at least every score and equal to one of them |
| RiskAssessment.OverallRisk | src/planner/risk_assessment.py:214-235 | an empty list is LOW; otherwise the overall level scores at least every factor and equals one of them |
| RiskAssessment.RemovedApis | src/planner/risk_assessment.py:33-40 | counts the API keys that have a resource with a removal version, at most one per key; zero exactly when no API has such a resource |
| RiskAssessment.AssessDeprecatedApiRisk | src/planner/risk_assessment.py:30-51 | the total is the number of resources; CRITICAL exactly when some API has a removal version; otherwise HIGH above 10, MEDIUM above 5, else LOW |
| RiskAssessment.RemovedApisHaveResources | src/planner/risk_assessment.py:30-40 | the removed-API count is at most the resource total, and positive only when there are resources |
| RiskAssessment.ApiRiskMonotone | src/planner/risk_assessment.py:30-51 | adding findings never lowers the API risk |
| RiskAssessment.AssessBreakingChangesRisk | src/planner/risk_assessment.py:72-88 | no changes is LOW; otherwise HIGH with 3 or more HIGH-impact changes, MEDIUM with 1 or 2 or with more than 5 changes, else LOW |
| RiskAssessment.BreakingRiskMonotone | src/planner/risk_assessment.py:72-88 | adding a change never lowers the breaking-change risk |
| RiskAssessment.IncompatibleCount | src/planner/risk_assessment.py:109-115 | zero exactly when no addon is marked incompatible; a missing flag counts as compatible |
| RiskAssessment.CriticalIncompatibleCount | src/planner/risk_assessment.py:116-122 | at most the incompatible count, and zero exactly when no critical addon is incompatible |
| RiskAssessment.AssessAddonCompatibilityRisk | src/planner/risk_assessment.py:109-133 | HIGH exactly when vpc-cni, kube-proxy or coredns is incompatible; otherwise MEDIUM exactly when more than 3 addons are incompatible; else LOW; never CRITICAL |
| RiskAssessment.AddonRiskMonotone | src/planner/risk_assessment.py:109-133 | adding an addon never lowers the addon risk |
| RiskAssessment.AssessVersionJumpRisk | src/planner/risk_assessment.py:152-165 | jumps = len(path) − 1; 0 or 1 jump is LOW, 2 is MEDIUM, more is HIGH, and an empty path (−1 jumps) is HIGH |
| RiskAssessment.AssessClusterSizeRisk | src/planner/risk_assessment.py:185-200 | total nodes is the sum of desired sizes; more than 100 is HIGH, more than 20 is MEDIUM, else LOW |
| RiskAssessment.SizeRiskMonotone | src/planner/risk_assessment.py:185-200 | adding a node group never lowers the size risk |
| RiskAssessment.EstimateDowntime | src/planner/risk_assessment.py:355-366 | computes 15 + 30 if severe + 15·jumps if more than one jump + 30 if more than 50 nodes |
| RiskAssessment.DowntimeBounds | src/planner/risk_assessment.py:355-366 | the downtime is at least 15 minutes, at least 45 when severe or above 50 nodes, at least 15 + 15·jumps past one jump, and at most 75 plus the jump term |
| RiskAssessment.Select | src/planner/risk_assessment.py:296-330 | keeping the flagged entries never lengthens a list |
| RiskAssessment.SelectLockstep | src/planner/risk_assessment.py:296-330 | lists filtered by the same flags have equal length |
| RiskAssessment.SelectMember | src/planner/risk_assessment.py:296-330 | every flagged entry is kept |
| RiskAssessment.Names | src/planner/risk_assessment.py:277-285 | one level name per assessment, in order |
| RiskAssessment.OverallOfLevels | src/planner/risk_assessment.py:277-285 | the overall level of five assessments is at least each of them and one of them |
| RiskAssessment.OverallOfFive | src/planner/risk_assessment.py:277-285 | the overall level of the five category levels is at least each of them and equal to one of them |
| RiskAssessment.SelectBoth | src/planner/risk_assessment.py:296-320 | walking two lists in lockstep keeps exactly the flagged entries of each, so both results have the same length |
| RiskAssessment.CollectConcerns | src/planner/risk_assessment.py:296-320 | risk factors and mitigations are appended in lockstep, so they have equal length |
| RiskAssessment.CollectPositives | src/planner/risk_assessment.py:322-330 | the positive factors are exactly the fixed texts whose condition holds |
| RiskAssessment.PerformComprehensiveAssessment | src/planner/risk_assessment.py:277-335 | each factor is its classifier's result; the overall level is at least each factor and one of them; the score is its score; rollback is required exactly when HIGH or CRITICAL; staging tests are always required; factors and mitigations have equal length; the downtime follows the formula |
| RiskAssessment.MitigationFollowsConcern | src/planner/risk_assessment.py:296-320 | the mitigation of every factor that is a concern is listed |
| MigrationPlan.ResourceMigrations | src/planner/migration_plan.py:35-56 | the migrations of one API all have priority CRITICAL and that API as current API, no more than its resources |
| MigrationPlan.MigrationsOf | src/planner/migration_plan.py:34-56 | all migrations are CRITICAL, and there are no more of them than affected resources |
| MigrationPlan.ResourceMigrationsOf | src/planner/migration_plan.py:35-56 | the inner loop collects the migrations of one API and counts its resources |
| MigrationPlan.DetectMigrationRequirements | src/planner/migration_plan.py:31-70 | the total counts every resource whatever its outcome; the migrations are those the specification selects, in iteration order; critical = number of migrations ≤ total; required exactly when there is a migration |
| MigrationPlan.ResourceMigrationsMember | src/planner/migration_plan.py:35-56 | a migration is produced for a resource of one API exactly when it needs one |
| MigrationPlan.MigrationsOfMember | src/planner/migration_plan.py:34-56 | a migration is produced exactly for each resource, under each API key, whose removal version the target reaches, and it names that key as its current API |
| MigrationPlan.MigrationNeededIff | src/planner/migration_plan.py:38-41 | for parsable versions a resource needs migration exactly when the target is at or past its removal version |
| MigrationPlan.MissingRemovalNeverMigrates | src/planner/migration_plan.py:38 | a missing removal version reads as 999.0, so no realistic target migrates the resource |
| MigrationPlan.NoResourceMigrationsForUnparsableTarget | src/planner/migration_plan.py:40-56 | an unparsable target yields no migration for an API's resources |
| MigrationPlan.NoMigrationsForUnparsableTarget | src/planner/migration_plan.py:40-56 | an unparsable target skips every resource silently |
| MigrationPlan.BodyMentions | src/planner/migration_plan.py:89-108 | the shared manifest body carries the kind and the name lines |
| MigrationPlan.BeforeManifestMentions | src/planner/migration_plan.py:89-97 | the "before" manifest carries the current API, the kind and the name |
| MigrationPlan.AfterManifestMentions | src/planner/migration_plan.py:99-108 | the "after" manifest carries the replacement API and the same kind and name |
| MigrationPlan.HighImpactPoints | src/planner/migration_plan.py:145-156 | one intervention per HIGH-impact change |
| MigrationPlan.HighImpactPointsAreBreakingChanges | src/planner/migration_plan.py:145-156 | each of those interventions is a HIGH-priority breaking_change entry |
| MigrationPlan.IdentifyManualInterventionPoints | src/planner/migration_plan.py:130-170 | the api_migration entry comes first exactly when there are migrations, with 5·n minutes; then one entry per HIGH-impact change in order; crd_validation last; length [n>0] + #HIGH + 1 |
| MigrationPlan.CreateTestingRecommendations | src/planner/migration_plan.py:187-242 | the four fixed categories, plus "API Migration Testing" for n resources exactly when there are migrations |
| MigrationPlan.ApiMigrationTestingIsExtra | src/planner/migration_plan.py:187-231 | no fixed category is the API migration category |
| MigrationPlan.AppendHighImpactPoints | src/planner/migration_plan.py:145-156 | the loop appends exactly the points of the HIGH-impact changes, in order |
| MigrationPlan.InterventionsStartWithMigration | src/planner/migration_plan.py:133-143 | the list opens with the api_migration point exactly when there are migrations |
| MigrationPlan.RecreationFlags | src/planner/migration_plan.py:259-282 | every flag is for a StatefulSet or DaemonSet and has risk HIGH, at most one per migration |
| MigrationPlan.FlagResourcesNeedingRecreation | src/planner/migration_plan.py:259-287 | the loop builds exactly those flags, in input order |
| MigrationPlan.RecreationFlagsExactly | src/planner/migration_plan.py:263-282 | a flag is produced exactly for each StatefulSet or DaemonSet migration |
| MigrationPlan.EstimateMigrationTime | src/planner/migration_plan.py:371-393 | total = 10·critical + 5·(total − critical) + 60, the sum of its parts, between 60 and 10·total + 60 when critical ≤ total |
| MigrationPlan.CollectManifestExamples | src/planner/migration_plan.py:316-327 | examples for the first min(5, n) migrations, each built from its migration |
| MigrationPlan.GenerateMigrationPlan | src/planner/migration_plan.py:289-357 | the plan combines the detection result; the manifest examples for the first min(5, n) migrations; exactly the intervention list (api_migration when there are migrations, one point per HIGH-impact change, crd_validation last); exactly the four fixed testing categories plus API Migration Testing when there are migrations; the recreation flags; and an estimate of at least 60 minutes |
| Deprecation.LookupInSpec | src/analyzer/deprecation.py:146-156 | a lookup finds a row exactly when some row has the key, and returns that row's information |
| Deprecation.GetDeprecationInfo | src/analyzer/deprecation.py:146-156 | None exactly when the API is not a key of the table; otherwise that key's row |
| Deprecation.IsApiDeprecated | src/analyzer/deprecation.py:111-121 | deprecated exactly when the API is a key of the table |
| Deprecation.IsApiRemoved | src/analyzer/deprecation.py:134-144 | false for an unlisted API or an unparsable target; otherwise removed exactly when the target is at or past the removal version |
| Deprecation.RemovalVersionParses | src/analyzer/deprecation.py:13-105 | every removal version in the table parses, with major version 1 |
| Deprecation.IsApiRemovedIff | src/analyzer/deprecation.py:134-144 | for a listed API: removed exactly when the target parses and is at or past its removal version |
| Deprecation.RemovedStaysRemoved | src/analyzer/deprecation.py:134-144 | once removed at some version, an API is removed at every later version |
| Deprecation.AppsV1beta1Removal | src/analyzer/deprecation.py:14-20 | apps/v1beta1 is removed at 1.16 and at 1.29, but not at 1.15 nor at 1.9 |
| Deprecation.IsApiRemovedAsWritten | src/analyzer/deprecation.py:134-144 | the source's float-based test reports removal only for a listed API and a parsable target |
| Deprecation.FloatRemovalMisfires | src/analyzer/deprecation.py:141 | the float-based test reports apps/v1beta1 removed at 1.9, which the pair order does not |
| Deprecation.GetMigrationGuide | src/analyzer/deprecation.py:304-327 | a guide exists exactly when the API is listed |
| Deprecation.GuideMentions | src/analyzer/deprecation.py:308-327 | the guide opens with the API's title and names the replacement API |
| Deprecation.AnalyzeResourceSpec | src/analyzer/deprecation.py:179-220 | keeps the resource's fields; deprecated exactly when listed; removed exactly when a non-empty target is given and the API is removed at it; removed implies deprecated; severity CRITICAL, WARNING or INFO by those cases; action required exactly when deprecated with a target |
| Deprecation.Analyses | src/analyzer/deprecation.py:244-253 | one analysis per resource |
| Deprecation.AnalysesAt | src/analyzer/deprecation.py:244-253 | the i-th analysis is that of the i-th resource, with the source's defaults for missing fields |
| Deprecation.RemovedResults | src/analyzer/deprecation.py:258-260 | the critical list holds only removed results, no more than all results |
| Deprecation.RemovedWithinDeprecated | src/analyzer/deprecation.py:255-260 | when removed implies deprecated, removed ≤ deprecated ≤ total |
| Deprecation.RemovedResultsMember | src/analyzer/deprecation.py:258-260 | the critical list holds exactly the removed results |
| Deprecation.AnalysesCounts | src/analyzer/deprecation.py:239-269 | over any resources, removed count ≤ deprecated count ≤ total |
| Deprecation.Record | src/analyzer/deprecation.py:253-260 | appending one analysis keeps the deprecated tally, the removed tally and the critical list equal to those of the results so far |
| Deprecation.AnalyzeResources | src/analyzer/deprecation.py:239-285 | one result per resource in order; the counts are those of the results; critical resources are the removed results; removed ≤ deprecated ≤ total; the severity is CRITICAL, WARNING or INFO by the counts, and the message is the matching case text (removed count, else deprecated count, else "No deprecated APIs found") |
| Deprecation.RemovedIn | src/analyzer/deprecation.py:339-348 | the rows kept all have exactly the given removal version |
| Deprecation.RemovedInConcat | src/analyzer/deprecation.py:341-346 | the rows are kept in table order: filtering two consecutive stretches of rows gives the kept rows of the first, then those of the second |
| Deprecation.RemovedInMember | src/analyzer/deprecation.py:339-348 | a row is kept exactly when its removal version equals the given string |
| Deprecation.GetAllDeprecationsForVersion | src/analyzer/deprecation.py:339-348 | returns exactly the table rows removed in that version: every row returned is one, and every such row is returned |
| Deprecation.RemovedInIgnoresTail | src/analyzer/deprecation.py:341-346 | rows that do not match do not change the result |
| Deprecation.RemovedInKeepsAll | src/analyzer/deprecation.py:341-346 | when every row matches, all are kept in order |
| Deprecation.RemovedIn116 | src/analyzer/deprecation.py:13-34 | version "1.16" yields apps/v1beta1, apps/v1beta2 and extensions/v1beta1, in that order |
| ReleaseNotes.AppendTagged | src/analyzer/release_notes.py:233-235 | appends one row's changes, each tagged with the row's version |
| ReleaseNotes.CollectChanges | src/analyzer/release_notes.py:230-235 | the nested loop builds exactly the tagged changes of the selected rows, row after row |
| ReleaseNotes.GetBreakingChanges | src/analyzer/release_notes.py:226-237 | nothing when either version does not parse; otherwise the tagged changes of every table version v with from < v ≤ to, in table order |
| ReleaseNotes.TaggedLength | src/analyzer/release_notes.py:233-235 | tagging keeps the number of changes |
| ReleaseNotes.TaggedAt | src/analyzer/release_notes.py:233-235 | each tagged change is the original change with `affects_version` set to its row's version |
| ReleaseNotes.ChangesInRangeMember | src/analyzer/release_notes.py:230-235 | a change is returned exactly when it belongs to a row with from < v ≤ to, and it is tagged with that row's version |
| ReleaseNotes.NothingWhenNotAscending | src/analyzer/release_notes.py:232 | when from ≥ to nothing is returned |
| ReleaseNotes.KnownVersionsParse | src/analyzer/release_notes.py:161-223 | the table's versions are 1.22 to 1.27, in that order |
| ReleaseNotes.KnownChangesAscending | src/analyzer/release_notes.py:161-223 | the table's versions all parse and strictly ascend |
| ReleaseNotes.ChangesSortedByVersion | src/analyzer/release_notes.py:230-235 | over an ascending table the results come in non-decreasing affected-version order |
| ReleaseNotes.BreakingChangesOrdered | src/analyzer/release_notes.py:161-235 | the breaking changes returned are ordered by non-decreasing affected version |
| Cache.SafeChar | src/utils/cache.py:35 | every mapped character is alphanumeric, '-' or '_' |
| Cache.SanitizeKey | src/utils/cache.py:35 | same length as the key; each character kept when alphanumeric, '-' or '_', else replaced by '_'; only such characters remain |
| Cache.SanitizeFixesSafeKeys | src/utils/cache.py:35 | a key is unchanged exactly when all its characters are already safe |
| Cache.SanitizeIdempotent | src/utils/cache.py:35 | sanitising twice equals sanitising once |
| Cache.SanitizeCollides | src/utils/cache.py:35 | distinct keys such as "a/b" and "a_b" map to the same file name |
| Cache.CachePath | src/utils/cache.py:36 | the path is the cache directory, '/', the sanitised key and ".cache" |

## Left out

- Scanners, AWS and Kubernetes helpers, reporters, the CLI and logging are not part of this model. They perform I/O and call external APIs. The deprecated-API findings they produce are the `Snapshot.ApiFindings` input records.
- `release_notes.py` fetching (`_fetch_url`, `fetch_eks_version_info`, `fetch_addon_release_notes`, `get_upgrade_notes`, `summarize_changes`) is left out: it is network access and caching.
- The rest of `cache.py` (get, set, delete, clear, JSON, TTL expiry) is left out: it is filesystem I/O, serialisation and the clock. The cache directory is a parameter of `Cache.CachePath`.
- `Cache.SanitizeKey`: models `str.isalnum` on ASCII letters and digits only. Python also accepts other Unicode letters and digits, which the model replaces by '_'.
- `Cache.CachePath`: joins with a single '/'. `pathlib` normalisation of the directory, such as dropping a trailing '/', is not modelled.
- `generate_risk_summary` and every log message are left out: they are text formatting only.
- `total_hours`, `recommended_window` and the other `round(x / 60, 1)` hour fields are left out: they are floating-point presentation of minute totals the model does compute.
- `Versions.ParseVersion`: accepts only "digits.digits". Python's `int()` also accepts signs, surrounding spaces and underscores, and `float()` also accepts a version without a dot such as "2". Those inputs are rejected in the model.
- `Deprecation.IsApiRemoved`, `MigrationPlan.MigrationNeeded` and `ReleaseNotes.GetBreakingChanges`: these compare versions in pair order, not with the source's `float(...)` comparisons. The two agree on versions whose minors have the same number of digits, and differ when a one-digit minor meets a two-digit minor (see Findings).
- `Compatibility.CanUpgradeDirectly`: uses the pair order, not the source's double subtraction. The two differ on every one-minor upgrade between supported versions, from 1.23 to 1.24 up to 1.29 to 1.30: the source refuses them all (see Findings).
- `Versions.FloatAtLeast`: compares exact decimals, not the doubles Python compares. Two decimals of 17 or more significant digits can round to one double, and then Python's `>=` holds where the model's may not: `Versions.FloatAtLeastSplitsOneDouble` shows "1.0" and "1.0000000000000001" becoming the same double while `FloatAtLeast` orders them the other way.
- `Deprecation.IsApiRemovedAsWritten`: inherits that gap from `Versions.FloatAtLeast`. `is_api_removed("apps/v1beta1", "1.15999999999999999999")` returns True, because that target rounds to the double of 1.16, while `IsApiRemovedAsWritten` returns false. Targets of at most 15 significant digits, every Kubernetes version among them, are decided as Python decides them.
- `Versions.DoubleValue`: rounds only values in [1, 2) to doubles, which covers every "1.<minor>" version. Other values give None.
- `ReleaseNotes.ChangesInRange`: a table row whose version fails to parse is skipped rather than ending the loop. Every table version parses (`ReleaseNotes.KnownVersionsParse`), so the result is the same.
- The table in `get_breaking_changes` is rebuilt on every call. In the model it is an immutable constant, and tagging returns new records, so no call can see another call's `affects_version`.
- `MigrationPlan.DetectMigrationRequirements`: a `removed_in` stored explicitly as `None` is read as missing (`"999.0"`). Python would raise `TypeError` there instead.
- `Compatibility.GetAddonRecommendations`, `UpgradePath.CreateUpgradeRunbook` and `UpgradePath.PlanNodeGroupRotation`: the addon `name` and the node group's `name` and `version` are read with no default in the source, so a missing one is `None`. The model's `Snapshot.Addon` and `Snapshot.NodeGroup` fields are plain strings, so a missing one reads as `""`. The decisions agree: no catalog entry or priority is keyed by `None` or `""`. The recorded fields and the step texts differ: the source writes "Upgrade None to compatible version" where the model writes "Upgrade  to compatible version".
- A resource name, kind or namespace that is missing reads as the empty string in findings, and as `None` in the source's migration records. The model's fields are plain strings.
- `create_testing_recommendations` takes a `cluster_info` argument it never reads. The model omits that argument, and likewise for `generate_migration_plan`.
- `Compatibility.CheckAddonCompatibility` takes the catalog as the constant table. A custom `compatibility_matrix` passed to the constructor is not modelled, nor is `get_k8s_version`, which is unused by the core.
- `UpgradePath.StableSortByPriority`: Python's Timsort is modelled by an insertion sort. The results are identical, because a stable sort is unique (`UpgradePath.StableSortUnique`).
- `RiskAssessment.AssessVersionJumpRisk`: an empty path gives −1 jumps, which the source rates HIGH; the model keeps that.

## Findings

| source | as written | input that shows it | evidently intended | confidence | as-written member | corrected member |
|---|---|---|---|---|---|---|
| src/analyzer/deprecation.py:141 | `float(k8s_version) >= float(removed_in)` compares versions as decimal numbers | `is_api_removed("apps/v1beta1", "1.9")`: 1.9 ≥ 1.16 as numbers, so apps/v1beta1 is reported removed at Kubernetes 1.9, seven minors before its removal in 1.16 | compare (major, minor) pairs, so that 1.9 < 1.16 | not executed; only one-digit minors are affected | Deprecation.FloatRemovalMisfires | Deprecation.IsApiRemovedIff |
| src/analyzer/compatibility.py:113 | `to_minor - from_minor > 0.01` on the doubles of the two version strings | `can_upgrade_directly("1.28", "1.29")`: the doubles differ by 45035996273705 × 2^-52 ≈ 0.010000000000000009, more than the double of 0.01, so the step is refused as a skipped minor; the same holds for every one-minor step from 1.23 to 1.30 | allow the next minor, as the test of 1.28 to 1.29 expects | not executed; follows from IEEE 754 round-to-nearest on the two constants | Compatibility.OneMinorUpgradeRefusedAsWritten | Compatibility.UpgradeLegality |

=== FILE: cache.dfy ===
/**
 * The cache's file naming: a key is made filesystem-safe character by
 * character and stored as `<cache_dir>/<safe_key>.cache`.
 */
module Cache {

  predicate IsAsciiLetter(c: char) {
    ('a' <= c <= 'z') || ('A' <= c <= 'Z')
  }

  predicate IsAlnum(c: char) {
    IsAsciiLetter(c) || ('0' <= c <= '9')
  }

  /** Characters kept as they are: alphanumerics, '-' and '_'. */
  predicate IsSafe(c: char) {
    IsAlnum(c) || c == '-' || c == '_'
  }

  function SafeChar(c: char): (d: char)
    ensures IsSafe(d)
  {
    if IsSafe(c) then c else '_'
  }

  /** Keeps each safe character and replaces every other one by '_'. */
  function SanitizeKey(key: string): (safe: string)
    ensures |safe| == |key|
    ensures forall i :: 0 <= i < |key| ==> safe[i] == (if IsSafe(key[i]) then key[i] else '_')
    ensures forall i :: 0 <= i < |safe| ==> IsSafe(safe[i])
  {
    if |key| == 0 then ""
    else SanitizeKey(key[..|key| - 1]) + [SafeChar(key[|key| - 1])]
  }

  /** A key is left unchanged exactly when it is already safe. */
  lemma SanitizeFixesSafeKeys(key: string)
    ensures SanitizeKey(key) == key <==> forall i :: 0 <= i < |key| ==> IsSafe(key[i])
  {
    if SanitizeKey(key) == key {
      forall i | 0 <= i < |key| ensures IsSafe(key[i]) {
        assert SanitizeKey(key)[i] == key[i];
      }
    }
  }

  /** Sanitising twice is the same as sanitising once. */
  lemma SanitizeIdempotent(key: string)
    ensures SanitizeKey(SanitizeKey(key)) == SanitizeKey(key)
  {
    SanitizeFixesSafeKeys(SanitizeKey(key));
  }

  /** Distinct keys can share a file: "a/b" and "a_b" both become "a_b". */
  lemma SanitizeCollides()
    ensures SanitizeKey("a/b") == SanitizeKey("a_b") == "a_b"
  {
  }

  /** `cache_dir / f"{safe_key}.cache"`. */
  function CachePath(cacheDir: string, key: string): (path: string)
    ensures |path| == |cacheDir| + |key| + 7
    ensures path[..|cacheDir| + 1] == cacheDir + "/"
    ensures path[|cacheDir| + 1..|path| - 6] == SanitizeKey(key)
    ensures path[|path| - 6..] == ".cache"
  {
    cacheDir + "/" + SanitizeKey(key) + ".cache"
  }
}

=== FILE: compatibility.dfy ===
/**
 * Version compatibility and the addon catalog of the EKS upgrade planner:
 * which control-plane versions are supported, whether a direct upgrade is
 * legal, whether an installed addon version matches the catalog for a
 * target version, and the aggregated validation of a planned upgrade.
 */
module Compatibility {
  import opened Wrappers
  import opened Text
  import opened Versions
  import opened Snapshot

  /** EKS version -> Kubernetes version; its keys are the supported versions. */
  const EksK8sVersions: map<string, string> := map[
    "1.23" := "1.23", "1.24" := "1.24", "1.25" := "1.25", "1.26" := "1.26",
    "1.27" := "1.27", "1.28" := "1.28", "1.29" := "1.29", "1.30" := "1.30"]

  /** EKS version -> addon name -> [minimum, recommended] version strings. */
  const AddonCompatibility: map<string, map<string, seq<string>>> := map[
    "1.27" := map[
      "coredns" := ["v1.9.3-eksbuild.1", "v1.10.1-eksbuild.1"],
      "kube-proxy" := ["v1.27.1-eksbuild.1", "v1.27.6-eksbuild.1"],
      "vpc-cni" := ["v1.12.0-eksbuild.1", "v1.15.1-eksbuild.1"],
      "aws-ebs-csi-driver" := ["v1.19.0-eksbuild.1", "v1.25.0-eksbuild.1"]],
    "1.28" := map[
      "coredns" := ["v1.10.1-eksbuild.1", "v1.10.1-eksbuild.2"],
      "kube-proxy" := ["v1.28.1-eksbuild.1", "v1.28.6-eksbuild.1"],
      "vpc-cni" := ["v1.13.0-eksbuild.1", "v1.16.0-eksbuild.1"],
      "aws-ebs-csi-driver" := ["v1.20.0-eksbuild.1", "v1.26.0-eksbuild.1"]],
    "1.29" := map[
      "coredns" := ["v1.10.1-eksbuild.1", "v1.11.1-eksbuild.1"],
      "kube-proxy" := ["v1.29.0-eksbuild.1", "v1.29.3-eksbuild.1"],
      "vpc-cni" := ["v1.14.0-eksbuild.1", "v1.16.2-eksbuild.1"],
      "aws-ebs-csi-driver" := ["v1.22.0-eksbuild.1", "v1.27.0-eksbuild.1"]],
    "1.30" := map[
      "coredns" := ["v1.11.1-eksbuild.1", "v1.11.1-eksbuild.2"],
      "kube-proxy" := ["v1.30.0-eksbuild.1", "v1.30.0-eksbuild.3"],
      "vpc-cni" := ["v1.16.0-eksbuild.1", "v1.18.0-eksbuild.1"],
      "aws-ebs-csi-driver" := ["v1.25.0-eksbuild.1", "v1.28.0-eksbuild.1"]]]

  /** Membership in the supported-version table. */
  predicate IsVersionSupported(v: string) {
    v in EksK8sVersions
  }

  /** The supported versions are exactly 1.23 through 1.30. */
  lemma SupportedVersionsAreMinors23To30(v: string)
    ensures IsVersionSupported(v) <==> exists m :: 23 <= m <= 30 && v == FormatVersion(Version(1, m))
  {
    FormattedSupported();
    if IsVersionSupported(v) {
      assert v in {"1.23", "1.24", "1.25", "1.26", "1.27", "1.28", "1.29", "1.30"};
      if v == "1.23" { assert v == FormatVersion(Version(1, 23)); }
      else if v == "1.24" { assert v == FormatVersion(Version(1, 24)); }
      else if v == "1.25" { assert v == FormatVersion(Version(1, 25)); }
      else if v == "1.26" { assert v == FormatVersion(Version(1, 26)); }
      else if v == "1.27" { assert v == FormatVersion(Version(1, 27)); }
      else if v == "1.28" { assert v == FormatVersion(Version(1, 28)); }
      else if v == "1.29" { assert v == FormatVersion(Version(1, 29)); }
      else { assert v == FormatVersion(Version(1, 30)); }
    }
  }

  lemma FormattedSupported()
    ensures FormatVersion(Version(1, 23)) == "1.23" && FormatVersion(Version(1, 24)) == "1.24"
    ensures FormatVersion(Version(1, 25)) == "1.25" && FormatVersion(Version(1, 26)) == "1.26"
    ensures FormatVersion(Version(1, 27)) == "1.27" && FormatVersion(Version(1, 28)) == "1.28"
    ensures FormatVersion(Version(1, 29)) == "1.29" && FormatVersion(Version(1, 30)) == "1.30"
  {
    FormatOneDotTwoDigits(23); FormatOneDotTwoDigits(24); FormatOneDotTwoDigits(25); FormatOneDotTwoDigits(26);
    FormatOneDotTwoDigits(27); FormatOneDotTwoDigits(28); FormatOneDotTwoDigits(29); FormatOneDotTwoDigits(30);
  }

  /** Version 1.m with a two-digit minor prints as '1', '.', then the two digits of m. */
  lemma FormatOneDotTwoDigits(m: nat)
    requires 10 <= m < 100
    ensures FormatVersion(Version(1, m)) == ['1', '.', DigitChar(m / 10), DigitChar(m % 10)]
  {
    assert NatToString(1) == ['1'];
    assert NatToString(m / 10) == [DigitChar(m / 10)];
    assert NatToString(m) == [DigitChar(m / 10)] + [DigitChar(m % 10)];
  }

  /** Every supported version parses, as 1.m with 23 <= m <= 30. */
  lemma SupportedVersionParses(v: string)
    requires IsVersionSupported(v)
    ensures ParseVersion(v).Some?
    ensures ParseVersion(v).value.major == 1 && 23 <= ParseVersion(v).value.minor <= 30
  {
    SupportedVersionsAreMinors23To30(v);
    var m :| 23 <= m <= 30 && v == FormatVersion(Version(1, m));
    ParseFormat(Version(1, m));
  }

  /** Version 1.15 is not supported. */
  lemma Unsupported115()
    ensures !IsVersionSupported("1.15")
  {
  }

  /** The outcome of `can_upgrade_directly`: (can_upgrade, reason). */
  datatype UpgradeCheck = UpgradeCheck(allowed: bool, reason: string)

  const DowngradeReason := "Cannot downgrade EKS versions"
  const SameVersionReason := "Same version (no upgrade needed)"
  const SkipReason := "Cannot skip minor versions in EKS upgrade"
  const DirectReason := "Direct upgrade supported"

  /** The order-based verdict for two parsed versions. */
  function OrderVerdict(f: Version, t: Version): UpgradeCheck {
    if Less(t, f) then UpgradeCheck(false, DowngradeReason)
    else if t == f then UpgradeCheck(true, SameVersionReason)
    else if !(t.major == f.major && t.minor == f.minor + 1) then UpgradeCheck(false, SkipReason)
    else UpgradeCheck(true, DirectReason)
  }

  /**
   * Whether the control plane can go from `fromVersion` to `toVersion` in
   * one step. Support is checked first (source before target); then the
   * pair order decides downgrade, no-op, next minor, or skipped minor.
   */
  function CanUpgradeDirectly(fromVersion: string, toVersion: string): (r: UpgradeCheck)
    ensures !IsVersionSupported(fromVersion) ==>
      r == UpgradeCheck(false, "Unsupported source version: " + fromVersion)
    ensures IsVersionSupported(fromVersion) && !IsVersionSupported(toVersion) ==>
      r == UpgradeCheck(false, "Unsupported target version: " + toVersion)
  {
    if !IsVersionSupported(fromVersion) then
      UpgradeCheck(false, "Unsupported source version: " + fromVersion)
    else if !IsVersionSupported(toVersion) then
      UpgradeCheck(false, "Unsupported target version: " + toVersion)
    else
      match (ParseVersion(fromVersion), ParseVersion(toVersion))
      case (Some(f), Some(t)) => OrderVerdict(f, t)
      case _ => UpgradeCheck(false, "Invalid version format")
  }

  /**
   * Between supported versions: a downgrade is refused, an equal version is
   * a no-op, the next minor is allowed, and a larger gap is refused with a
   * reason that mentions skipping.
   */
  lemma UpgradeLegality(fromVersion: string, toVersion: string)
    requires IsVersionSupported(fromVersion) && IsVersionSupported(toVersion)
    ensures ParseVersion(fromVersion).Some? && ParseVersion(toVersion).Some?
    ensures
      var f, t, r := ParseVersion(fromVersion).value, ParseVersion(toVersion).value,
        CanUpgradeDirectly(fromVersion, toVersion);
      && (Less(t, f) ==> r == UpgradeCheck(false, DowngradeReason))
      && (t == f ==> r == UpgradeCheck(true, SameVersionReason))
      && (t.major == f.major && t.minor == f.minor + 1 ==> r == UpgradeCheck(true, DirectReason))
      && (Less(f, t) && !(t.major == f.major && t.minor == f.minor + 1) ==> r == UpgradeCheck(false, SkipReason))
      && (r.allowed <==> t == f || (t.major == f.major && t.minor == f.minor + 1))
  {
    SupportedVersionParses(fromVersion);
    SupportedVersionParses(toVersion);
    var f, t := ParseVersion(fromVersion).value, ParseVersion(toVersion).value;
    assert CanUpgradeDirectly(fromVersion, toVersion) == OrderVerdict(f, t);
  }

  /** 2^59: in [2^-7, 2^-6), where 0.01 lies, consecutive doubles are 1 / TwoTo59 apart. */
  const TwoTo59: nat := 576460752303423488

  /** The literal `0.01` as the double nearest to it. */
  const Hundredth: real := RoundHalfEven(TwoTo59, 100) as real / TwoTo59 as real

  /**
   * `can_upgrade_directly` as written: after the support checks, both
   * versions are read with `float(...)` and the one-minor rule is the test
   * `to_minor - from_minor > 0.01` on doubles. Every supported version lies
   * in [1, 2), so `DoubleValue` gives its double; the subtraction of two
   * doubles in [1, 2) is exact (the Sterbenz lemma), so it is real
   * subtraction here.
   */
  function CanUpgradeDirectlyAsWritten(fromVersion: string, toVersion: string): (r: UpgradeCheck)
    ensures !IsVersionSupported(fromVersion) ==>
      r == UpgradeCheck(false, "Unsupported source version: " + fromVersion)
    ensures IsVersionSupported(fromVersion) && !IsVersionSupported(toVersion) ==>
      r == UpgradeCheck(false, "Unsupported target version: " + toVersion)
  {
    if !IsVersionSupported(fromVersion) then
      UpgradeCheck(false, "Unsupported source version: " + fromVersion)
    else if !IsVersionSupported(toVersion) then
      UpgradeCheck(false, "Unsupported target version: " + toVersion)
    else
      match (DoubleValue(fromVersion), DoubleValue(toVersion))
      case (Some(f), Some(t)) =>
        if t < f then UpgradeCheck(false, DowngradeReason)
        else if t == f then UpgradeCheck(true, SameVersionReason)
        else if t - f > Hundredth then UpgradeCheck(false, SkipReason)
        else UpgradeCheck(true, DirectReason)
      case _ => UpgradeCheck(false, "Invalid version format")
  }

  /** The double of "1.m" for a two-digit minor m is the nearest multiple of 1 / TwoTo52 to 1 + m / 100. */
  lemma DoubleOfMinor(m: nat)
    requires 10 <= m < 100
    ensures DoubleValue(FormatVersion(Version(1, m))) ==
      Some(RoundHalfEven((100 + m) * TwoTo52, 100) as real / TwoTo52 as real)
  {
    FormatOneDotTwoDigits(m);
    DoubleOfOneDotTwoDigits(FormatVersion(Version(1, m)));
  }

  /** Consecutive supported minors are 45035996273705 units of 1 / TwoTo52 apart as doubles. */
  lemma OneMinorDoubleGap(m: nat)
    requires 23 <= m < 30
    ensures RoundHalfEven((101 + m) * TwoTo52, 100) - RoundHalfEven((100 + m) * TwoTo52, 100) == 45035996273705
  {
    if m == 23 { } else if m == 24 { } else if m == 25 { } else if m == 26 { }
    else if m == 27 { } else if m == 28 { } else { }
  }

  /** That gap exceeds the double nearest 0.01. */
  lemma OneMinorGapExceedsHundredth()
    ensures 45035996273705.0 / TwoTo52 as real > Hundredth
  {
    assert RoundHalfEven(TwoTo59, 100) == 5764607523034235;
  }

  /** Two supported versions whose doubles are that gap apart are refused as a skipped minor. */
  lemma GapRefusedAsWritten(f: string, t: string, lo: nat, hi: nat)
    requires IsVersionSupported(f) && IsVersionSupported(t)
    requires DoubleValue(f) == Some(lo as real / TwoTo52 as real)
    requires DoubleValue(t) == Some(hi as real / TwoTo52 as real)
    requires hi - lo == 45035996273705
    ensures CanUpgradeDirectlyAsWritten(f, t) == UpgradeCheck(false, SkipReason)
  {
    OneMinorGapExceedsHundredth();
    assert hi as real / TwoTo52 as real - lo as real / TwoTo52 as real == 45035996273705.0 / TwoTo52 as real;
  }

  /** Consecutive supported versions are supported, and the pair order allows the step. */
  lemma OneMinorUpgradeAllowed(m: nat)
    requires 23 <= m < 30
    ensures IsVersionSupported(FormatVersion(Version(1, m))) && IsVersionSupported(FormatVersion(Version(1, m + 1)))
    ensures CanUpgradeDirectly(FormatVersion(Version(1, m)), FormatVersion(Version(1, m + 1))) ==
      UpgradeCheck(true, DirectReason)
  {
    var f, t := FormatVersion(Version(1, m)), FormatVersion(Version(1, m + 1));
    SupportedVersionsAreMinors23To30(f);
    SupportedVersionsAreMinors23To30(t);
    ParseFormat(Version(1, m));
    ParseFormat(Version(1, m + 1));
    UpgradeLegality(f, t);
  }

  /**
   * The source as written refuses every one-minor upgrade between supported
   * versions, which the pair order allows: the doubles of consecutive
   * minors differ by a little more than the double nearest 0.01.
   */
  lemma OneMinorUpgradeRefusedAsWritten(m: nat)
    requires 23 <= m < 30
    ensures var f, t := FormatVersion(Version(1, m)), FormatVersion(Version(1, m + 1));
      && CanUpgradeDirectlyAsWritten(f, t) == UpgradeCheck(false, SkipReason)
      && CanUpgradeDirectly(f, t) == UpgradeCheck(true, DirectReason)
  {
    OneMinorUpgradeAllowed(m);
    DoubleOfMinor(m);
    DoubleOfMinor(m + 1);
    OneMinorDoubleGap(m);
    GapRefusedAsWritten(FormatVersion(Version(1, m)), FormatVersion(Version(1, m + 1)),
      RoundHalfEven((100 + m) * TwoTo52, 100), RoundHalfEven((101 + m) * TwoTo52, 100));
  }

  /** The result of `check_addon_compatibility`: (is_compatible, recommended). */
  datatype AddonCheck = AddonCheck(isCompatible: bool, recommended: Option<string>)

  /** `any(addon_version in v for v in versions)`. */
  predicate AnyContains(versions: seq<string>, addonVersion: string)
  {
    exists i :: 0 <= i < |versions| && Contains(versions[i], addonVersion)
  }

  /** Whether the catalog has an entry for this addon at this EKS version. */
  predicate HasCatalogEntry(addonName: string, eksVersion: string) {
    eksVersion in AddonCompatibility && addonName in AddonCompatibility[eksVersion]
  }

  /**
   * Catalog lookup for one addon: compatible iff its version is a substring
   * of some catalog string; the recommendation is always the last catalog
   * string; without a catalog entry the answer is (false, None).
   */
  function CheckAddonCompatibility(addonName: string, addonVersion: string, eksVersion: string): (r: AddonCheck)
    ensures !HasCatalogEntry(addonName, eksVersion) ==> r == AddonCheck(false, None)
    ensures HasCatalogEntry(addonName, eksVersion) ==>
      var versions := AddonCompatibility[eksVersion][addonName];
      && (r.isCompatible <==> exists i :: 0 <= i < |versions| && Contains(versions[i], addonVersion))
      && r.recommended == (if |versions| > 0 then Some(versions[|versions| - 1]) else None)
  {
    if eksVersion !in AddonCompatibility then AddonCheck(false, None)
    else if addonName !in AddonCompatibility[eksVersion] then AddonCheck(false, None)
    else
      var versions := AddonCompatibility[eksVersion][addonName];
      AddonCheck(AnyContains(versions, addonVersion),
                 if |versions| > 0 then Some(versions[|versions| - 1]) else None)
  }

  /** An empty version (the default for a record without one) matches any catalog entry. */
  lemma EmptyVersionIsCompatible(addonName: string, eksVersion: string)
    requires HasCatalogEntry(addonName, eksVersion)
    ensures CheckAddonCompatibility(addonName, "", eksVersion).isCompatible
  {
    var versions := AddonCompatibility[eksVersion][addonName];
    assert Contains(versions[0], "");
  }

  /** A version equal to any catalog string for the target is compatible. */
  lemma CatalogVersionIsCompatible(addonName: string, eksVersion: string, k: nat)
    requires HasCatalogEntry(addonName, eksVersion)
    requires k < |AddonCompatibility[eksVersion][addonName]|
    ensures CheckAddonCompatibility(addonName, AddonCompatibility[eksVersion][addonName][k], eksVersion).isCompatible
  {
    var s := AddonCompatibility[eksVersion][addonName][k];
    assert Contains(s, s);
  }

  /** One element of `get_addon_recommendations`. */
  datatype AddonRecommendation = AddonRecommendation(
    addonName: string,
    currentVersion: string,
    targetEksVersion: string,
    isCompatible: bool,
    recommendedVersion: Option<string>,
    actionRequired: bool,
    action: string)

  /** Python truthiness of an optional string. */
  predicate Truthy(o: Option<string>) {
    o.Some? && o.value != ""
  }

  /** The recommendation for one addon at the target version. */
  function RecommendationFor(addon: Addon, target: string): (r: AddonRecommendation)
    ensures r.addonName == addon.name && r.currentVersion == addon.version && r.targetEksVersion == target
    ensures r.isCompatible == CheckAddonCompatibility(addon.name, addon.version, target).isCompatible
    ensures r.recommendedVersion == CheckAddonCompatibility(addon.name, addon.version, target).recommended
    ensures r.actionRequired == !r.isCompatible
    ensures r.isCompatible ==> r.action == "No action required"
    ensures !r.isCompatible && Truthy(r.recommendedVersion) ==> r.action == "Upgrade to " + r.recommendedVersion.value
    ensures !r.isCompatible && !Truthy(r.recommendedVersion) ==> r.action == "Review addon compatibility manually"
  {
    var check := CheckAddonCompatibility(addon.name, addon.version, target);
    var action :=
      if !check.isCompatible && Truthy(check.recommended) then "Upgrade to " + check.recommended.value
      else if check.isCompatible then "No action required"
      else "Review addon compatibility manually";
    AddonRecommendation(addon.name, addon.version, target, check.isCompatible,
                        check.recommended, !check.isCompatible, action)
  }

  /** One recommendation per addon, in input order. */
  method GetAddonRecommendations(addons: seq<Addon>, target: string) returns (recs: seq<AddonRecommendation>)
    ensures |recs| == |addons|
    ensures forall i :: 0 <= i < |addons| ==> recs[i] == RecommendationFor(addons[i], target)
  {
    recs := [];
    for i := 0 to |addons|
      invariant |recs| == i
      invariant forall j :: 0 <= j < i ==> recs[j] == RecommendationFor(addons[j], target)
    {
      recs := recs + [RecommendationFor(addons[i], target)];
    }
  }

  /** `[rec for rec in recs if rec['action_required']]`. */
  function NeedingAction(recs: seq<AddonRecommendation>): (r: seq<AddonRecommendation>)
    ensures |r| <= |recs|
    ensures forall x :: x in r <==> x in recs && x.actionRequired
  {
    if |recs| == 0 then []
    else (if recs[0].actionRequired then [recs[0]] else []) + NeedingAction(recs[1..])
  }

  /** An entry of `blocking_issues`. */
  datatype BlockingIssue =
    | VersionIncompatibility(message: string)
    | AddonIncompatibility(message: string, addons: seq<AddonRecommendation>)

  /** The dictionary `validate_upgrade_path` returns. */
  datatype ValidationResult = ValidationResult(
    currentVersion: string,
    targetVersion: string,
    canUpgrade: bool,
    reason: string,
    addonsCompatible: bool,
    addonRecommendations: seq<AddonRecommendation>,
    blockingIssues: seq<BlockingIssue>)

  /**
   * Validates a planned upgrade without short-circuiting: the version
   * verdict and every addon needing action are all reported.
   */
  method ValidateUpgradePath(current: string, target: string, addons: seq<Addon>) returns (result: ValidationResult)
    ensures result.currentVersion == current && result.targetVersion == target
    ensures result.canUpgrade == CanUpgradeDirectly(current, target).allowed
    ensures result.reason == CanUpgradeDirectly(current, target).reason
    ensures |result.addonRecommendations| == |addons|
    ensures forall i :: 0 <= i < |addons| ==>
      result.addonRecommendations[i] == RecommendationFor(addons[i], target)
    ensures result.addonsCompatible <==>
      forall i :: 0 <= i < |addons| ==> !result.addonRecommendations[i].actionRequired
    ensures |result.blockingIssues| ==
      (if result.canUpgrade then 0 else 1) + (if result.addonsCompatible then 0 else 1)
    ensures !result.canUpgrade ==> result.blockingIssues[0] == VersionIncompatibility(result.reason)
    ensures forall k :: 0 <= k < |result.blockingIssues| && result.blockingIssues[k].VersionIncompatibility? ==> k == 0
    ensures !result.addonsCompatible ==>
      result.blockingIssues[|result.blockingIssues| - 1] ==
        AddonIncompatibility("Some addons require updates before upgrade", NeedingAction(result.addonRecommendations))
    ensures result.addonsCompatible ==> forall k :: 0 <= k < |result.blockingIssues| ==> !result.blockingIssues[k].AddonIncompatibility?
  {
    var check := CanUpgradeDirectly(current, target);
    var recs := GetAddonRecommendations(addons, target);
    var issues, compatible := BlockingIssues(check, recs);
    result := ValidationResult(current, target, check.allowed, check.reason, compatible, recs, issues);
  }

  /**
   * The version issue when the upgrade is refused, then the addon issue when
   * some recommendation requires action.
   */
  method BlockingIssues(check: UpgradeCheck, recs: seq<AddonRecommendation>)
    returns (issues: seq<BlockingIssue>, compatible: bool)
    ensures compatible <==> forall i :: 0 <= i < |recs| ==> !recs[i].actionRequired
    ensures |issues| == (if check.allowed then 0 else 1) + (if compatible then 0 else 1)
    ensures !check.allowed ==> issues[0] == VersionIncompatibility(check.reason)
    ensures forall k :: 0 <= k < |issues| && issues[k].VersionIncompatibility? ==> k == 0
    ensures !compatible ==>
      issues[|issues| - 1] == AddonIncompatibility("Some addons require updates before upgrade", NeedingAction(recs))
    ensures compatible ==> forall k :: 0 <= k < |issues| ==> !issues[k].AddonIncompatibility?
  {
    var needUpgrade := exists i :: 0 <= i < |recs| && recs[i].actionRequired;
    issues := [];
    if !check.allowed {
      issues := issues + [VersionIncompatibility(check.reason)];
    }
    if needUpgrade {
      issues := issues + [AddonIncompatibility("Some addons require updates before upgrade", NeedingAction(recs))];
    }
    compatible := !needUpgrade;
  }

  /** The supported versions, 1.23 through 1.30, by ascending minor. */
  function SupportedVersionList(): seq<string> {
    seq(8, k requires 0 <= k < 8 => FormatVersion(Version(1, 23 + k)))
  }

  lemma SupportedVersionListParses(k: nat)
    requires k < 8
    ensures ParseVersion(SupportedVersionList()[k]) == Some(Version(1, 23 + k))
  {
    ParseFormat(Version(1, 23 + k));
  }

  lemma SupportedVersionListMembers(v: string)
    ensures v in SupportedVersionList() <==> IsVersionSupported(v)
  {
    SupportedVersionsAreMinors23To30(v);
    if IsVersionSupported(v) {
      var m :| 23 <= m <= 30 && v == FormatVersion(Version(1, m));
      assert SupportedVersionList()[m - 23] == v;
    }
  }

  /** The supported versions in ascending version order. */
  function GetSupportedVersions(): (r: seq<string>)
    ensures forall v :: v in r <==> IsVersionSupported(v)
    ensures forall i :: 0 <= i < |r| ==> ParseVersion(r[i]).Some?
    ensures forall i, j :: 0 <= i < j < |r| ==> Less(ParseVersion(r[i]).value, ParseVersion(r[j]).value)
  {
    var r := SupportedVersionList();
    assert forall k :: 0 <= k < 8 ==> ParseVersion(r[k]) == Some(Version(1, 23 + k)) by {
      forall k | 0 <= k < 8 { SupportedVersionListParses(k); }
    }
    assert forall v :: v in r <==> IsVersionSupported(v) by {
      forall v { SupportedVersionListMembers(v); }
    }
    r
  }
}

=== FILE: deprecation.dfy ===
/**
 * The API deprecation analyzer: the table of deprecated Kubernetes API
 * versions, lookups into it, whether an API is removed at a target
 * version, per-resource and per-cluster analysis, migration guides, and the
 * APIs removed in a given version.
 */
module Deprecation {
  import opened Wrappers
  import opened Text
  import opened Versions

  datatype ApiDeprecation = ApiDeprecation(
    deprecatedIn: string,
    removedIn: string,
    replacement: string,
    resources: seq<string>,
    migrationNotes: string)

  /** One row of the table, keyed by the deprecated `apiVersion`. */
  datatype Entry = Entry(api: string, info: ApiDeprecation)

  /** The deprecation table, in the order the source lists it. */
  const ApiDeprecations: seq<Entry> := [
    Entry("apps/v1beta1", ApiDeprecation("1.8", "1.16", "apps/v1",
      ["Deployment", "StatefulSet", "DaemonSet", "ReplicaSet"],
      "Update apiVersion to apps/v1. No other changes required for most resources.")),
    Entry("apps/v1beta2", ApiDeprecation("1.9", "1.16", "apps/v1",
      ["Deployment", "StatefulSet", "DaemonSet", "ReplicaSet"],
      "Update apiVersion to apps/v1. Check for selector immutability.")),
    Entry("extensions/v1beta1", ApiDeprecation("1.14", "1.16", "apps/v1 or networking.k8s.io/v1",
      ["Deployment", "DaemonSet", "ReplicaSet", "Ingress", "NetworkPolicy", "PodSecurityPolicy"],
      "Use apps/v1 for workloads, networking.k8s.io/v1 for Ingress.")),
    Entry("networking.k8s.io/v1beta1", ApiDeprecation("1.19", "1.22", "networking.k8s.io/v1",
      ["Ingress", "IngressClass"],
      "Update apiVersion and review pathType and backend changes.")),
    Entry("admissionregistration.k8s.io/v1beta1", ApiDeprecation("1.19", "1.22", "admissionregistration.k8s.io/v1",
      ["MutatingWebhookConfiguration", "ValidatingWebhookConfiguration"],
      "Update apiVersion and review webhook configuration.")),
    Entry("apiextensions.k8s.io/v1beta1", ApiDeprecation("1.19", "1.22", "apiextensions.k8s.io/v1",
      ["CustomResourceDefinition"],
      "Update CRD schema to structural schema format.")),
    Entry("batch/v1beta1", ApiDeprecation("1.21", "1.25", "batch/v1",
      ["CronJob"],
      "Update apiVersion to batch/v1. Review schedule format.")),
    Entry("policy/v1beta1", ApiDeprecation("1.21", "1.25", "policy/v1",
      ["PodDisruptionBudget", "PodSecurityPolicy"],
      "Update to policy/v1. Note: PSP is removed, migrate to Pod Security Standards.")),
    Entry("autoscaling/v2beta1", ApiDeprecation("1.22", "1.25", "autoscaling/v2",
      ["HorizontalPodAutoscaler"],
      "Update apiVersion and review metrics format.")),
    Entry("autoscaling/v2beta2", ApiDeprecation("1.23", "1.26", "autoscaling/v2",
      ["HorizontalPodAutoscaler"],
      "Update apiVersion to autoscaling/v2.")),
    Entry("discovery.k8s.io/v1beta1", ApiDeprecation("1.21", "1.25", "discovery.k8s.io/v1",
      ["EndpointSlice"],
      "Update apiVersion to discovery.k8s.io/v1.")),
    Entry("flowcontrol.apiserver.k8s.io/v1beta1", ApiDeprecation("1.23", "1.26", "flowcontrol.apiserver.k8s.io/v1beta2",
      ["FlowSchema", "PriorityLevelConfiguration"],
      "Update apiVersion to v1beta2 or v1beta3.")),
    Entry("storage.k8s.io/v1beta1", ApiDeprecation("1.19", "1.22", "storage.k8s.io/v1",
      ["CSIDriver", "CSINode", "StorageClass", "VolumeAttachment"],
      "Update apiVersion to storage.k8s.io/v1."))
  ]

  /** The API version is a key of the table. */
  ghost predicate InTable(api: string) {
    exists i :: 0 <= i < |ApiDeprecations| && ApiDeprecations[i].api == api
  }

  /** The first row keyed by `api`, as a dictionary lookup. */
  function LookupIn(entries: seq<Entry>, api: string): Option<ApiDeprecation>
    decreases |entries|
  {
    if |entries| == 0 then None
    else if entries[0].api == api then Some(entries[0].info)
    else LookupIn(entries[1..], api)
  }

  /** The lookup finds a row exactly when some row has the key, and returns that row's info. */
  lemma {:induction false} LookupInSpec(entries: seq<Entry>, api: string)
    ensures LookupIn(entries, api).Some? <==> exists i :: 0 <= i < |entries| && entries[i].api == api
    ensures LookupIn(entries, api).Some? ==>
      exists i :: 0 <= i < |entries| && entries[i] == Entry(api, LookupIn(entries, api).value)
    decreases |entries|
  {
    if |entries| > 0 && entries[0].api != api {
      LookupInSpec(entries[1..], api);
      assert forall i :: 0 < i < |entries| ==> entries[i] == entries[1..][i - 1];
    }
  }

  /** The table row for `api`, or None when the API is not deprecated. */
  function GetDeprecationInfo(api: string): (r: Option<ApiDeprecation>)
    ensures r.Some? <==> InTable(api)
    ensures r.Some? ==> exists i :: 0 <= i < |ApiDeprecations| && ApiDeprecations[i] == Entry(api, r.value)
  {
    LookupInSpec(ApiDeprecations, api);
    LookupIn(ApiDeprecations, api)
  }

  /** Deprecated means listed in the table. */
  function IsApiDeprecated(api: string): (b: bool)
    ensures b <==> InTable(api)
  {
    GetDeprecationInfo(api).Some?
  }

  /**
   * Removed at `k8s` when the API is listed and `k8s` is at or past its
   * removal version; false for an unlisted API or an unparsable version.
   */
  function IsApiRemoved(api: string, k8s: string): (removed: bool)
    ensures removed ==> IsApiDeprecated(api) && ParseVersion(k8s).Some?
    ensures removed <==>
      (GetDeprecationInfo(api).Some? && VersionAtLeast(k8s, GetDeprecationInfo(api).value.removedIn) == Some(true))
  {
    match GetDeprecationInfo(api)
    case None => false
    case Some(info) => VersionAtLeast(k8s, info.removedIn) == Some(true)
  }

  /** Every removal version in the table parses, as 1.16, 1.22, 1.25 or 1.26. */
  lemma RemovalVersionParses(i: nat)
    requires i < |ApiDeprecations|
    ensures ParseVersion(ApiDeprecations[i].info.removedIn).Some?
    ensures ParseVersion(ApiDeprecations[i].info.removedIn).value.major == 1
  {
    var s := ApiDeprecations[i].info.removedIn;
    assert |s| == 4 && s[0] == '1' && s[1] == '.' && IsDigit(s[2]) && IsDigit(s[3]);
    ParseOneDotTwoDigits(s);
  }

  /**
   * For a listed API: removed exactly when the target parses and is at or
   * past the API's removal version.
   */
  lemma IsApiRemovedIff(api: string, k8s: string)
    requires InTable(api)
    ensures ParseVersion(GetDeprecationInfo(api).value.removedIn).Some?
    ensures IsApiRemoved(api, k8s) <==>
      (ParseVersion(k8s).Some? &&
       AtLeast(ParseVersion(k8s).value, ParseVersion(GetDeprecationInfo(api).value.removedIn).value))
  {
    var i :| 0 <= i < |ApiDeprecations| && ApiDeprecations[i] == Entry(api, GetDeprecationInfo(api).value);
    RemovalVersionParses(i);
  }

  /**
   * The source's own test: `float(k8s) >= float(removed_in)`, compared as
   * exact decimals, which agrees with Python on targets of at most 15
   * significant digits.
   */
  function IsApiRemovedAsWritten(api: string, k8s: string): (removed: bool)
    ensures removed ==> IsApiDeprecated(api) && ParseVersion(k8s).Some?
  {
    match GetDeprecationInfo(api)
    case None => false
    case Some(info) => FloatAtLeast(k8s, info.removedIn) == Some(true)
  }

  /** Once an API is removed it stays removed at every later version. */
  lemma RemovedStaysRemoved(api: string, a: string, b: string)
    requires IsApiRemoved(api, a)
    requires ParseVersion(b).Some? && AtLeast(ParseVersion(b).value, ParseVersion(a).value)
    ensures IsApiRemoved(api, b)
  {
    var info := GetDeprecationInfo(api).value;
    var va, vb, vr := ParseVersion(a).value, ParseVersion(b).value, ParseVersion(info.removedIn).value;
    LessIsStrictTotalOrder(vb, va, vr);
  }

  /** apps/v1beta1 is gone at 1.16 and later, present at 1.15 and at 1.9. */
  lemma AppsV1beta1Removal()
    ensures IsApiRemoved("apps/v1beta1", "1.16")
    ensures IsApiRemoved("apps/v1beta1", "1.29")
    ensures !IsApiRemoved("apps/v1beta1", "1.15")
    ensures !IsApiRemoved("apps/v1beta1", "1.9")
  {
    assert GetDeprecationInfo("apps/v1beta1") == Some(ApiDeprecations[0].info);
    ParseOneDotTwoDigits("1.16");
    ParseOneDotTwoDigits("1.29");
    ParseOneDotTwoDigits("1.15");
    ParseOneDotOneDigit("1.9");
  }

  /**
   * Comparing versions as decimal numbers reports apps/v1beta1 removed at
   * 1.9, seven minor versions before its removal in 1.16.
   */
  lemma FloatRemovalMisfires()
    ensures IsApiRemovedAsWritten("apps/v1beta1", "1.9")
    ensures !IsApiRemoved("apps/v1beta1", "1.9")
  {
    assert GetDeprecationInfo("apps/v1beta1") == Some(ApiDeprecations[0].info);
    FloatOrderMisranksMinors();
    AppsV1beta1Removal();
  }

  // ---------------------------------------------------------------------
  // Migration guide

  const Rule := "=================================================="

  function GuideTitle(api: string): string {
    "Migration Guide for " + api
  }

  function ReplacementLine(replacement: string): string {
    "Replacement: " + replacement
  }

  /** Everything after the title, with the trailing newline stripped. */
  function GuideRest(info: ApiDeprecation): string {
    GuideDates(info) + ReplacementLine(info.replacement) + GuideNotes(info)
  }

  /** The rule under the title and the deprecation and removal versions. */
  function GuideDates(info: ApiDeprecation): string {
    "\n" + Rule + "\n\nDeprecated in: Kubernetes " + info.deprecatedIn
      + "\nRemoved in: Kubernetes " + info.removedIn + "\n"
  }

  /** The affected resources, the notes and the three action steps. */
  function GuideNotes(info: ApiDeprecation): string {
    "\n\nAffected Resources:\n" + Join(info.resources, ", ")
      + "\n\nMigration Notes:\n" + info.migrationNotes
      + "\n\nAction Required:\n1. Update apiVersion field to " + info.replacement
      + "\n2. Review and test the updated manifests\n3. Apply changes before upgrading to " + info.removedIn
  }

  /** The guide text for a listed API; None for an API the table does not list. */
  function GetMigrationGuide(api: string): (r: Option<string>)
    ensures r.Some? <==> InTable(api)
  {
    match GetDeprecationInfo(api)
    case None => None
    case Some(info) => Some(GuideTitle(api) + GuideRest(info))
  }

  /** A guide opens with its API's title and names the replacement API. */
  lemma GuideMentions(api: string)
    requires InTable(api)
    ensures Contains(GetMigrationGuide(api).value, GuideTitle(api))
    ensures Contains(GetMigrationGuide(api).value, ReplacementLine(GetDeprecationInfo(api).value.replacement))
  {
    match GetDeprecationInfo(api)
    case Some(info) => GuideTextMentions(api, info);
  }

  /** The guide text for any table row holds its title and its replacement line. */
  lemma GuideTextMentions(api: string, info: ApiDeprecation)
    ensures Contains(GuideTitle(api) + GuideRest(info), GuideTitle(api))
    ensures Contains(GuideTitle(api) + GuideRest(info), ReplacementLine(info.replacement))
  {
    TitledMentions(GuideTitle(api), GuideDates(info), ReplacementLine(info.replacement), GuideNotes(info));
  }

  /** A titled text holds its title and every middle part. */
  lemma TitledMentions(title: string, before: string, middle: string, after: string)
    ensures Contains(title + (before + middle + after), title)
    ensures Contains(title + (before + middle + after), middle)
  {
    ContainsInfix(before, middle, after);
    ContainsSuffix(title, before + middle + after, middle);
    ContainsPrefix(title, before + middle + after, title);
  }

  // ---------------------------------------------------------------------
  // Resource analysis

  datatype Severity = Info | Warning | Critical

  /** One analysed resource. */
  datatype ResourceAnalysis = ResourceAnalysis(
    resourceName: string,
    resourceKind: string,
    apiVersion: string,
    namespace: string,
    isDeprecated: bool,
    isRemoved: bool,
    severity: Severity,
    actionRequired: bool,
    deprecationInfo: Option<ApiDeprecation>,
    message: string)

  /** An optional target counts only when present and non-empty. */
  predicate Truthy(o: Option<string>) {
    o.Some? && o.value != ""
  }

  /**
   * Current APIs are INFO; deprecated ones are WARNING without a target,
   * CRITICAL when removed at the target and WARNING otherwise, and call
   * for action exactly when a target is given.
   */
  function AnalyzeResource(name: string, kind: string, api: string, namespace: string, target: Option<string>)
    : ResourceAnalysis
  {
    match GetDeprecationInfo(api)
    case None =>
      ResourceAnalysis(name, kind, api, namespace, false, false, Info, false, None, "API " + api + " is current")
    case Some(info) =>
      if Truthy(target) then
        if IsApiRemoved(api, target.value) then
          ResourceAnalysis(name, kind, api, namespace, true, true, Critical, true, Some(info),
            "API " + api + " is removed in Kubernetes " + target.value + ". Must migrate to " + info.replacement)
        else
          ResourceAnalysis(name, kind, api, namespace, true, false, Warning, true, Some(info),
            "API " + api + " is deprecated and will be removed in Kubernetes " + info.removedIn
            + ". Plan migration to " + info.replacement)
      else
        ResourceAnalysis(name, kind, api, namespace, true, false, Warning, false, Some(info),
          "API " + api + " is deprecated")
  }

  /** What `AnalyzeResource` reports, field by field. */
  lemma AnalyzeResourceSpec(name: string, kind: string, api: string, namespace: string, target: Option<string>)
    ensures var a := AnalyzeResource(name, kind, api, namespace, target);
      && a.resourceName == name && a.resourceKind == kind && a.apiVersion == api && a.namespace == namespace
      && (a.isDeprecated <==> InTable(api))
      && (a.isRemoved <==> Truthy(target) && IsApiRemoved(api, target.value))
      && (a.isRemoved ==> a.isDeprecated)
      && a.severity == (if a.isRemoved then Critical else if a.isDeprecated then Warning else Info)
      && (a.actionRequired <==> a.isDeprecated && Truthy(target))
      && a.deprecationInfo == GetDeprecationInfo(api)
  {
    var d := GetDeprecationInfo(api);
    assert d.Some? <==> InTable(api);
    if d.Some? && Truthy(target) {
      assert IsApiRemoved(api, target.value) == (VersionAtLeast(target.value, d.value.removedIn) == Some(true));
    }
  }

  /** A resource as scanned; absent fields take the source's defaults. */
  datatype ResourceRecord = ResourceRecord(
    name: Option<string>,
    kind: Option<string>,
    apiVersion: Option<string>,
    namespace: Option<string>)

  function AnalysisOf(r: ResourceRecord, target: Option<string>): ResourceAnalysis {
    AnalyzeResource(r.name.GetOr("unknown"), r.kind.GetOr("unknown"), r.apiVersion.GetOr(""),
                    r.namespace.GetOr("default"), target)
  }

  /** The analyses of all resources, in order. */
  function Analyses(rs: seq<ResourceRecord>, target: Option<string>): (r: seq<ResourceAnalysis>)
    ensures |r| == |rs|
  {
    if |rs| == 0 then []
    else Analyses(rs[..|rs| - 1], target) + [AnalysisOf(rs[|rs| - 1], target)]
  }

  /** Each result is the analysis of the resource at the same position. */
  lemma {:induction false} AnalysesAt(rs: seq<ResourceRecord>, target: Option<string>, i: nat)
    requires i < |rs|
    ensures Analyses(rs, target)[i] == AnalysisOf(rs[i], target)
    decreases |rs|
  {
    if i < |rs| - 1 {
      AnalysesAt(rs[..|rs| - 1], target, i);
    }
  }

  /** One more resource adds its analysis at the end. */
  lemma AnalysesSnoc(rs: seq<ResourceRecord>, target: Option<string>, i: nat)
    requires i < |rs|
    ensures Analyses(rs[..i + 1], target) == Analyses(rs[..i], target) + [AnalysisOf(rs[i], target)]
  {
    assert rs[..i + 1][..i] == rs[..i];
  }

  function DeprecatedCount(results: seq<ResourceAnalysis>): nat {
    if |results| == 0 then 0
    else DeprecatedCount(results[..|results| - 1]) + (if results[|results| - 1].isDeprecated then 1 else 0)
  }

  /** The removed results, in order. */
  function RemovedResults(results: seq<ResourceAnalysis>): (r: seq<ResourceAnalysis>)
    ensures |r| <= |results|
    ensures forall k :: 0 <= k < |r| ==> r[k].isRemoved
  {
    if |results| == 0 then []
    else RemovedResults(results[..|results| - 1])
         + (if results[|results| - 1].isRemoved then [results[|results| - 1]] else [])
  }

  /** Removed results are deprecated ones, so there are no more of them. */
  lemma {:induction false} RemovedWithinDeprecated(results: seq<ResourceAnalysis>)
    requires forall i :: 0 <= i < |results| && results[i].isRemoved ==> results[i].isDeprecated
    ensures |RemovedResults(results)| <= DeprecatedCount(results) <= |results|
    decreases |results|
  {
    if |results| > 0 {
      RemovedWithinDeprecated(results[..|results| - 1]);
    }
  }

  /** The critical list holds exactly the removed results. */
  lemma {:induction false} RemovedResultsMember(results: seq<ResourceAnalysis>, x: ResourceAnalysis)
    ensures x in RemovedResults(results) <==> x in results && x.isRemoved
    decreases |results|
  {
    if |results| > 0 {
      var init := results[..|results| - 1];
      RemovedResultsMember(init, x);
      assert results == init + [results[|results| - 1]];
    }
  }

  /** Over any resources, no more are removed than deprecated, and no more deprecated than there are. */
  lemma AnalysesCounts(rs: seq<ResourceRecord>, target: Option<string>)
    ensures |RemovedResults(Analyses(rs, target))| <= DeprecatedCount(Analyses(rs, target)) <= |rs|
  {
    var results := Analyses(rs, target);
    forall j | 0 <= j < |results| && results[j].isRemoved
      ensures results[j].isDeprecated
    {
      AnalysesAt(rs, target, j);
      var r := rs[j];
      AnalyzeResourceSpec(r.name.GetOr("unknown"), r.kind.GetOr("unknown"), r.apiVersion.GetOr(""),
                          r.namespace.GetOr("default"), target);
    }
    RemovedWithinDeprecated(results);
  }

  datatype Summary = Summary(
    totalResources: nat,
    deprecatedCount: nat,
    removedCount: nat,
    target: Option<string>,
    criticalResources: seq<ResourceAnalysis>,
    allResults: seq<ResourceAnalysis>,
    severity: Severity,
    message: string)

  /** The summary severity: CRITICAL if any removal, else WARNING if any deprecation. */
  function SummarySeverity(removed: nat, deprecated: nat): Severity {
    if removed > 0 then Critical else if deprecated > 0 then Warning else Info
  }

  function SummaryMessage(removed: nat, deprecated: nat): string {
    if removed > 0 then NatToString(removed) + " resources use APIs removed in target version. Immediate action required!"
    else if deprecated > 0 then NatToString(deprecated) + " resources use deprecated APIs. Plan migration before upgrade."
    else "No deprecated APIs found"
  }

  /** Appends one analysis and updates the deprecated and removed tallies. */
  method Record(results: seq<ResourceAnalysis>, deprecated: nat, removed: nat, critical: seq<ResourceAnalysis>,
                analysis: ResourceAnalysis)
    returns (results': seq<ResourceAnalysis>, deprecated': nat, removed': nat, critical': seq<ResourceAnalysis>)
    requires deprecated == DeprecatedCount(results) && critical == RemovedResults(results) && removed == |critical|
    ensures results' == results + [analysis]
    ensures deprecated' == DeprecatedCount(results') && critical' == RemovedResults(results')
    ensures removed' == |critical'|
  {
    results' := results + [analysis];
    assert results'[..|results'| - 1] == results;
    deprecated', removed', critical' := deprecated, removed, critical;
    if analysis.isDeprecated {
      deprecated' := deprecated + 1;
    }
    if analysis.isRemoved {
      removed' := removed + 1;
      critical' := critical + [analysis];
    }
  }

  /** Analyses every resource in order and counts the deprecated and removed ones. */
  method AnalyzeResources(resources: seq<ResourceRecord>, target: Option<string>) returns (s: Summary)
    ensures s.allResults == Analyses(resources, target)
    ensures s.totalResources == |resources|
    ensures s.deprecatedCount == DeprecatedCount(s.allResults)
    ensures s.criticalResources == RemovedResults(s.allResults)
    ensures s.removedCount == |s.criticalResources| <= s.deprecatedCount <= s.totalResources
    ensures s.severity == SummarySeverity(s.removedCount, s.deprecatedCount)
    ensures s.message == SummaryMessage(s.removedCount, s.deprecatedCount)
    ensures s.target == target
  {
    var results: seq<ResourceAnalysis> := [];
    var deprecated := 0;
    var removed := 0;
    var critical: seq<ResourceAnalysis> := [];
    for i := 0 to |resources|
      invariant results == Analyses(resources[..i], target)
      invariant deprecated == DeprecatedCount(results)
      invariant critical == RemovedResults(results)
      invariant removed == |critical|
    {
      var analysis := AnalysisOf(resources[i], target);
      AnalysesSnoc(resources, target, i);
      results, deprecated, removed, critical := Record(results, deprecated, removed, critical, analysis);
    }
    assert resources[..|resources|] == resources;
    AnalysesCounts(resources, target);
    s := Summary(|resources|, deprecated, removed, target, critical, results,
                 SummarySeverity(removed, deprecated), SummaryMessage(removed, deprecated));
  }

  // ---------------------------------------------------------------------
  // APIs removed in one version

  /** The rows whose removal version is exactly `v`, in table order. */
  function RemovedIn(entries: seq<Entry>, v: string): (r: seq<Entry>)
    ensures |r| <= |entries|
    ensures forall k :: 0 <= k < |r| ==> r[k].info.removedIn == v
  {
    if |entries| == 0 then []
    else RemovedIn(entries[..|entries| - 1], v)
         + (if entries[|entries| - 1].info.removedIn == v then [entries[|entries| - 1]] else [])
  }

  lemma {:induction false} RemovedInMember(entries: seq<Entry>, v: string, e: Entry)
    ensures e in RemovedIn(entries, v) <==> e in entries && e.info.removedIn == v
    decreases |entries|
  {
    if |entries| > 0 {
      var init := entries[..|entries| - 1];
      RemovedInMember(init, v, e);
      assert entries == init + [entries[|entries| - 1]];
    }
  }

  /**
   * The filter keeps table order: over two consecutive stretches of rows,
   * the kept rows of the first come before those of the second.
   */
  lemma {:induction false} RemovedInConcat(a: seq<Entry>, b: seq<Entry>, v: string)
    ensures RemovedIn(a + b, v) == RemovedIn(a, v) + RemovedIn(b, v)
    decreases |b|
  {
    if |b| == 0 {
      assert a + b == a;
    } else {
      var init := b[..|b| - 1];
      assert (a + b)[..|a + b| - 1] == a + init;
      assert (a + b)[|a + b| - 1] == b[|b| - 1];
      RemovedInConcat(a, init, v);
    }
  }

  /** The table rows removed in exactly `v` (an exact string match). */
  function GetAllDeprecationsForVersion(v: string): (r: seq<Entry>)
    ensures forall k :: 0 <= k < |r| ==> r[k].info.removedIn == v && r[k] in ApiDeprecations
    ensures forall e :: e in ApiDeprecations && e.info.removedIn == v ==> e in r
  {
    var r := RemovedIn(ApiDeprecations, v);
    assert forall k :: 0 <= k < |r| ==> r[k] in ApiDeprecations by {
      forall k | 0 <= k < |r| { RemovedInMember(ApiDeprecations, v, r[k]); }
    }
    assert forall e :: e in ApiDeprecations && e.info.removedIn == v ==> e in r by {
      forall e | e in ApiDeprecations && e.info.removedIn == v { RemovedInMember(ApiDeprecations, v, e); }
    }
    r
  }

  /** Rows past `n` that do not match leave the filter unchanged. */
  lemma {:induction false} RemovedInIgnoresTail(entries: seq<Entry>, v: string, n: nat)
    requires n <= |entries|
    requires forall k :: n <= k < |entries| ==> entries[k].info.removedIn != v
    ensures RemovedIn(entries, v) == RemovedIn(entries[..n], v)
    decreases |entries|
  {
    if n < |entries| {
      var init := entries[..|entries| - 1];
      assert init[..n] == entries[..n];
      assert entries[|entries| - 1].info.removedIn != v;
      RemovedInIgnoresTail(init, v, n);
    } else {
      assert entries[..n] == entries;
    }
  }

  /** When every row matches, the filter keeps them all. */
  lemma {:induction false} RemovedInKeepsAll(entries: seq<Entry>, v: string)
    requires forall k :: 0 <= k < |entries| ==> entries[k].info.removedIn == v
    ensures RemovedIn(entries, v) == entries
    decreases |entries|
  {
    if |entries| > 0 {
      RemovedInKeepsAll(entries[..|entries| - 1], v);
    }
  }

  /** Kubernetes 1.16 removed the two apps betas and extensions/v1beta1. */
  lemma RemovedIn116()
    ensures GetAllDeprecationsForVersion("1.16") == ApiDeprecations[..3]
  {
    var v := "1.16";
    assert "1.22" != v && "1.25" != v && "1.26" != v by {
      assert "1.22"[2] != v[2] && "1.25"[2] != v[2] && "1.26"[2] != v[2];
    }
    RemovedInIgnoresTail(ApiDeprecations, v, 3);
    RemovedInKeepsAll(ApiDeprecations[..3], v);
  }
}

=== FILE: migration_plan.dfy ===
/**
 * The migration planner: which resources using deprecated APIs must be
 * migrated before the target version, before/after manifest examples,
 * manual intervention points, testing recommendations, resources that may
 * need recreation, and the migration time estimate in integer minutes.
 */
module MigrationPlan {
  import opened Wrappers
  import opened Text
  import opened Versions
  import opened Snapshot

  /** One resource that must move to a newer API version. */
  datatype Migration = Migration(
    resourceName: string,
    resourceKind: string,
    namespace: string,
    currentApi: string,
    replacementApi: Option<string>,
    migrationNotes: Option<string>,
    priority: string)

  /** A missing `removed_in` reads as "999.0", a version no target reaches in practice. */
  function RemovedInOrDefault(r: AffectedResource): string {
    r.info.removedIn.GetOr("999.0")
  }

  /**
   * The resource must be migrated when the target is at or past its removal
   * version. When either version does not parse the resource is skipped.
   */
  predicate MigrationNeeded(target: string, r: AffectedResource) {
    VersionAtLeast(target, RemovedInOrDefault(r)) == Some(true)
  }

  function MigrationFor(api: string, r: AffectedResource): Migration {
    Migration(r.name, r.kind, r.namespace, api, r.info.replacement, r.info.migrationNotes, "CRITICAL")
  }

  /** The migrations required among the resources of one API, in order. */
  function ResourceMigrations(api: string, rs: seq<AffectedResource>, target: string): (ms: seq<Migration>)
    ensures |ms| <= |rs|
    ensures forall k :: 0 <= k < |ms| ==> ms[k].currentApi == api && ms[k].priority == "CRITICAL"
  {
    if |rs| == 0 then []
    else ResourceMigrations(api, rs[..|rs| - 1], target)
         + (if MigrationNeeded(target, rs[|rs| - 1]) then [MigrationFor(api, rs[|rs| - 1])] else [])
  }

  /** The migrations required over all APIs, in iteration order. */
  function MigrationsOf(apis: seq<ApiFindings>, target: string): (ms: seq<Migration>)
    ensures |ms| <= TotalDeprecated(apis)
    ensures forall k :: 0 <= k < |ms| ==> ms[k].priority == "CRITICAL"
  {
    if |apis| == 0 then []
    else MigrationsOf(apis[..|apis| - 1], target)
         + ResourceMigrations(apis[|apis| - 1].api, apis[|apis| - 1].resources, target)
  }

  datatype MigrationRequirements = MigrationRequirements(
    migrationsRequired: bool,
    totalResourcesAffected: nat,
    criticalMigrations: nat,
    migrations: seq<Migration>)

  /** The migrations among one API's resources, and how many resources it has. */
  method ResourceMigrationsOf(f: ApiFindings, target: string) returns (ms: seq<Migration>, count: nat)
    ensures ms == ResourceMigrations(f.api, f.resources, target)
    ensures count == |f.resources|
  {
    ms := [];
    count := 0;
    for j := 0 to |f.resources|
      invariant ms == ResourceMigrations(f.api, f.resources[..j], target)
      invariant count == j
    {
      var r := f.resources[j];
      count := count + 1;
      var removedIn := RemovedInOrDefault(r);
      if VersionAtLeast(target, removedIn) == Some(true) {
        ms := ms + [MigrationFor(f.api, r)];
      }
      assert f.resources[..j + 1][..j] == f.resources[..j];
    }
    assert f.resources[..|f.resources|] == f.resources;
  }

  /**
   * Counts every affected resource and collects a CRITICAL migration for
   * each one whose removal version the target reaches.
   */
  method DetectMigrationRequirements(apis: seq<ApiFindings>, target: string) returns (req: MigrationRequirements)
    ensures req.migrations == MigrationsOf(apis, target)
    ensures req.totalResourcesAffected == TotalDeprecated(apis)
    ensures req.criticalMigrations == |req.migrations| <= req.totalResourcesAffected
    ensures req.migrationsRequired <==> |req.migrations| > 0
  {
    var migrations: seq<Migration> := [];
    var total := 0;
    for i := 0 to |apis|
      invariant migrations == MigrationsOf(apis[..i], target)
      invariant total == TotalDeprecated(apis[..i])
    {
      var ms, count := ResourceMigrationsOf(apis[i], target);
      migrations := migrations + ms;
      total := total + count;
      assert apis[..i + 1][..i] == apis[..i];
    }
    assert apis[..|apis|] == apis;
    req := MigrationRequirements(|migrations| > 0, total, |migrations|, migrations);
  }

  /** `m` is the migration of some resource of `api` that needs one. */
  ghost predicate MigrationOfResource(api: string, rs: seq<AffectedResource>, target: string, m: Migration) {
    exists j :: 0 <= j < |rs| && MigrationNeeded(target, rs[j]) && m == MigrationFor(api, rs[j])
  }

  lemma {:induction false} ResourceMigrationsMember(api: string, rs: seq<AffectedResource>, target: string, m: Migration)
    ensures m in ResourceMigrations(api, rs, target) <==> MigrationOfResource(api, rs, target, m)
    decreases |rs|
  {
    if |rs| > 0 {
      var init := rs[..|rs| - 1];
      ResourceMigrationsMember(api, init, target, m);
      if MigrationOfResource(api, init, target, m) {
        var j :| 0 <= j < |init| && MigrationNeeded(target, init[j]) && m == MigrationFor(api, init[j]);
        assert rs[j] == init[j];
      }
      if MigrationOfResource(api, rs, target, m) {
        var j :| 0 <= j < |rs| && MigrationNeeded(target, rs[j]) && m == MigrationFor(api, rs[j]);
        if j < |rs| - 1 {
          assert init[j] == rs[j];
        }
      }
    }
  }

  /**
   * A migration is produced exactly for each resource, under each API key,
   * whose removal version the target reaches.
   */
  lemma {:induction false} MigrationsOfMember(apis: seq<ApiFindings>, target: string, m: Migration)
    ensures m in MigrationsOf(apis, target) <==>
      exists i :: 0 <= i < |apis| && MigrationOfResource(apis[i].api, apis[i].resources, target, m)
    decreases |apis|
  {
    if |apis| > 0 {
      var init, last := apis[..|apis| - 1], apis[|apis| - 1];
      MigrationsOfMember(init, target, m);
      ResourceMigrationsMember(last.api, last.resources, target, m);
      if exists i :: 0 <= i < |init| && MigrationOfResource(init[i].api, init[i].resources, target, m) {
        var i :| 0 <= i < |init| && MigrationOfResource(init[i].api, init[i].resources, target, m);
        assert apis[i] == init[i];
      }
      if exists i :: 0 <= i < |apis| && MigrationOfResource(apis[i].api, apis[i].resources, target, m) {
        var i :| 0 <= i < |apis| && MigrationOfResource(apis[i].api, apis[i].resources, target, m);
        if i < |apis| - 1 {
          assert init[i] == apis[i];
        }
      }
    }
  }

  lemma {:induction false} NoResourceMigrationsForUnparsableTarget(api: string, rs: seq<AffectedResource>, target: string)
    requires ParseVersion(target).None?
    ensures ResourceMigrations(api, rs, target) == []
    decreases |rs|
  {
    if |rs| > 0 {
      NoResourceMigrationsForUnparsableTarget(api, rs[..|rs| - 1], target);
    }
  }

  /** An unparsable target skips every resource: nothing to migrate, yet all are counted. */
  lemma {:induction false} NoMigrationsForUnparsableTarget(apis: seq<ApiFindings>, target: string)
    requires ParseVersion(target).None?
    ensures MigrationsOf(apis, target) == []
    decreases |apis|
  {
    if |apis| > 0 {
      NoMigrationsForUnparsableTarget(apis[..|apis| - 1], target);
      NoResourceMigrationsForUnparsableTarget(apis[|apis| - 1].api, apis[|apis| - 1].resources, target);
    }
  }

  /** A resource without a removal version is never migrated to a target below 999.0. */
  lemma MissingRemovalNeverMigrates(target: string, r: AffectedResource)
    requires r.info.removedIn.None?
    requires ParseVersion(target).Some? && ParseVersion(target).value.major < 999
    ensures !MigrationNeeded(target, r)
  {
    var s := "999.0";
    assert DotIndex(s) == 3 by {
      assert s[0] != '.' && s[1] != '.' && s[2] != '.' && s[3] == '.';
    }
    assert s[..3] == "999" && s[4..] == "0";
    assert NumeralValue("9") == 9;
    assert NumeralValue("99") == 99 by { assert "99"[..1] == "9"; }
    assert NumeralValue("999") == 999 by { assert "999"[..2] == "99"; }
    assert ParseVersion(s) == Some(Version(999, 0));
  }

  /** For parsable versions, migration is exactly "target is at or past the removal version". */
  lemma MigrationNeededIff(target: string, r: AffectedResource)
    requires ParseVersion(target).Some? && ParseVersion(RemovedInOrDefault(r)).Some?
    ensures MigrationNeeded(target, r) <==>
      AtLeast(ParseVersion(target).value, ParseVersion(RemovedInOrDefault(r)).value)
  {
  }

  // ---------------------------------------------------------------------
  // Manifest examples

  /** How an absent replacement renders inside an f-string. */
  function Render(o: Option<string>): string {
    match o
    case Some(s) => s
    case None => "None"
  }

  datatype ManifestExample = ManifestExample(before: string, after: string)

  function ApiLine(api: string): string { "apiVersion: " + api }
  function KindLine(kind: string): string { "kind: " + kind }
  function NameLine(name: string): string { "  name: " + name }

  /** The manifest lines after `apiVersion` up to the name line. */
  function KindPart(kind: string): string { "\n" + KindLine(kind) + "\nmetadata:\n" }

  /** The name line and the rest of the manifest. */
  function NamePart(name: string, namespace: string): string {
    NameLine(name) + ("\n  namespace: " + namespace + "\nspec:\n  # ... existing spec ...")
  }

  /** The manifest body shared by both examples, after the `apiVersion` line. */
  function ManifestBody(kind: string, name: string, namespace: string): string {
    KindPart(kind) + NamePart(name, namespace)
  }

  const SpecNote := "\n  # Note: Review for any spec changes required"

  /**
   * Before/after manifests: the same kind, name and namespace under the
   * current API and under the replacement API (trailing newline stripped).
   */
  function GenerateManifestExamples(m: Migration): ManifestExample {
    ManifestExample(
      "# BEFORE - Deprecated API\n" + ApiLine(m.currentApi)
        + ManifestBody(m.resourceKind, m.resourceName, m.namespace),
      "# AFTER - Updated API\n" + ApiLine(Render(m.replacementApi))
        + (ManifestBody(m.resourceKind, m.resourceName, m.namespace) + SpecNote))
  }

  /** The body mentions the kind and the name. */
  lemma BodyMentions(kind: string, name: string, namespace: string)
    ensures Contains(ManifestBody(kind, name, namespace), KindLine(kind))
    ensures Contains(ManifestBody(kind, name, namespace), NameLine(name))
  {
    ContainsInfix("\n", KindLine(kind), "\nmetadata:\n");
    ContainsPrefix(KindPart(kind), NamePart(name, namespace), KindLine(kind));
    assert Contains(NamePart(name, namespace), NameLine(name));
    ContainsSuffix(KindPart(kind), NamePart(name, namespace), NameLine(name));
  }

  /** "before" carries the current API, the kind and the name. */
  lemma BeforeManifestMentions(m: Migration)
    ensures Contains(GenerateManifestExamples(m).before, ApiLine(m.currentApi))
    ensures Contains(GenerateManifestExamples(m).before, KindLine(m.resourceKind))
    ensures Contains(GenerateManifestExamples(m).before, NameLine(m.resourceName))
  {
    var head := "# BEFORE - Deprecated API\n";
    var body := ManifestBody(m.resourceKind, m.resourceName, m.namespace);
    ContainsInfix(head, ApiLine(m.currentApi), body);
    BodyMentions(m.resourceKind, m.resourceName, m.namespace);
    ContainsSuffix(head + ApiLine(m.currentApi), body, KindLine(m.resourceKind));
    ContainsSuffix(head + ApiLine(m.currentApi), body, NameLine(m.resourceName));
  }

  /** "after" carries the replacement API and the same kind and name. */
  lemma AfterManifestMentions(m: Migration)
    ensures Contains(GenerateManifestExamples(m).after, ApiLine(Render(m.replacementApi)))
    ensures Contains(GenerateManifestExamples(m).after, KindLine(m.resourceKind))
    ensures Contains(GenerateManifestExamples(m).after, NameLine(m.resourceName))
  {
    var head := "# AFTER - Updated API\n";
    var api := ApiLine(Render(m.replacementApi));
    var body := ManifestBody(m.resourceKind, m.resourceName, m.namespace);
    ContainsInfix(head, api, body + SpecNote);
    BodyMentions(m.resourceKind, m.resourceName, m.namespace);
    ContainsPrefix(body, SpecNote, KindLine(m.resourceKind));
    ContainsPrefix(body, SpecNote, NameLine(m.resourceName));
    ContainsSuffix(head + api, body + SpecNote, KindLine(m.resourceKind));
    ContainsSuffix(head + api, body + SpecNote, NameLine(m.resourceName));
  }

  /** A manifest example entry: `kind/name`, namespace, and the example pair. */
  datatype ManifestEntry = ManifestEntry(resource: string, namespace: string, examples: ManifestExample)

  function EntryFor(m: Migration): ManifestEntry {
    ManifestEntry(m.resourceKind + "/" + m.resourceName, m.namespace, GenerateManifestExamples(m))
  }

  // ---------------------------------------------------------------------
  // Manual intervention points

  datatype Intervention = Intervention(
    kind: string,
    priority: string,
    description: string,
    action: string,
    estimatedTime: string,
    details: Option<string>)

  /** The API-migration point: five minutes per resource to migrate. */
  function ApiMigrationPoint(n: nat): Intervention {
    Intervention("api_migration", "HIGH", NatToString(n) + " resources need API version updates",
                 "Update manifests and re-apply resources", NatToString(n * 5) + " minutes", None)
  }

  function BreakingChangePoint(c: BreakingChange): Intervention {
    Intervention("breaking_change", "HIGH", c.title, c.action, "30-60 minutes", Some(c.description))
  }

  const CrdValidationPoint := Intervention("crd_validation", "MEDIUM", "Verify all CRDs are compatible",
                                           "Check CRD versions and update if needed", "15-30 minutes", None)

  /** One point per HIGH-impact change, in order. */
  function HighImpactPoints(changes: seq<BreakingChange>): (r: seq<Intervention>)
    ensures |r| == HighImpactCount(changes)
  {
    if |changes| == 0 then []
    else HighImpactPoints(changes[..|changes| - 1])
         + (if IsHighImpact(changes[|changes| - 1]) then [BreakingChangePoint(changes[|changes| - 1])] else [])
  }

  /**
   * The API-migration point first when there are migrations, then one point
   * per HIGH-impact change in order, and the CRD validation point last.
   */
  method IdentifyManualInterventionPoints(migrations: seq<Migration>, changes: seq<BreakingChange>)
    returns (points: seq<Intervention>)
    ensures points == (if |migrations| > 0 then [ApiMigrationPoint(|migrations|)] else [])
                      + HighImpactPoints(changes) + [CrdValidationPoint]
    ensures |points| == (if |migrations| > 0 then 1 else 0) + HighImpactCount(changes) + 1
    ensures points[|points| - 1] == CrdValidationPoint
    ensures |migrations| > 0 <==> points[0].kind == "api_migration"
  {
    points := if |migrations| > 0 then [ApiMigrationPoint(|migrations|)] else [];
    points := AppendHighImpactPoints(points, changes);
    points := points + [CrdValidationPoint];
    InterventionsStartWithMigration(|migrations|, changes);
  }

  /** Appends one breaking-change point per HIGH-impact change, in order. */
  method AppendHighImpactPoints(acc: seq<Intervention>, changes: seq<BreakingChange>) returns (points: seq<Intervention>)
    ensures points == acc + HighImpactPoints(changes)
  {
    points := acc;
    for i := 0 to |changes|
      invariant points == acc + HighImpactPoints(changes[..i])
    {
      if IsHighImpact(changes[i]) {
        points := points + [BreakingChangePoint(changes[i])];
      }
      assert changes[..i + 1][..i] == changes[..i];
    }
    assert changes[..|changes|] == changes;
  }

  /** The list opens with the API-migration point exactly when there are migrations. */
  lemma InterventionsStartWithMigration(n: nat, changes: seq<BreakingChange>)
    ensures var points := (if n > 0 then [ApiMigrationPoint(n)] else []) + HighImpactPoints(changes) + [CrdValidationPoint];
      n > 0 <==> points[0].kind == "api_migration"
  {
    var h := HighImpactPoints(changes);
    var points := (if n > 0 then [ApiMigrationPoint(n)] else []) + h + [CrdValidationPoint];
    if n == 0 {
      if |h| > 0 {
        HighImpactPointsAreBreakingChanges(changes, 0);
        assert points[0] == h[0];
        assert points[0].kind[0] == 'b';
      } else {
        assert points[0].kind[0] == 'c';
      }
    }
  }

  lemma {:induction false} HighImpactPointsAreBreakingChanges(changes: seq<BreakingChange>, k: nat)
    requires k < |HighImpactPoints(changes)|
    ensures HighImpactPoints(changes)[k].kind == "breaking_change"
    ensures HighImpactPoints(changes)[k].priority == "HIGH"
    decreases |changes|
  {
    var init := changes[..|changes| - 1];
    if k < |HighImpactPoints(init)| {
      HighImpactPointsAreBreakingChanges(init, k);
    }
  }

  // ---------------------------------------------------------------------
  // Testing recommendations

  datatype TestingCategory = TestingCategory(category: string, tests: seq<string>, importance: string)

  const BaseTestingCategories: seq<TestingCategory> := [
    TestingCategory("Pre-Migration Testing", [
      "Backup all workload manifests",
      "Export current resource definitions",
      "Document current application behavior"], "CRITICAL"),
    TestingCategory("Manifest Validation", [
      "Validate updated manifests with kubectl apply --dry-run=server",
      "Check for deprecation warnings with kubectl",
      "Use pluto or kubent tools to scan for deprecated APIs"], "HIGH"),
    TestingCategory("Staging Environment Testing", [
      "Deploy updated manifests to staging cluster",
      "Verify all pods start successfully",
      "Test application functionality",
      "Monitor for unexpected errors or warnings",
      "Validate networking and service discovery"], "CRITICAL"),
    TestingCategory("Rollback Testing", [
      "Test rollback procedure",
      "Verify ability to restore from backups",
      "Document rollback steps"], "HIGH")]

  function ApiMigrationTesting(n: nat): TestingCategory {
    TestingCategory("API Migration Testing", [
      "Test updated manifests for " + NatToString(n) + " affected resources",
      "Verify resource spec compatibility",
      "Check for field renames or changes"], "CRITICAL")
  }

  /** The four fixed categories, plus API migration testing when there are migrations. */
  method CreateTestingRecommendations(migrations: seq<Migration>) returns (recs: seq<TestingCategory>)
    ensures recs == BaseTestingCategories + (if |migrations| > 0 then [ApiMigrationTesting(|migrations|)] else [])
    ensures |recs| == if |migrations| > 0 then 5 else 4
    ensures recs[..4] == BaseTestingCategories
    ensures |migrations| > 0 ==> recs[4] == ApiMigrationTesting(|migrations|)
  {
    recs := BaseTestingCategories;
    if |migrations| > 0 {
      recs := recs + [ApiMigrationTesting(|migrations|)];
    }
  }

  /** No fixed category is the API migration one, so it appears only for migrations. */
  lemma ApiMigrationTestingIsExtra()
    ensures forall i :: 0 <= i < |BaseTestingCategories| ==>
      BaseTestingCategories[i].category != ApiMigrationTesting(0).category
  {
    var c := ApiMigrationTesting(0).category;
    assert c[0] == 'A';
    assert BaseTestingCategories[0].category[0] == 'P';
    assert BaseTestingCategories[1].category[0] == 'M';
    assert BaseTestingCategories[2].category[0] == 'S';
    assert BaseTestingCategories[3].category[0] == 'R';
  }

  // ---------------------------------------------------------------------
  // Resources needing recreation

  const RecreationKinds: seq<string> := ["StatefulSet", "DaemonSet"]

  const RecreationProcedure: seq<string> := [
    "Export current resource definition",
    "Update API version in manifest",
    "Delete existing resource",
    "Recreate with updated manifest",
    "Verify pods are running"]

  datatype RecreationFlag = RecreationFlag(
    resourceName: string,
    resourceKind: string,
    namespace: string,
    reason: string,
    procedure: seq<string>,
    risk: string)

  function FlagFor(m: Migration): RecreationFlag {
    RecreationFlag(m.resourceName, m.resourceKind, m.namespace,
                   m.resourceKind + " may require recreation for API version change",
                   RecreationProcedure, "HIGH")
  }

  /** The flags for the StatefulSet and DaemonSet migrations, in order. */
  function RecreationFlags(ms: seq<Migration>): (r: seq<RecreationFlag>)
    ensures |r| <= |ms|
    ensures forall k :: 0 <= k < |r| ==> r[k].resourceKind in RecreationKinds && r[k].risk == "HIGH"
  {
    if |ms| == 0 then []
    else RecreationFlags(ms[..|ms| - 1])
         + (if ms[|ms| - 1].resourceKind in RecreationKinds then [FlagFor(ms[|ms| - 1])] else [])
  }

  method FlagResourcesNeedingRecreation(ms: seq<Migration>) returns (flags: seq<RecreationFlag>)
    ensures flags == RecreationFlags(ms)
  {
    flags := [];
    for i := 0 to |ms|
      invariant flags == RecreationFlags(ms[..i])
    {
      if ms[i].resourceKind in RecreationKinds {
        flags := flags + [FlagFor(ms[i])];
      }
      assert ms[..i + 1][..i] == ms[..i];
    }
    assert ms[..|ms|] == ms;
  }

  /** `f` is the flag of some StatefulSet or DaemonSet migration of `ms`. */
  ghost predicate FlagOfMigration(ms: seq<Migration>, f: RecreationFlag) {
    exists i :: 0 <= i < |ms| && ms[i].resourceKind in RecreationKinds && f == FlagFor(ms[i])
  }

  /** Exactly the StatefulSet and DaemonSet migrations are flagged. */
  lemma {:induction false} RecreationFlagsExactly(ms: seq<Migration>, f: RecreationFlag)
    ensures f in RecreationFlags(ms) <==> FlagOfMigration(ms, f)
    decreases |ms|
  {
    if |ms| > 0 {
      var init := ms[..|ms| - 1];
      RecreationFlagsExactly(init, f);
      if FlagOfMigration(init, f) {
        var i :| 0 <= i < |init| && init[i].resourceKind in RecreationKinds && f == FlagFor(init[i]);
        assert ms[i] == init[i];
      }
      if FlagOfMigration(ms, f) {
        var i :| 0 <= i < |ms| && ms[i].resourceKind in RecreationKinds && f == FlagFor(ms[i]);
        if i < |ms| - 1 {
          assert init[i] == ms[i];
        }
      }
    }
  }

  // ---------------------------------------------------------------------
  // Time estimate and the whole plan

  /** The integer-minute parts of the migration time estimate. */
  datatype MigrationTime = MigrationTime(totalMinutes: int, criticalMinutes: int, otherMinutes: int, testingMinutes: int)

  /**
   * Ten minutes per critical migration, five per other affected resource,
   * sixty for testing; at least the testing hour whenever the critical
   * migrations are among the affected resources.
   */
  function EstimateMigrationTime(critical: nat, total: nat): (t: MigrationTime)
    ensures t.totalMinutes == t.criticalMinutes + t.otherMinutes + t.testingMinutes
    ensures t.totalMinutes == 10 * critical + 5 * (total - critical) + 60
    ensures critical <= total ==> 60 <= t.totalMinutes <= 10 * total + 60
  {
    MigrationTime(critical * 10 + (total - critical) * 5 + 60, critical * 10, (total - critical) * 5, 60)
  }

  datatype Plan = Plan(
    migrationRequired: bool,
    totalResourcesAffected: nat,
    criticalMigrations: nat,
    migrations: seq<Migration>,
    manifestExamples: seq<ManifestEntry>,
    manualInterventions: seq<Intervention>,
    testingRecommendations: seq<TestingCategory>,
    resourcesNeedingRecreation: seq<RecreationFlag>,
    estimatedTime: MigrationTime)

  /** Manifest examples for at most the first five migrations. */
  method CollectManifestExamples(ms: seq<Migration>) returns (examples: seq<ManifestEntry>)
    ensures |examples| == if |ms| < 5 then |ms| else 5
    ensures forall i :: 0 <= i < |examples| ==> examples[i] == EntryFor(ms[i])
  {
    examples := [];
    var firstFive := if |ms| < 5 then ms else ms[..5];
    for i := 0 to |firstFive|
      invariant |examples| == i
      invariant forall j :: 0 <= j < i ==> examples[j] == EntryFor(ms[j])
    {
      examples := examples + [EntryFor(firstFive[i])];
    }
  }

  /** The whole migration plan for the findings, the breaking changes and the target. */
  method GenerateMigrationPlan(apis: seq<ApiFindings>, changes: seq<BreakingChange>, target: string)
    returns (plan: Plan)
    ensures plan.migrations == MigrationsOf(apis, target)
    ensures plan.totalResourcesAffected == TotalDeprecated(apis)
    ensures plan.criticalMigrations == |plan.migrations| <= plan.totalResourcesAffected
    ensures plan.migrationRequired <==> |plan.migrations| > 0
    ensures |plan.manifestExamples| == if |plan.migrations| < 5 then |plan.migrations| else 5
    ensures forall i :: 0 <= i < |plan.manifestExamples| ==> plan.manifestExamples[i] == EntryFor(plan.migrations[i])
    ensures plan.manualInterventions == (if |plan.migrations| > 0 then [ApiMigrationPoint(|plan.migrations|)] else [])
                                        + HighImpactPoints(changes) + [CrdValidationPoint]
    ensures |plan.manualInterventions| == (if |plan.migrations| > 0 then 1 else 0) + HighImpactCount(changes) + 1
    ensures plan.testingRecommendations ==
      BaseTestingCategories + (if |plan.migrations| > 0 then [ApiMigrationTesting(|plan.migrations|)] else [])
    ensures |plan.testingRecommendations| == if |plan.migrations| > 0 then 5 else 4
    ensures plan.resourcesNeedingRecreation == RecreationFlags(plan.migrations)
    ensures plan.estimatedTime == EstimateMigrationTime(plan.criticalMigrations, plan.totalResourcesAffected)
    ensures plan.estimatedTime.totalMinutes >= 60
  {
    var req := DetectMigrationRequirements(apis, target);
    var examples := CollectManifestExamples(req.migrations);
    var interventions := IdentifyManualInterventionPoints(req.migrations, changes);
    var testing := CreateTestingRecommendations(req.migrations);
    var recreation := FlagResourcesNeedingRecreation(req.migrations);
    plan := Plan(req.migrationsRequired, req.totalResourcesAffected, req.criticalMigrations, req.migrations,
                 examples, interventions, testing, recreation,
                 EstimateMigrationTime(req.criticalMigrations, req.totalResourcesAffected));
  }
}

=== FILE: release_notes.dfy ===
/**
 * The breaking-change lookup of the release-notes analyzer: a fixed table
 * of known breaking changes per EKS version, and the filter that returns,
 * in table order, the changes of every version `v` with `from < v <= to`,
 * each tagged with the version it affects.
 */
module ReleaseNotes {
  import opened Wrappers
  import opened Text
  import opened Versions
  import opened Snapshot

  /** The known breaking changes of one version. */
  datatype VersionChanges = VersionChanges(version: string, changes: seq<BreakingChange>)

  /** The table of known breaking changes, by ascending version; no change is tagged yet. */
  const KnownChanges: seq<VersionChanges> := [
    VersionChanges("1.22", [
      BreakingChange("api_removal", "Beta API removals",
        "Several beta APIs removed including Ingress v1beta1", "HIGH",
        "Update manifests to use stable API versions", None)]),
    VersionChanges("1.23", [
      BreakingChange("deprecation", "FlexVolume deprecated",
        "FlexVolume is deprecated, use CSI drivers", "MEDIUM",
        "Migrate to CSI drivers", None)]),
    VersionChanges("1.24", [
      BreakingChange("feature_removal", "Dockershim removed",
        "Docker runtime support removed, use containerd", "HIGH",
        "Ensure using containerd runtime", None)]),
    VersionChanges("1.25", [
      BreakingChange("api_removal", "PodSecurityPolicy removed",
        "PSP API removed, migrate to Pod Security Standards", "HIGH",
        "Implement Pod Security Standards", None),
      BreakingChange("api_removal", "Beta API removals",
        "CronJob v1beta1, PodDisruptionBudget v1beta1 removed", "HIGH",
        "Update to stable v1 APIs", None)]),
    VersionChanges("1.26", [
      BreakingChange("api_removal", "HPA v2beta2 removed",
        "HorizontalPodAutoscaler v2beta2 API removed", "MEDIUM",
        "Update to autoscaling/v2", None)]),
    VersionChanges("1.27", [
      BreakingChange("deprecation", "CSI migration",
        "In-tree storage plugins being migrated to CSI", "MEDIUM",
        "Review storage configuration", None)])
  ]

  /** `from < v <= to` in the pair order. */
  predicate InRange(f: Version, v: Version, t: Version) {
    Less(f, v) && AtLeast(t, v)
  }

  /** The version of a table row falls in the range (an unparsable row never does). */
  predicate Selected(e: VersionChanges, f: Version, t: Version) {
    ParseVersion(e.version).Some? && InRange(f, ParseVersion(e.version).value, t)
  }

  /** The changes of one row, each tagged with the version it affects. */
  function Tagged(changes: seq<BreakingChange>, version: string): (r: seq<BreakingChange>)
  {
    if |changes| == 0 then []
    else Tagged(changes[..|changes| - 1], version) + [changes[|changes| - 1].(affectsVersion := Some(version))]
  }

  /** The tagged changes of the selected rows, row after row. */
  function ChangesInRange(table: seq<VersionChanges>, f: Version, t: Version): seq<BreakingChange>
  {
    if |table| == 0 then []
    else ChangesInRange(table[..|table| - 1], f, t)
         + (if Selected(table[|table| - 1], f, t) then Tagged(table[|table| - 1].changes, table[|table| - 1].version) else [])
  }

  /** Appends the changes of one row, tagged with its version. */
  method AppendTagged(acc: seq<BreakingChange>, row: VersionChanges) returns (r: seq<BreakingChange>)
    ensures r == acc + Tagged(row.changes, row.version)
  {
    r := acc;
    for j := 0 to |row.changes|
      invariant r == acc + Tagged(row.changes[..j], row.version)
    {
      assert row.changes[..j + 1][..j] == row.changes[..j];
      r := r + [row.changes[j].(affectsVersion := Some(row.version))];
    }
    assert row.changes[..|row.changes|] == row.changes;
  }

  /** The tagged changes of every row whose version lies in the range, row after row. */
  method CollectChanges(table: seq<VersionChanges>, f: Version, t: Version) returns (changes: seq<BreakingChange>)
    ensures changes == ChangesInRange(table, f, t)
  {
    changes := [];
    for i := 0 to |table|
      invariant changes == ChangesInRange(table[..i], f, t)
    {
      assert table[..i + 1][..i] == table[..i];
      var v := ParseVersion(table[i].version);
      if v.Some? && Less(f, v.value) && !Less(t, v.value) {
        changes := AppendTagged(changes, table[i]);
      }
    }
    assert table[..|table|] == table;
  }

  /**
   * The changes of every table version `v` with `from < v <= to`, in table
   * order; nothing when either version does not parse.
   */
  method GetBreakingChanges(fromVersion: string, toVersion: string) returns (changes: seq<BreakingChange>)
    ensures ParseVersion(fromVersion).None? || ParseVersion(toVersion).None? ==> changes == []
    ensures ParseVersion(fromVersion).Some? && ParseVersion(toVersion).Some? ==>
      changes == ChangesInRange(KnownChanges, ParseVersion(fromVersion).value, ParseVersion(toVersion).value)
  {
    var f, t := ParseVersion(fromVersion), ParseVersion(toVersion);
    if f.None? || t.None? {
      return [];
    }
    changes := CollectChanges(KnownChanges, f.value, t.value);
  }

  /** Tagging keeps the changes and sets the affected version on each. */
  lemma {:induction false} TaggedAt(changes: seq<BreakingChange>, version: string, k: nat)
    requires k < |changes|
    ensures |Tagged(changes, version)| == |changes|
    ensures Tagged(changes, version)[k] == changes[k].(affectsVersion := Some(version))
    decreases |changes|
  {
    TaggedLength(changes, version);
    if k < |changes| - 1 {
      TaggedAt(changes[..|changes| - 1], version, k);
    }
  }

  lemma {:induction false} TaggedLength(changes: seq<BreakingChange>, version: string)
    ensures |Tagged(changes, version)| == |changes|
    decreases |changes|
  {
    if |changes| > 0 {
      TaggedLength(changes[..|changes| - 1], version);
    }
  }

  /** `c` is a change of a selected row, tagged with that row's version. */
  ghost predicate FromSelectedRow(table: seq<VersionChanges>, f: Version, t: Version, c: BreakingChange) {
    exists i, j :: 0 <= i < |table| && 0 <= j < |table[i].changes| && Selected(table[i], f, t) &&
      c == table[i].changes[j].(affectsVersion := Some(table[i].version))
  }

  /**
   * A change is returned exactly when it is a change of a selected row,
   * tagged with that row's version.
   */
  lemma {:induction false} ChangesInRangeMember(table: seq<VersionChanges>, f: Version, t: Version, c: BreakingChange)
    ensures c in ChangesInRange(table, f, t) <==> FromSelectedRow(table, f, t, c)
    decreases |table|
  {
    if |table| > 0 {
      ChangesInRangeMember(table[..|table| - 1], f, t, c);
      if c in ChangesInRange(table, f, t) {
        InRangeFromSelected(table, f, t, c);
      }
      if FromSelectedRow(table, f, t, c) {
        SelectedInRange(table, f, t, c);
      }
    }
  }

  /** Inductive step, first direction: a listed change comes from a selected row. */
  lemma InRangeFromSelected(table: seq<VersionChanges>, f: Version, t: Version, c: BreakingChange)
    requires |table| > 0
    requires c in ChangesInRange(table[..|table| - 1], f, t) ==> FromSelectedRow(table[..|table| - 1], f, t, c)
    requires c in ChangesInRange(table, f, t)
    ensures FromSelectedRow(table, f, t, c)
  {
    var init, last := table[..|table| - 1], table[|table| - 1];
    if c in ChangesInRange(init, f, t) {
      var i, j :| 0 <= i < |init| && 0 <= j < |init[i].changes| && Selected(init[i], f, t) &&
        c == init[i].changes[j].(affectsVersion := Some(init[i].version));
      assert table[i] == init[i];
    } else {
      var tagged := Tagged(last.changes, last.version);
      TaggedLength(last.changes, last.version);
      var j :| 0 <= j < |tagged| && tagged[j] == c;
      TaggedAt(last.changes, last.version, j);
    }
  }

  /** Inductive step, second direction: a change of a selected row is listed. */
  lemma SelectedInRange(table: seq<VersionChanges>, f: Version, t: Version, c: BreakingChange)
    requires |table| > 0
    requires FromSelectedRow(table[..|table| - 1], f, t, c) ==> c in ChangesInRange(table[..|table| - 1], f, t)
    requires FromSelectedRow(table, f, t, c)
    ensures c in ChangesInRange(table, f, t)
  {
    var init, last := table[..|table| - 1], table[|table| - 1];
    var i, j :| 0 <= i < |table| && 0 <= j < |table[i].changes| && Selected(table[i], f, t) &&
      c == table[i].changes[j].(affectsVersion := Some(table[i].version));
    if i < |table| - 1 {
      assert init[i] == table[i];
    } else {
      TaggedAt(last.changes, last.version, j);
      assert c == Tagged(last.changes, last.version)[j];
    }
  }

  /** With `from >= to` no version lies in the range, so nothing is returned. */
  lemma {:induction false} NothingWhenNotAscending(table: seq<VersionChanges>, f: Version, t: Version)
    requires AtLeast(f, t)
    ensures ChangesInRange(table, f, t) == []
    decreases |table|
  {
    if |table| > 0 {
      NothingWhenNotAscending(table[..|table| - 1], f, t);
      var v := ParseVersion(table[|table| - 1].version);
      if v.Some? {
        LessIsStrictTotalOrder(f, v.value, t);
        LessIsStrictTotalOrder(t, f, v.value);
      }
    }
  }

  /** Every table version parses, to 1.22 up to 1.27 in order. */
  lemma KnownVersionsParse(i: nat)
    requires i < |KnownChanges|
    ensures ParseVersion(KnownChanges[i].version) == Some(Version(1, 22 + i))
  {
    var s := KnownChanges[i].version;
    assert s == ['1', '.', '2', ('2' as int + i) as char] by {
      if i == 0 { assert s == "1.22"; }
      else if i == 1 { assert s == "1.23"; }
      else if i == 2 { assert s == "1.24"; }
      else if i == 3 { assert s == "1.25"; }
      else if i == 4 { assert s == "1.26"; }
      else { assert s == "1.27"; }
    }
    ParseOneDotTwoDigits(s);
  }

  /** Every row's version parses, and the versions strictly ascend. */
  ghost predicate Ascending(table: seq<VersionChanges>) {
    (forall i :: 0 <= i < |table| ==> ParseVersion(table[i].version).Some?) &&
    (forall i, j :: 0 <= i < j < |table| ==>
      Less(ParseVersion(table[i].version).value, ParseVersion(table[j].version).value))
  }

  lemma KnownChangesAscending()
    ensures Ascending(KnownChanges)
  {
    forall i | 0 <= i < |KnownChanges| { KnownVersionsParse(i); }
  }

  /** `b` affects a version no earlier than the one `a` affects. */
  predicate NotAfter(a: BreakingChange, b: BreakingChange) {
    a.affectsVersion.Some? && b.affectsVersion.Some? &&
    VersionAtLeast(b.affectsVersion.value, a.affectsVersion.value) == Some(true)
  }

  /** Every change affects a version no earlier than the one before it. */
  predicate SortedByAffected(cs: seq<BreakingChange>) {
    forall k, l :: 0 <= k < l < |cs| ==> NotAfter(cs[k], cs[l])
  }

  /** `c` affects a version no later than `v`. */
  predicate AtOrBefore(c: BreakingChange, v: string) {
    c.affectsVersion.Some? && VersionAtLeast(v, c.affectsVersion.value) == Some(true)
  }

  /**
   * Appending changes that all affect `v` to a sorted list of changes
   * affecting versions up to `v` keeps the list sorted.
   */
  lemma AppendSameVersion(head: seq<BreakingChange>, tail: seq<BreakingChange>, v: string)
    requires SortedByAffected(head) && ParseVersion(v).Some?
    requires forall k :: 0 <= k < |head| ==> AtOrBefore(head[k], v)
    requires forall k :: 0 <= k < |tail| ==> tail[k].affectsVersion == Some(v)
    ensures SortedByAffected(head + tail)
  {
    var r := head + tail;
    forall k, l | 0 <= k < l < |r| ensures NotAfter(r[k], r[l]) {
      if l < |head| {
        assert r[k] == head[k] && r[l] == head[l];
      } else if k < |head| {
        assert r[k] == head[k] && r[l] == tail[l - |head|];
      } else {
        assert r[k] == tail[k - |head|] && r[l] == tail[l - |head|];
      }
    }
  }

  /** A change selected from all rows but the last affects a version no later than the last row's. */
  lemma EarlierRowAtOrBefore(table: seq<VersionChanges>, f: Version, t: Version, c: BreakingChange)
    requires Ascending(table) && |table| > 0
    requires c in ChangesInRange(table[..|table| - 1], f, t)
    ensures AtOrBefore(c, table[|table| - 1].version)
  {
    var init := table[..|table| - 1];
    ChangesInRangeMember(init, f, t, c);
    var i, j :| 0 <= i < |init| && 0 <= j < |init[i].changes| && Selected(init[i], f, t) &&
      c == init[i].changes[j].(affectsVersion := Some(init[i].version));
    assert init[i] == table[i];
  }

  /** Over an ascending table, the results come in non-decreasing version order. */
  lemma {:induction false} ChangesSortedByVersion(table: seq<VersionChanges>, f: Version, t: Version)
    requires Ascending(table)
    ensures SortedByAffected(ChangesInRange(table, f, t))
    decreases |table|
  {
    if |table| > 0 {
      var init, last := table[..|table| - 1], table[|table| - 1];
      assert Ascending(init) by {
        assert forall i :: 0 <= i < |init| ==> init[i] == table[i];
      }
      ChangesSortedByVersion(init, f, t);
      var head := ChangesInRange(init, f, t);
      var tail := if Selected(last, f, t) then Tagged(last.changes, last.version) else [];
      assert ChangesInRange(table, f, t) == head + tail;
      TaggedLength(last.changes, last.version);
      forall k | 0 <= k < |tail| ensures tail[k].affectsVersion == Some(last.version) {
        TaggedAt(last.changes, last.version, k);
      }
      forall k | 0 <= k < |head| ensures AtOrBefore(head[k], last.version) {
        EarlierRowAtOrBefore(table, f, t, head[k]);
      }
      AppendSameVersion(head, tail, last.version);
    }
  }

  /** The result of `GetBreakingChanges` is ordered by affected version. */
  lemma BreakingChangesOrdered(f: Version, t: Version)
    ensures SortedByAffected(ChangesInRange(KnownChanges, f, t))
  {
    KnownChangesAscending();
    ChangesSortedByVersion(KnownChanges, f, t);
  }
}

=== FILE: risk_assessment.dfy ===
/**
 * Risk assessment of an upgrade: five threshold classifiers (deprecated
 * APIs, breaking changes, addon compatibility, version jumps, cluster size)
 * into the ordered levels LOW < MEDIUM < HIGH < CRITICAL, their maximum as
 * the overall level, the factor and mitigation lists that go with them, and
 * the downtime formula in integer minutes.
 */
module RiskAssessment {
  import opened Wrappers
  import opened Text
  import opened Snapshot

  datatype RiskLevel = Low | Medium | High | Critical {
    /** LOW = 1 up to CRITICAL = 4. */
    function Score(): (s: nat)
      ensures 1 <= s <= 4
    {
      match this
      case Low => 1
      case Medium => 2
      case High => 3
      case Critical => 4
    }

    function Name(): string {
      match this
      case Low => "LOW"
      case Medium => "MEDIUM"
      case High => "HIGH"
      case Critical => "CRITICAL"
    }

    /** HIGH or CRITICAL. */
    predicate IsSevere() {
      this == High || this == Critical
    }
  }

  /** The level with a given score. */
  function LevelOfScore(s: nat): (r: RiskLevel)
    requires 1 <= s <= 4
    ensures r.Score() == s
  {
    if s == 1 then Low else if s == 2 then Medium else if s == 3 then High else Critical
  }

  /** The score of a level name; a name that is not a level scores 1. */
  function ScoreOf(name: string): (s: nat)
    ensures 1 <= s <= 4
  {
    if name == "LOW" then 1
    else if name == "MEDIUM" then 2
    else if name == "HIGH" then 3
    else if name == "CRITICAL" then 4
    else 1
  }

  /** Scoring a level's name gives the level's score. */
  lemma ScoreOfName(l: RiskLevel)
    ensures ScoreOf(l.Name()) == l.Score()
    ensures LevelOfScore(l.Score()) == l
  {
    match l
    case Low =>
    case Medium =>
      assert "MEDIUM" != "LOW" by { assert |"MEDIUM"| != |"LOW"|; }
    case High =>
      assert "HIGH" != "LOW" by { assert |"HIGH"| != |"LOW"|; }
      assert "HIGH" != "MEDIUM" by { assert |"HIGH"| != |"MEDIUM"|; }
    case Critical =>
      assert "CRITICAL" != "LOW" by { assert |"CRITICAL"| != |"LOW"|; }
      assert "CRITICAL" != "MEDIUM" by { assert |"CRITICAL"| != |"MEDIUM"|; }
      assert "CRITICAL" != "HIGH" by { assert |"CRITICAL"| != |"HIGH"|; }
  }

  /** The largest score among a non-empty list of level names. */
  function MaxScore(levels: seq<string>): (m: nat)
    requires |levels| > 0
    ensures 1 <= m <= 4
    ensures forall i :: 0 <= i < |levels| ==> ScoreOf(levels[i]) <= m
    ensures exists i :: 0 <= i < |levels| && ScoreOf(levels[i]) == m
  {
    var last := ScoreOf(levels[|levels| - 1]);
    if |levels| == 1 then last
    else
      var rest := MaxScore(levels[..|levels| - 1]);
      assert forall i :: 0 <= i < |levels| - 1 ==> levels[..|levels| - 1][i] == levels[i];
      if rest >= last then rest else last
  }

  /**
   * The overall level: LOW for no assessments, otherwise the level of the
   * highest score. It is at least every factor and equal to one of them.
   */
  function OverallRisk(levels: seq<string>): (r: RiskLevel)
    ensures |levels| == 0 ==> r == Low
    ensures forall i :: 0 <= i < |levels| ==> ScoreOf(levels[i]) <= r.Score()
    ensures |levels| > 0 ==> exists i :: 0 <= i < |levels| && ScoreOf(levels[i]) == r.Score()
  {
    if |levels| == 0 then Low else LevelOfScore(MaxScore(levels))
  }

  /** An integer as Python's `str` writes it. */
  function IntToString(n: int): string {
    if n < 0 then "-" + NatToString(-n) else NatToString(n)
  }

  // ---------------------------------------------------------------------
  // Deprecated-API risk

  datatype ApiRisk = ApiRisk(level: RiskLevel, totalDeprecated: nat, removedApis: nat, message: string)

  /** A `removed_in` that is present and not empty. */
  predicate HasRemovalVersion(r: AffectedResource) {
    r.info.removedIn.Some? && r.info.removedIn.value != ""
  }

  /** Some resource of this API has a removal version (no target is consulted). */
  predicate HasRemoval(f: ApiFindings) {
    exists i :: 0 <= i < |f.resources| && HasRemovalVersion(f.resources[i])
  }

  /** Number of APIs with a removal version. */
  function RemovedApis(apis: seq<ApiFindings>): (n: nat)
    ensures n <= |apis|
    ensures n == 0 <==> forall i :: 0 <= i < |apis| ==> !HasRemoval(apis[i])
  {
    if |apis| == 0 then 0
    else RemovedApis(apis[..|apis| - 1]) + (if HasRemoval(apis[|apis| - 1]) then 1 else 0)
  }

  /**
   * CRITICAL when any API has a removal version; otherwise HIGH above 10
   * affected resources, MEDIUM above 5, else LOW.
   */
  function AssessDeprecatedApiRisk(apis: seq<ApiFindings>): (r: ApiRisk)
    ensures r.totalDeprecated == TotalDeprecated(apis) && r.removedApis == RemovedApis(apis)
    ensures r.level == Critical <==> r.removedApis > 0
    ensures r.level == Critical <==> exists i :: 0 <= i < |apis| && HasRemoval(apis[i])
    ensures r.removedApis == 0 ==>
      && (r.level == High <==> r.totalDeprecated > 10)
      && (r.level == Medium <==> 5 < r.totalDeprecated <= 10)
      && (r.level == Low <==> r.totalDeprecated <= 5)
  {
    var total, removed := TotalDeprecated(apis), RemovedApis(apis);
    if removed > 0 then
      ApiRisk(Critical, total, removed, NatToString(removed) + " APIs will be removed in target version")
    else if total > 10 then
      ApiRisk(High, total, removed, NatToString(total) + " resources using deprecated APIs")
    else if total > 5 then
      ApiRisk(Medium, total, removed, NatToString(total) + " resources using deprecated APIs")
    else if total > 0 then
      ApiRisk(Low, total, removed, NatToString(total) + " resources using deprecated APIs")
    else
      ApiRisk(Low, total, removed, "No deprecated APIs found")
  }

  /** An API counted as removed has at least one affected resource. */
  lemma {:induction false} RemovedApisHaveResources(apis: seq<ApiFindings>)
    ensures RemovedApis(apis) <= TotalDeprecated(apis)
    ensures RemovedApis(apis) > 0 ==> TotalDeprecated(apis) > 0
    decreases |apis|
  {
    if |apis| > 0 {
      RemovedApisHaveResources(apis[..|apis| - 1]);
    }
  }

  /** More findings never lower the deprecated-API risk. */
  lemma ApiRiskMonotone(apis: seq<ApiFindings>, f: ApiFindings)
    ensures AssessDeprecatedApiRisk(apis).level.Score() <= AssessDeprecatedApiRisk(apis + [f]).level.Score()
  {
    assert (apis + [f])[..|apis|] == apis;
  }

  // ---------------------------------------------------------------------
  // Breaking-change risk

  datatype BreakingRisk = BreakingRisk(level: RiskLevel, totalChanges: nat, criticalChanges: Option<nat>, message: string)

  /**
   * LOW for no changes; otherwise HIGH with at least three HIGH-impact
   * changes, MEDIUM with one or two, MEDIUM with more than five changes
   * of lower impact, else LOW.
   */
  function AssessBreakingChangesRisk(changes: seq<BreakingChange>): (r: BreakingRisk)
    ensures r.totalChanges == |changes|
    ensures |changes| == 0 ==> r.level == Low && r.criticalChanges == None
    ensures |changes| > 0 ==>
      var high := HighImpactCount(changes);
      && r.criticalChanges == Some(high)
      && (r.level == High <==> high >= 3)
      && (r.level == Medium <==> (1 <= high < 3 || (high == 0 && |changes| > 5)))
      && (r.level == Low <==> high == 0 && |changes| <= 5)
  {
    if |changes| == 0 then
      BreakingRisk(Low, 0, None, "No breaking changes identified")
    else
      var high := HighImpactCount(changes);
      var level := if high >= 3 then High else if high >= 1 then Medium else if |changes| > 5 then Medium else Low;
      BreakingRisk(level, |changes|, Some(high),
                   NatToString(|changes|) + " breaking changes, " + NatToString(high) + " critical")
  }

  /** One more breaking change never lowers the breaking-change risk. */
  lemma BreakingRiskMonotone(changes: seq<BreakingChange>, c: BreakingChange)
    ensures AssessBreakingChangesRisk(changes).level.Score() <= AssessBreakingChangesRisk(changes + [c]).level.Score()
  {
    assert (changes + [c])[..|changes|] == changes;
  }

  // ---------------------------------------------------------------------
  // Addon compatibility risk

  /**
   * The part of an addon recommendation the risk model reads: the name
   * (a missing name is never a critical addon) and `is_compatible`, where
   * `None` is a missing key and counts as compatible.
   */
  datatype AddonStatus = AddonStatus(addonName: string, isCompatible: Option<bool>)

  datatype AddonRisk = AddonRisk(level: RiskLevel, incompatibleCount: nat, criticalIncompatible: Option<nat>, message: string)

  const CriticalAddons: seq<string> := ["vpc-cni", "kube-proxy", "coredns"]

  predicate IsIncompatible(a: AddonStatus) {
    !a.isCompatible.GetOr(true)
  }

  predicate IsCriticalIncompatible(a: AddonStatus) {
    IsIncompatible(a) && a.addonName in CriticalAddons
  }

  function IncompatibleCount(xs: seq<AddonStatus>): (n: nat)
    ensures n <= |xs|
    ensures n == 0 <==> forall i :: 0 <= i < |xs| ==> !IsIncompatible(xs[i])
  {
    if |xs| == 0 then 0
    else IncompatibleCount(xs[..|xs| - 1]) + (if IsIncompatible(xs[|xs| - 1]) then 1 else 0)
  }

  function CriticalIncompatibleCount(xs: seq<AddonStatus>): (n: nat)
    ensures n <= IncompatibleCount(xs)
    ensures n == 0 <==> forall i :: 0 <= i < |xs| ==> !IsCriticalIncompatible(xs[i])
  {
    if |xs| == 0 then 0
    else CriticalIncompatibleCount(xs[..|xs| - 1]) + (if IsCriticalIncompatible(xs[|xs| - 1]) then 1 else 0)
  }

  /**
   * LOW when every addon is compatible; otherwise HIGH when one of
   * vpc-cni, kube-proxy, coredns is incompatible, MEDIUM when more than
   * three addons are, else LOW.
   */
  function AssessAddonCompatibilityRisk(xs: seq<AddonStatus>): (r: AddonRisk)
    ensures r.incompatibleCount == IncompatibleCount(xs)
    ensures r.level == High <==> exists i :: 0 <= i < |xs| && IsCriticalIncompatible(xs[i])
    ensures r.level == Medium <==>
      (forall i :: 0 <= i < |xs| ==> !IsCriticalIncompatible(xs[i])) && r.incompatibleCount > 3
    ensures r.level == Low <==>
      (forall i :: 0 <= i < |xs| ==> !IsCriticalIncompatible(xs[i])) && r.incompatibleCount <= 3
    ensures r.level != Critical
    ensures r.incompatibleCount == 0 ==> r.criticalIncompatible == None
    ensures r.incompatibleCount > 0 ==> r.criticalIncompatible == Some(CriticalIncompatibleCount(xs))
  {
    var n := IncompatibleCount(xs);
    if n == 0 then
      AddonRisk(Low, 0, None, "All addons compatible")
    else
      var crit := CriticalIncompatibleCount(xs);
      if crit > 0 then
        AddonRisk(High, n, Some(crit), NatToString(crit) + " critical addons need updates")
      else if n > 3 then
        AddonRisk(Medium, n, Some(crit), NatToString(n) + " addons need updates")
      else
        AddonRisk(Low, n, Some(crit), NatToString(n) + " addons need updates")
  }

  /** One more addon never lowers the addon risk. */
  lemma AddonRiskMonotone(xs: seq<AddonStatus>, a: AddonStatus)
    ensures AssessAddonCompatibilityRisk(xs).level.Score() <= AssessAddonCompatibilityRisk(xs + [a]).level.Score()
  {
    assert (xs + [a])[..|xs|] == xs;
  }

  // ---------------------------------------------------------------------
  // Version-jump and cluster-size risk

  datatype VersionRisk = VersionRisk(level: RiskLevel, versionJumps: int, message: string)

  /**
   * `jumps = len(path) - 1`: no or one jump is LOW, two are MEDIUM, any
   * other count is HIGH, which includes the -1 of an empty path.
   */
  function AssessVersionJumpRisk(path: seq<string>): (r: VersionRisk)
    ensures r.versionJumps == |path| - 1
    ensures r.level == Low <==> |path| == 1 || |path| == 2
    ensures r.level == Medium <==> |path| == 3
    ensures r.level == High <==> |path| == 0 || |path| > 3
  {
    var jumps := |path| - 1;
    if jumps == 0 then VersionRisk(Low, jumps, "No upgrade needed")
    else if jumps == 1 then VersionRisk(Low, jumps, "Single version upgrade")
    else if jumps == 2 then VersionRisk(Medium, jumps, "Two version upgrades required")
    else VersionRisk(High, jumps, IntToString(jumps) + " sequential upgrades required")
  }

  datatype SizeRisk = SizeRisk(level: RiskLevel, totalNodes: nat, nodeGroups: nat, message: string)

  /** HIGH above 100 desired nodes in total, MEDIUM above 20, else LOW. */
  function AssessClusterSizeRisk(nodeGroups: seq<NodeGroup>): (r: SizeRisk)
    ensures r.totalNodes == TotalNodes(nodeGroups) && r.nodeGroups == |nodeGroups|
    ensures r.level == High <==> r.totalNodes > 100
    ensures r.level == Medium <==> 20 < r.totalNodes <= 100
    ensures r.level == Low <==> r.totalNodes <= 20
  {
    var total := TotalNodes(nodeGroups);
    if total > 100 then SizeRisk(High, total, |nodeGroups|, "Large cluster with " + NatToString(total) + " nodes")
    else if total > 50 then SizeRisk(Medium, total, |nodeGroups|, "Medium cluster with " + NatToString(total) + " nodes")
    else if total > 20 then SizeRisk(Medium, total, |nodeGroups|, "Cluster with " + NatToString(total) + " nodes")
    else SizeRisk(Low, total, |nodeGroups|, "Small cluster with " + NatToString(total) + " nodes")
  }

  /** One more node group never lowers the cluster-size risk. */
  lemma SizeRiskMonotone(nodeGroups: seq<NodeGroup>, ng: NodeGroup)
    ensures AssessClusterSizeRisk(nodeGroups).level.Score() <= AssessClusterSizeRisk(nodeGroups + [ng]).level.Score()
  {
    assert (nodeGroups + [ng])[..|nodeGroups|] == nodeGroups;
  }

  // ---------------------------------------------------------------------
  // Downtime

  /** The downtime formula, in minutes. */
  function DowntimeMinutes(level: RiskLevel, jumps: int, nodes: nat): int {
    15 + (if level.IsSevere() then 30 else 0) + (if jumps > 1 then 15 * jumps else 0) + (if nodes > 50 then 30 else 0)
  }

  /** Base 15 minutes plus the time each complexity adds. */
  method EstimateDowntime(level: RiskLevel, jumps: int, nodes: nat) returns (minutes: int)
    ensures minutes == DowntimeMinutes(level, jumps, nodes)
  {
    var additional := 0;
    if level.IsSevere() {
      additional := additional + 30;
    }
    if jumps > 1 {
      additional := additional + 15 * jumps;
    }
    if nodes > 50 {
      additional := additional + 30;
    }
    minutes := 15 + additional;
  }

  /**
   * The estimate is at least the 15-minute control-plane window, grows
   * with each complexity, and is bounded by all of them at once.
   */
  lemma DowntimeBounds(level: RiskLevel, jumps: int, nodes: nat)
    ensures DowntimeMinutes(level, jumps, nodes) >= 15
    ensures DowntimeMinutes(level, jumps, nodes) <= 75 + (if jumps > 1 then 15 * jumps else 0)
    ensures level.IsSevere() ==> DowntimeMinutes(level, jumps, nodes) >= 45
    ensures jumps > 1 ==> DowntimeMinutes(level, jumps, nodes) >= 15 + 15 * jumps
    ensures nodes > 50 ==> DowntimeMinutes(level, jumps, nodes) >= 45
  {
  }

  // ---------------------------------------------------------------------
  // Comprehensive assessment

  /** The elements of `xs` whose flag in `keep` is set, in order. */
  function Select<T>(xs: seq<T>, keep: seq<bool>): (r: seq<T>)
    requires |xs| == |keep|
    ensures |r| <= |xs|
  {
    if |xs| == 0 then []
    else Select(xs[..|xs| - 1], keep[..|keep| - 1]) + (if keep[|keep| - 1] then [xs[|xs| - 1]] else [])
  }

  /** Two selections by the same flags have the same length. */
  lemma {:induction false} SelectLockstep<T, U>(xs: seq<T>, ys: seq<U>, keep: seq<bool>)
    requires |xs| == |keep| && |ys| == |keep|
    ensures |Select(xs, keep)| == |Select(ys, keep)|
    decreases |keep|
  {
    if |keep| > 0 {
      SelectLockstep(xs[..|xs| - 1], ys[..|ys| - 1], keep[..|keep| - 1]);
    }
  }

  /** A selected element is one whose flag is set. */
  lemma {:induction false} SelectMember<T>(xs: seq<T>, keep: seq<bool>, i: nat)
    requires |xs| == |keep| && i < |xs| && keep[i]
    ensures xs[i] in Select(xs, keep)
    decreases |xs|
  {
    if i < |xs| - 1 {
      SelectMember(xs[..|xs| - 1], keep[..|keep| - 1], i);
    }
  }

  const Warning := "\U{26A0}\U{FE0F}  "
  const Info := "\U{2139}\U{FE0F}  "

  const Mitigations: seq<string> := [
    "Update all deprecated API usage before upgrade",
    "Review and test all breaking changes in staging",
    "Upgrade incompatible addons before EKS upgrade",
    "Plan for sequential upgrades with validation between",
    "Plan for extended maintenance window"]

  const Positives: seq<string> := [
    "\U{2705} No deprecated APIs in use",
    "\U{2705} All addons compatible",
    "\U{2705} Single version upgrade"]

  /** Which of the five concerns are raised, in the order they are checked. */
  function Concerns(api: ApiRisk, breaking: BreakingRisk, addon: AddonRisk, version: VersionRisk, size: SizeRisk): seq<bool> {
    [api.level.IsSevere(),
     breaking.level == Medium || breaking.level == High,
     addon.level == Medium || addon.level == High,
     version.versionJumps > 1,
     size.level == Medium || size.level == High]
  }

  function FactorTexts(api: ApiRisk, breaking: BreakingRisk, addon: AddonRisk, version: VersionRisk, size: SizeRisk): seq<string> {
    [Warning + api.message, Warning + breaking.message, Warning + addon.message,
     Info + version.message, Info + size.message]
  }

  function Strengths(api: ApiRisk, addon: AddonRisk, version: VersionRisk): seq<bool> {
    [api.totalDeprecated == 0, addon.incompatibleCount == 0, version.versionJumps == 1]
  }

  /** The names of a list of levels. */
  function Names(levels: seq<RiskLevel>): (r: seq<string>)
    ensures |r| == |levels|
    ensures forall i :: 0 <= i < |levels| ==> r[i] == levels[i].Name()
  {
    seq(|levels|, i requires 0 <= i < |levels| => levels[i].Name())
  }

  /** The overall level of some levels is the highest of them. */
  lemma OverallOfLevels(levels: seq<RiskLevel>)
    requires |levels| > 0
    ensures forall i :: 0 <= i < |levels| ==> levels[i].Score() <= OverallRisk(Names(levels)).Score()
    ensures OverallRisk(Names(levels)) in levels
  {
    var names := Names(levels);
    var overall := OverallRisk(names);
    forall i | 0 <= i < |levels| ensures ScoreOf(names[i]) == levels[i].Score() {
      ScoreOfName(levels[i]);
    }
    var k :| 0 <= k < |levels| && ScoreOf(names[k]) == overall.Score();
    ScoreOfName(overall);
    ScoreOfName(levels[k]);
  }

  /** The overall level of the five category levels is the highest of them. */
  lemma OverallOfFive(a: RiskLevel, b: RiskLevel, c: RiskLevel, d: RiskLevel, e: RiskLevel)
    ensures var o := OverallRisk(Names([a, b, c, d, e]));
      a.Score() <= o.Score() && b.Score() <= o.Score() && c.Score() <= o.Score() &&
      d.Score() <= o.Score() && e.Score() <= o.Score() && o in [a, b, c, d, e]
  {
    var levels := [a, b, c, d, e];
    OverallOfLevels(levels);
    assert levels[0] == a && levels[1] == b && levels[2] == c && levels[3] == d && levels[4] == e;
  }

  /** Appends a risk factor and its mitigation for every concern raised. */
  method CollectConcerns(texts: seq<string>, concerns: seq<bool>) returns (factors: seq<string>, mitigations: seq<string>)
    requires |texts| == |Mitigations| && |concerns| == |Mitigations|
    ensures factors == Select(texts, concerns) && mitigations == Select(Mitigations, concerns)
    ensures |factors| == |mitigations|
  {
    factors, mitigations := SelectBoth(texts, Mitigations, concerns);
  }

  /** Walks two lists in lockstep, keeping the entries whose flag is set. */
  method SelectBoth<T>(xs: seq<T>, ys: seq<T>, keep: seq<bool>) returns (a: seq<T>, b: seq<T>)
    requires |xs| == |keep| && |ys| == |keep|
    ensures a == Select(xs, keep) && b == Select(ys, keep)
    ensures |a| == |b|
  {
    a, b := [], [];
    for i := 0 to |keep|
      invariant a == Select(xs[..i], keep[..i])
      invariant b == Select(ys[..i], keep[..i])
    {
      SelectSnoc(xs, keep, i);
      SelectSnoc(ys, keep, i);
      if keep[i] {
        a := a + [xs[i]];
        b := b + [ys[i]];
      }
    }
    assert xs[..|keep|] == xs && ys[..|keep|] == ys && keep[..|keep|] == keep;
    SelectLockstep(xs, ys, keep);
  }

  /** One more flag adds its entry at the end when it is set. */
  lemma SelectSnoc<T>(xs: seq<T>, keep: seq<bool>, i: nat)
    requires |xs| == |keep| && i < |keep|
    ensures Select(xs[..i + 1], keep[..i + 1]) == Select(xs[..i], keep[..i]) + (if keep[i] then [xs[i]] else [])
  {
    assert xs[..i + 1][..i] == xs[..i] && keep[..i + 1][..i] == keep[..i];
  }

  /** Appends a positive factor for every strength found. */
  method CollectPositives(strengths: seq<bool>) returns (positives: seq<string>)
    requires |strengths| == |Positives|
    ensures positives == Select(Positives, strengths)
  {
    positives := [];
    for i := 0 to |strengths|
      invariant positives == Select(Positives[..i], strengths[..i])
    {
      SelectSnoc(Positives, strengths, i);
      if strengths[i] {
        positives := positives + [Positives[i]];
      }
    }
    assert Positives[..|strengths|] == Positives && strengths[..|strengths|] == strengths;
  }

  datatype Assessment = Assessment(
    overall: RiskLevel,
    riskScore: nat,
    api: ApiRisk,
    breaking: BreakingRisk,
    addon: AddonRisk,
    version: VersionRisk,
    size: SizeRisk,
    riskFactors: seq<string>,
    positiveFactors: seq<string>,
    mitigations: seq<string>,
    minimumDowntime: int,
    rollbackRequired: bool,
    stagingTestRequired: bool)

  /**
   * Runs the five assessors, takes the maximum as the overall level, and
   * lists a risk factor together with its mitigation for every concern
   * raised, plus the positive factors and the downtime estimate.
   */
  method PerformComprehensiveAssessment(
    path: seq<string>,
    apis: seq<ApiFindings>,
    changes: seq<BreakingChange>,
    addons: seq<AddonStatus>,
    nodeGroups: seq<NodeGroup>)
    returns (a: Assessment)
    ensures a.api == AssessDeprecatedApiRisk(apis) && a.breaking == AssessBreakingChangesRisk(changes)
    ensures a.addon == AssessAddonCompatibilityRisk(addons) && a.version == AssessVersionJumpRisk(path)
    ensures a.size == AssessClusterSizeRisk(nodeGroups)
    ensures a.overall.Score() >= a.api.level.Score() && a.overall.Score() >= a.breaking.level.Score()
    ensures a.overall.Score() >= a.addon.level.Score() && a.overall.Score() >= a.version.level.Score()
    ensures a.overall.Score() >= a.size.level.Score()
    ensures a.overall in [a.api.level, a.breaking.level, a.addon.level, a.version.level, a.size.level]
    ensures a.riskScore == a.overall.Score()
    ensures a.rollbackRequired <==> a.overall.IsSevere()
    ensures a.stagingTestRequired
    ensures a.riskFactors == Select(FactorTexts(a.api, a.breaking, a.addon, a.version, a.size),
                                    Concerns(a.api, a.breaking, a.addon, a.version, a.size))
    ensures a.mitigations == Select(Mitigations, Concerns(a.api, a.breaking, a.addon, a.version, a.size))
    ensures |a.riskFactors| == |a.mitigations|
    ensures a.positiveFactors == Select(Positives, Strengths(a.api, a.addon, a.version))
    ensures a.minimumDowntime == DowntimeMinutes(a.overall, a.version.versionJumps, a.size.totalNodes)
  {
    var api := AssessDeprecatedApiRisk(apis);
    var breaking := AssessBreakingChangesRisk(changes);
    var addon := AssessAddonCompatibilityRisk(addons);
    var version := AssessVersionJumpRisk(path);
    var size := AssessClusterSizeRisk(nodeGroups);

    var overall := OverallRisk(Names([api.level, breaking.level, addon.level, version.level, size.level]));
    OverallOfFive(api.level, breaking.level, addon.level, version.level, size.level);

    var riskFactors, mitigations := CollectConcerns(FactorTexts(api, breaking, addon, version, size),
                                                    Concerns(api, breaking, addon, version, size));
    var positives := CollectPositives(Strengths(api, addon, version));
    var downtime := EstimateDowntime(overall, version.versionJumps, size.totalNodes);
    a := Assessment(overall, overall.Score(), api, breaking, addon, version, size,
                    riskFactors, positives, mitigations, downtime, overall.IsSevere(), true);
  }

  /**
   * Each mitigation is proposed whenever its concern is raised; in
   * particular, the API mitigation appears whenever the API risk is HIGH
   * or CRITICAL, and the sequential-upgrade one whenever the path has more
   * than one step.
   */
  lemma MitigationFollowsConcern(api: ApiRisk, breaking: BreakingRisk, addon: AddonRisk, version: VersionRisk, size: SizeRisk, i: nat)
    requires i < 5
    ensures Concerns(api, breaking, addon, version, size)[i] ==>
      Mitigations[i] in Select(Mitigations, Concerns(api, breaking, addon, version, size))
  {
    if Concerns(api, breaking, addon, version, size)[i] {
      SelectMember(Mitigations, Concerns(api, breaking, addon, version, size), i);
    }
  }
}

=== FILE: snapshot.dfy ===
/**
 * The records the planning engine receives from its collaborators: the
 * cluster snapshot (addons and node groups), the deprecated-API findings of
 * the workload scanner and the breaking-change list. In the source these
 * are dictionaries; a missing key is modelled by the default the core reads
 * in its place, or by `None` where the core tells the two apart.
 */
module Snapshot {
  import opened Wrappers

  /**
   * An installed addon: `{"name": ..., "version": ...}`. The source reads
   * `version` with the default "" and `name` with none; a missing name is
   * modelled as "" as well.
   */
  datatype Addon = Addon(name: string, version: string)

  /**
   * A managed node group; `desiredSize` is `scaling_config.desiredSize`. A
   * missing `name` or `version` (None in the source) is modelled as "".
   */
  datatype NodeGroup = NodeGroup(name: string, version: string, desiredSize: Option<nat>)

  /** `ng.get("scaling_config", {}).get("desiredSize", 0)`. */
  function Capacity(ng: NodeGroup): nat {
    ng.desiredSize.GetOr(0)
  }

  /** Total desired nodes over all node groups, a missing size counting 0. */
  function TotalNodes(ngs: seq<NodeGroup>): nat {
    if |ngs| == 0 then 0 else TotalNodes(ngs[..|ngs| - 1]) + Capacity(ngs[|ngs| - 1])
  }

  /** The `deprecation_info` a scanner attaches to an affected resource. */
  datatype DeprecationInfo = DeprecationInfo(
    removedIn: Option<string>,
    replacement: Option<string>,
    migrationNotes: Option<string>)

  /** One live resource that uses a deprecated API. */
  datatype AffectedResource = AffectedResource(
    name: string,
    namespace: string,
    kind: string,
    info: DeprecationInfo)

  /** One key of the findings dictionary: an API and the resources using it. */
  datatype ApiFindings = ApiFindings(api: string, resources: seq<AffectedResource>)

  /** A known breaking change (`impact` is "LOW", "MEDIUM" or "HIGH"). */
  datatype BreakingChange = BreakingChange(
    changeType: string,
    title: string,
    description: string,
    impact: string,
    action: string,
    affectsVersion: Option<string>)

  predicate IsHighImpact(c: BreakingChange) {
    c.impact == "HIGH"
  }

  /** Total number of affected resources over all APIs. */
  function TotalDeprecated(apis: seq<ApiFindings>): nat {
    if |apis| == 0 then 0
    else TotalDeprecated(apis[..|apis| - 1]) + |apis[|apis| - 1].resources|
  }

  /** Number of HIGH-impact changes. */
  function HighImpactCount(changes: seq<BreakingChange>): (n: nat)
    ensures n <= |changes|
  {
    if |changes| == 0 then 0
    else HighImpactCount(changes[..|changes| - 1]) + (if IsHighImpact(changes[|changes| - 1]) then 1 else 0)
  }
}

=== FILE: text.dfy ===
/**
 * Character and string helpers shared by the planner: decimal numerals
 * (Python's `int(...)` on a plain digit string and `f"{n}"` on a natural
 * number) and substring containment (Python's `needle in haystack`).
 */
module Text {

  predicate IsDigit(c: char) {
    '0' <= c <= '9'
  }

  predicate AllDigits(s: string) {
    forall i :: 0 <= i < |s| ==> IsDigit(s[i])
  }

  /** A non-empty string of decimal digits. */
  predicate IsNumeral(s: string) {
    |s| > 0 && AllDigits(s)
  }

  function DigitValue(c: char): nat
    requires IsDigit(c)
  {
    c as int - '0' as int
  }

  function DigitChar(d: nat): (c: char)
    requires d < 10
    ensures IsDigit(c) && DigitValue(c) == d
  {
    ('0' as int + d) as char
  }

  /** The value of a digit string, read most significant digit first. */
  function NumeralValue(s: string): nat
    requires AllDigits(s)
  {
    if |s| == 0 then 0
    else 10 * NumeralValue(s[..|s| - 1]) + DigitValue(s[|s| - 1])
  }

  /** Decimal rendering of a natural number, as `str(n)` prints it. */
  function NatToString(n: nat): (s: string)
    ensures IsNumeral(s)
    ensures NumeralValue(s) == n
    ensures |s| == 1 || s[0] != '0'
  {
    if n < 10 then [DigitChar(n)]
    else
      var prefix := NatToString(n / 10);
      var s := prefix + [DigitChar(n % 10)];
      assert s[..|s| - 1] == prefix;
      s
  }

  /** Python's `needle in hay` on strings. */
  predicate Contains(hay: string, needle: string)
    decreases |hay|
  {
    needle <= hay || (|hay| > 0 && Contains(hay[1..], needle))
  }

  /** `needle` occurs in `hay` starting at offset `i`. */
  predicate OccursAt(hay: string, needle: string, i: int) {
    0 <= i <= |hay| - |needle| && hay[i..i + |needle|] == needle
  }

  /** Containment means `needle` occurs at some offset of `hay`. */
  lemma {:induction false} ContainsIff(hay: string, needle: string)
    ensures Contains(hay, needle) <==> exists i :: OccursAt(hay, needle, i)
    decreases |hay|
  {
    if needle <= hay {
      assert OccursAt(hay, needle, 0);
    } else if |hay| == 0 {
    } else {
      ContainsIff(hay[1..], needle);
      if Contains(hay[1..], needle) {
        var i :| OccursAt(hay[1..], needle, i);
        assert hay[i + 1..i + 1 + |needle|] == hay[1..][i..i + |needle|];
        assert OccursAt(hay, needle, i + 1);
      }
      if exists i :: OccursAt(hay, needle, i) {
        var i :| OccursAt(hay, needle, i);
        // i == 0 would make `needle` a prefix of `hay`, excluded above
        if i != 0 {
          assert hay[1..][i - 1..i - 1 + |needle|] == hay[i..i + |needle|];
          assert OccursAt(hay[1..], needle, i - 1);
        }
      }
    }
  }

  /** A string contains every infix of any concatenation it is the middle of. */
  lemma ContainsInfix(a: string, b: string, c: string)
    ensures Contains(a + b + c, b)
  {
    OccursInfix(a, b, c);
    ContainsIff(a + b + c, b);
  }

  lemma OccursInfix(a: string, b: string, c: string)
    ensures OccursAt(a + b + c, b, |a|)
  {
    var s := a + b + c;
    assert s[|a|..|a| + |b|] == b;
  }

  /** A needle found in the tail is found in the whole. */
  lemma ContainsSuffix(a: string, b: string, needle: string)
    requires Contains(b, needle)
    ensures Contains(a + b, needle)
  {
    ContainsIff(b, needle);
    var i :| OccursAt(b, needle, i);
    assert (a + b)[|a| + i..|a| + i + |needle|] == b[i..i + |needle|];
    assert OccursAt(a + b, needle, |a| + i);
    ContainsIff(a + b, needle);
  }

  /** A needle found in the head is found in the whole. */
  lemma ContainsPrefix(a: string, b: string, needle: string)
    requires Contains(a, needle)
    ensures Contains(a + b, needle)
  {
    ContainsIff(a, needle);
    var i :| OccursAt(a, needle, i);
    assert (a + b)[i..i + |needle|] == a[i..i + |needle|];
    assert OccursAt(a + b, needle, i);
    ContainsIff(a + b, needle);
  }

  /** `sep.join(parts)`. */
  function Join(parts: seq<string>, sep: string): string {
    if |parts| == 0 then ""
    else if |parts| == 1 then parts[0]
    else parts[0] + sep + Join(parts[1..], sep)
  }
}

=== FILE: upgrade_path.dfy ===
/**
 * The upgrade path planner: the sequential chain of minor versions from the
 * current to the target control-plane version, the order in which addons
 * are upgraded, the phased runbook, the node-group rotation plan, the
 * pre-upgrade checklist and the linear time estimate.
 */
module UpgradePath {
  import opened Wrappers
  import opened Text
  import opened Versions
  import opened Snapshot

  // ---------------------------------------------------------------------
  // Sequential upgrade path

  /** Every element after the first is "major.m" for the next minor m. */
  ghost predicate SequentialFrom(path: seq<string>, c: Version) {
    forall k :: 1 <= k < |path| ==> path[k] == FormatVersion(Version(c.major, c.minor + k))
  }

  /**
   * The chain of versions from `current` to `target`. The first element is
   * always `current` verbatim; an unparsable version or a target that is not
   * above the current one gives just `[current]`; within one major version
   * every minor in between is visited; across majors the path jumps straight
   * to `target`.
   */
  method GenerateUpgradePath(current: string, target: string) returns (path: seq<string>)
    ensures |path| >= 1 && path[0] == current
    ensures ParseVersion(current).None? || ParseVersion(target).None? ==> path == [current]
    ensures ParseVersion(current).Some? && ParseVersion(target).Some? ==>
      var c, t := ParseVersion(current).value, ParseVersion(target).value;
      && (!Less(c, t) ==> path == [current])
      && (Less(c, t) && c.major == t.major ==> |path| == t.minor - c.minor + 1 && SequentialFrom(path, c))
      && (Less(c, t) && c.major != t.major ==> path == [current, target])
  {
    var cur, tgt := ParseVersion(current), ParseVersion(target);
    if cur.None? || tgt.None? {
      return [current];
    }
    var c, t := cur.value, tgt.value;
    if c.major > t.major || (c.major == t.major && c.minor >= t.minor) {
      return [current];
    }
    path := [current];
    if c.major == t.major {
      for minor := c.minor + 1 to t.minor + 1
        invariant |path| == minor - c.minor
        invariant path[0] == current
        invariant SequentialFrom(path, c)
      {
        path := path + [FormatVersion(Version(c.major, minor))];
      }
    } else {
      path := path + [target];
    }
  }

  /**
   * Along a sequential path, the k-th element parses as minor + k: each step
   * raises the minor version by exactly one and keeps the major version.
   */
  lemma SequentialPathParses(path: seq<string>, c: Version)
    requires |path| >= 1 && ParseVersion(path[0]) == Some(c)
    requires SequentialFrom(path, c)
    ensures forall k :: 0 <= k < |path| ==> ParseVersion(path[k]) == Some(Version(c.major, c.minor + k))
    ensures forall k :: 0 <= k < |path| - 1 ==>
      ParseVersion(path[k + 1]).value == Version(ParseVersion(path[k]).value.major, ParseVersion(path[k]).value.minor + 1)
  {
    assert forall k :: 0 <= k < |path| ==> ParseVersion(path[k]) == Some(Version(c.major, c.minor + k)) by {
      forall k | 1 <= k < |path| ensures ParseVersion(path[k]) == Some(Version(c.major, c.minor + k)) {
        ParseFormat(Version(c.major, c.minor + k));
      }
    }
    forall k | 0 <= k < |path| - 1
      ensures ParseVersion(path[k + 1]).value == Version(ParseVersion(path[k]).value.major, ParseVersion(path[k]).value.minor + 1)
    {
      assert ParseVersion(path[k]) == Some(Version(c.major, c.minor + k));
      assert ParseVersion(path[k + 1]) == Some(Version(c.major, c.minor + k + 1));
    }
  }

  /**
   * A same-major path produced for `current < target` ends at the
   * normalised target version.
   */
  lemma SequentialPathEndsAtTarget(path: seq<string>, c: Version, t: Version)
    requires |path| >= 2 && ParseVersion(path[0]) == Some(c)
    requires c.major == t.major && |path| == t.minor - c.minor + 1
    requires SequentialFrom(path, c)
    ensures path[|path| - 1] == FormatVersion(t)
    ensures ParseVersion(path[|path| - 1]) == Some(t)
  {
    SequentialPathParses(path, c);
  }

  // ---------------------------------------------------------------------
  // Addon upgrade order

  datatype Timing = BeforeEks | AfterEks

  /** An addon with its upgrade priority and timing attached. */
  datatype OrderedAddon = OrderedAddon(addon: Addon, priority: nat, timing: Timing)

  /** The priorities `Priority` can return, in ascending order. */
  const Ranks: seq<nat> := [1, 2, 3, 4, 99]

  /** The priority table: network plugin, kube-proxy, DNS, storage, others. */
  function Priority(name: string): (p: nat)
    ensures p in Ranks
  {
    if name == "vpc-cni" then 1
    else if name == "kube-proxy" then 2
    else if name == "coredns" then 3
    else if name == "aws-ebs-csi-driver" then 4
    else 99
  }

  function TimingFor(priority: nat): Timing {
    if priority <= 3 then BeforeEks else AfterEks
  }

  function Tag(a: Addon): (o: OrderedAddon)
    ensures o.addon == a && o.priority in Ranks
    ensures o.timing == BeforeEks <==> o.priority <= 3
  {
    OrderedAddon(a, Priority(a.name), TimingFor(Priority(a.name)))
  }

  function Tagged(addons: seq<Addon>): (r: seq<OrderedAddon>)
    ensures |r| == |addons|
    ensures forall i :: 0 <= i < |addons| ==> r[i] == Tag(addons[i])
  {
    seq(|addons|, i requires 0 <= i < |addons| => Tag(addons[i]))
  }

  predicate Ranked(xs: seq<OrderedAddon>) {
    forall i :: 0 <= i < |xs| ==> xs[i].priority in Ranks
  }

  predicate SortedByPriority(xs: seq<OrderedAddon>) {
    forall i, j :: 0 <= i < j < |xs| ==> xs[i].priority <= xs[j].priority
  }

  /** The subsequence of elements with priority `p`, in their order. */
  function WithPriority(xs: seq<OrderedAddon>, p: nat): (r: seq<OrderedAddon>)
    ensures |r| <= |xs|
    ensures forall i :: 0 <= i < |r| ==> r[i].priority == p
  {
    if |xs| == 0 then []
    else (if xs[0].priority == p then [xs[0]] else []) + WithPriority(xs[1..], p)
  }

  /** The class of priority `p` holds exactly the elements with that priority. */
  lemma {:induction false} WithPriorityMember(xs: seq<OrderedAddon>, p: nat, x: OrderedAddon)
    ensures x in WithPriority(xs, p) <==> x in xs && x.priority == p
    decreases |xs|
  {
    if |xs| > 0 {
      WithPriorityMember(xs[1..], p, x);
      assert xs == [xs[0]] + xs[1..];
    }
  }

  /**
   * The reference order: all priority-1 addons in input order, then all
   * priority-2 ones, and so on. Since a stable sort is unique, this is what
   * a stable sort by ascending priority returns.
   */
  function PriorityOrder(xs: seq<OrderedAddon>): seq<OrderedAddon> {
    Buckets(xs, Ranks)
  }

  /** The classes of the given priorities, concatenated in that order. */
  function Buckets(xs: seq<OrderedAddon>, ranks: seq<nat>): (r: seq<OrderedAddon>)
    ensures forall i :: 0 <= i < |r| ==> r[i].priority in ranks
  {
    if |ranks| == 0 then []
    else WithPriority(xs, ranks[0]) + Buckets(xs, ranks[1..])
  }

  predicate StrictlyAscending(ranks: seq<nat>) {
    forall i, j :: 0 <= i < j < |ranks| ==> ranks[i] < ranks[j]
  }

  lemma {:induction false} WithPriorityConcat(a: seq<OrderedAddon>, b: seq<OrderedAddon>, p: nat)
    ensures WithPriority(a + b, p) == WithPriority(a, p) + WithPriority(b, p)
    decreases |a|
  {
    if |a| == 0 {
      assert a + b == b;
    } else {
      assert (a + b)[1..] == a[1..] + b;
      WithPriorityConcat(a[1..], b, p);
    }
  }

  lemma {:induction false} WithPriorityAll(xs: seq<OrderedAddon>, p: nat)
    requires forall i :: 0 <= i < |xs| ==> xs[i].priority == p
    ensures WithPriority(xs, p) == xs
    decreases |xs|
  {
    if |xs| > 0 {
      WithPriorityAll(xs[1..], p);
    }
  }

  lemma {:induction false} WithPriorityNone(xs: seq<OrderedAddon>, p: nat)
    requires forall i :: 0 <= i < |xs| ==> xs[i].priority != p
    ensures WithPriority(xs, p) == []
    decreases |xs|
  {
    if |xs| > 0 {
      WithPriorityNone(xs[1..], p);
    }
  }

  /** Filtering twice by priority: the same bucket again, or nothing. */
  lemma WithPriorityTwice(xs: seq<OrderedAddon>, q: nat, p: nat)
    ensures WithPriority(WithPriority(xs, q), p) == if q == p then WithPriority(xs, p) else []
  {
    var w := WithPriority(xs, q);
    if q == p {
      WithPriorityAll(w, p);
    } else {
      WithPriorityNone(w, p);
    }
  }

  lemma SortedConcat(a: seq<OrderedAddon>, b: seq<OrderedAddon>)
    requires SortedByPriority(a) && SortedByPriority(b)
    requires forall i, j :: 0 <= i < |a| && 0 <= j < |b| ==> a[i].priority <= b[j].priority
    ensures SortedByPriority(a + b)
  {
    var c := a + b;
    forall i, j | 0 <= i < j < |c| ensures c[i].priority <= c[j].priority {
      if j < |a| {
        assert c[i] == a[i] && c[j] == a[j];
      } else if i >= |a| {
        assert c[i] == b[i - |a|] && c[j] == b[j - |a|];
      } else {
        assert c[i] == a[i] && c[j] == b[j - |a|];
      }
    }
  }

  /** Buckets of strictly ascending priorities are sorted by priority. */
  lemma {:induction false} BucketsSorted(xs: seq<OrderedAddon>, ranks: seq<nat>)
    requires StrictlyAscending(ranks)
    ensures SortedByPriority(Buckets(xs, ranks))
    decreases |ranks|
  {
    if |ranks| > 0 {
      var w, rest := WithPriority(xs, ranks[0]), Buckets(xs, ranks[1..]);
      BucketsSorted(xs, ranks[1..]);
      forall i, j | 0 <= i < |w| && 0 <= j < |rest| ensures w[i].priority <= rest[j].priority {
        var k :| 0 <= k < |ranks[1..]| && ranks[1..][k] == rest[j].priority;
        assert ranks[0] < ranks[k + 1];
      }
      SortedConcat(w, rest);
    }
  }

  /** Filtering the buckets by `p` gives the class of `p` if `p` is one of the ranks, else nothing. */
  lemma {:induction false} BucketsKeepClasses(xs: seq<OrderedAddon>, ranks: seq<nat>, p: nat)
    requires StrictlyAscending(ranks)
    ensures WithPriority(Buckets(xs, ranks), p) == if p in ranks then WithPriority(xs, p) else []
    decreases |ranks|
  {
    if |ranks| > 0 {
      var tail := ranks[1..];
      var w, rest := WithPriority(xs, ranks[0]), Buckets(xs, tail);
      assert StrictlyAscending(tail) by {
        forall i, j | 0 <= i < j < |tail| ensures tail[i] < tail[j] {
          assert tail[i] == ranks[i + 1] && tail[j] == ranks[j + 1];
        }
      }
      BucketsKeepClasses(xs, tail, p);
      assert Buckets(xs, ranks) == w + rest;
      WithPriorityConcat(w, rest, p);
      WithPriorityTwice(xs, ranks[0], p);
      assert p in ranks <==> p == ranks[0] || p in tail by {
        assert ranks == [ranks[0]] + tail;
      }
      if p == ranks[0] {
        assert p !in tail by {
          forall k | 0 <= k < |tail| ensures tail[k] != p {
            assert tail[k] == ranks[k + 1];
          }
        }
        assert WithPriority(rest, p) == [];
        assert WithPriority(xs, p) + [] == WithPriority(xs, p);
      } else {
        assert WithPriority(w, p) == [];
        assert [] + WithPriority(rest, p) == WithPriority(rest, p);
      }
    }
  }

  /** Membership in the buckets: an element of the input whose priority is one of the ranks. */
  lemma {:induction false} BucketsMember(xs: seq<OrderedAddon>, ranks: seq<nat>, x: OrderedAddon)
    ensures x in Buckets(xs, ranks) <==> x in xs && x.priority in ranks
    decreases |ranks|
  {
    if |ranks| > 0 {
      BucketsMember(xs, ranks[1..], x);
      WithPriorityMember(xs, ranks[0], x);
      assert ranks == [ranks[0]] + ranks[1..];
    }
  }

  /** The reference order is sorted and keeps every priority class of a ranked input in input order. */
  lemma PriorityOrderIsStableSort(xs: seq<OrderedAddon>)
    requires Ranked(xs)
    ensures SortedByPriority(PriorityOrder(xs))
    ensures forall p :: WithPriority(PriorityOrder(xs), p) == WithPriority(xs, p)
  {
    BucketsSorted(xs, Ranks);
    forall p ensures WithPriority(PriorityOrder(xs), p) == WithPriority(xs, p) {
      BucketsKeepClasses(xs, Ranks, p);
      if p !in Ranks {
        WithPriorityNone(xs, p);
      }
    }
  }

  /**
   * A stable sort is unique: two sequences sorted by priority that agree on
   * every priority class are equal.
   */
  lemma {:induction false} StableSortUnique(a: seq<OrderedAddon>, b: seq<OrderedAddon>)
    requires SortedByPriority(a) && SortedByPriority(b)
    requires forall p :: WithPriority(a, p) == WithPriority(b, p)
    ensures a == b
    decreases |a|
  {
    if |a| == 0 {
      if |b| > 0 {
        WithPriorityMember(b, b[0].priority, b[0]);
      }
    } else if |b| == 0 {
      WithPriorityMember(a, a[0].priority, a[0]);
    } else {
      var p, q := a[0].priority, b[0].priority;
      WithPriorityMember(a, p, a[0]);
      WithPriorityMember(b, p, a[0]);
      WithPriorityMember(b, q, b[0]);
      WithPriorityMember(a, q, b[0]);
      assert p == q;
      assert a[0] == b[0] by {
        assert WithPriority(a, p)[0] == a[0];
        assert WithPriority(b, p)[0] == b[0];
      }
      forall r ensures WithPriority(a[1..], r) == WithPriority(b[1..], r) {
        var wa, wb := WithPriority(a, r), WithPriority(b, r);
        if p == r {
          assert wa == [a[0]] + WithPriority(a[1..], r);
          assert wb == [b[0]] + WithPriority(b[1..], r);
          assert wa[1..] == WithPriority(a[1..], r);
          assert wb[1..] == WithPriority(b[1..], r);
        } else {
          assert wa == WithPriority(a[1..], r);
          assert wb == WithPriority(b[1..], r);
        }
      }
      StableSortUnique(a[1..], b[1..]);
      assert a == [a[0]] + a[1..] && b == [b[0]] + b[1..];
    }
  }

  /** Inserting after the last element whose priority does not exceed `x`'s keeps the order. */
  lemma InsertKeepsSorted(ys: seq<OrderedAddon>, x: OrderedAddon, pos: nat)
    requires SortedByPriority(ys) && pos <= |ys|
    requires forall k :: 0 <= k < pos ==> ys[k].priority <= x.priority
    requires forall k :: pos <= k < |ys| ==> ys[k].priority > x.priority
    ensures SortedByPriority(ys[..pos] + [x] + ys[pos..])
  {
    var left, right := ys[..pos], ys[pos..];
    assert SortedByPriority(left) && SortedByPriority(right);
    SortedConcat(left, [x]);
    SortedConcat(left + [x], right);
  }

  /** ... and appends `x` to its own priority class, leaving the others alone. */
  lemma {:induction false} InsertKeepsClasses(ys: seq<OrderedAddon>, x: OrderedAddon, pos: nat, p: nat)
    requires pos <= |ys|
    requires forall k :: pos <= k < |ys| ==> ys[k].priority > x.priority
    ensures WithPriority(ys[..pos] + [x] + ys[pos..], p) == WithPriority(ys, p) + WithPriority([x], p)
  {
    var left, right := ys[..pos], ys[pos..];
    var wl, wx, wr := WithPriority(left, p), WithPriority([x], p), WithPriority(right, p);
    assert ys == left + right;
    WithPriorityConcat(left + [x], right, p);
    WithPriorityConcat(left, [x], p);
    WithPriorityConcat(left, right, p);
    assert WithPriority(ys, p) == wl + wr;
    assert WithPriority(left + [x] + right, p) == wl + wx + wr;
    if p == x.priority {
      WithPriorityNone(right, p);
      assert wr == [];
      assert wl + wx + wr == wl + wx;
    } else {
      assert wx == [];
      assert wl + wx + wr == wl + wr;
    }
  }

  /**
   * Inserts `x` after the last element whose priority is not above its own:
   * the list stays sorted, `x` joins the end of its own class, and nothing
   * else moves.
   */
  method InsertStable(ys: seq<OrderedAddon>, x: OrderedAddon) returns (zs: seq<OrderedAddon>)
    requires SortedByPriority(ys)
    ensures SortedByPriority(zs)
    ensures forall p :: WithPriority(zs, p) == WithPriority(ys, p) + WithPriority([x], p)
    ensures multiset(zs) == multiset(ys) + multiset{x}
  {
    var pos := |ys|;
    while pos > 0 && ys[pos - 1].priority > x.priority
      invariant 0 <= pos <= |ys|
      invariant forall k :: pos <= k < |ys| ==> ys[k].priority > x.priority
    {
      pos := pos - 1;
    }
    InsertAt(ys, x, pos);
    InsertMultiset(ys, x, pos);
    zs := ys[..pos] + [x] + ys[pos..];
  }

  /** Inserting at the boundary between lower-or-equal and higher priorities is a stable insertion. */
  lemma InsertAt(ys: seq<OrderedAddon>, x: OrderedAddon, pos: nat)
    requires SortedByPriority(ys) && pos <= |ys|
    requires pos > 0 ==> ys[pos - 1].priority <= x.priority
    requires forall k :: pos <= k < |ys| ==> ys[k].priority > x.priority
    ensures SortedByPriority(ys[..pos] + [x] + ys[pos..])
    ensures forall p :: WithPriority(ys[..pos] + [x] + ys[pos..], p) == WithPriority(ys, p) + WithPriority([x], p)
  {
    assert forall k :: 0 <= k < pos ==> ys[k].priority <= x.priority by {
      forall k | 0 <= k < pos ensures ys[k].priority <= x.priority {
        assert ys[k].priority <= ys[pos - 1].priority;
      }
    }
    InsertKeepsSorted(ys, x, pos);
    var left, right := ys[..pos], ys[pos..];
    forall p ensures WithPriority(left + [x] + right, p) == WithPriority(ys, p) + WithPriority([x], p) {
      InsertKeepsClasses(ys, x, pos, p);
    }
  }

  /** Inserting an element anywhere adds it to the multiset of elements. */
  lemma InsertMultiset(ys: seq<OrderedAddon>, x: OrderedAddon, pos: nat)
    requires pos <= |ys|
    ensures multiset(ys[..pos] + [x] + ys[pos..]) == multiset(ys) + multiset{x}
  {
    assert ys == ys[..pos] + ys[pos..];
  }

  /** Insertion sort by ascending priority that keeps ties in input order (Python's stable `list.sort`). */
  method StableSortByPriority(xs: seq<OrderedAddon>) returns (ys: seq<OrderedAddon>)
    ensures SortedByPriority(ys)
    ensures forall p :: WithPriority(ys, p) == WithPriority(xs, p)
    ensures multiset(ys) == multiset(xs)
  {
    ys := [];
    for i := 0 to |xs|
      invariant SortedByPriority(ys)
      invariant forall p :: WithPriority(ys, p) == WithPriority(xs[..i], p)
      invariant multiset(ys) == multiset(xs[..i])
    {
      ys := InsertStable(ys, xs[i]);
      assert xs[..i + 1] == xs[..i] + [xs[i]];
      forall p ensures WithPriority(ys, p) == WithPriority(xs[..i + 1], p) {
        WithPriorityConcat(xs[..i], [xs[i]], p);
      }
    }
    assert xs[..|xs|] == xs;
  }

  /**
   * Tags every addon with its priority and timing, then sorts stably by
   * ascending priority: the result is the reference priority order, a
   * permutation of the tagged input that keeps ties in input order.
   */
  method DetermineAddonUpgradeOrder(addons: seq<Addon>) returns (ordered: seq<OrderedAddon>)
    ensures ordered == PriorityOrder(Tagged(addons))
    ensures SortedByPriority(ordered)
    ensures multiset(ordered) == multiset(Tagged(addons))
    ensures forall p :: WithPriority(ordered, p) == WithPriority(Tagged(addons), p)
  {
    var tagged: seq<OrderedAddon> := [];
    for i := 0 to |addons|
      invariant |tagged| == i
      invariant forall j :: 0 <= j < i ==> tagged[j] == Tag(addons[j])
    {
      tagged := tagged + [Tag(addons[i])];
    }
    assert tagged == Tagged(addons);
    ordered := StableSortByPriority(tagged);
    PriorityOrderIsStableSort(tagged);
    StableSortUnique(ordered, PriorityOrder(tagged));
  }

  /** Membership in the priority order is membership in the tagged input. */
  lemma PriorityOrderMembers(xs: seq<OrderedAddon>, x: OrderedAddon)
    requires Ranked(xs)
    ensures x in PriorityOrder(xs) <==> x in xs
  {
    BucketsMember(xs, Ranks, x);
  }

  /**
   * In the upgrade order, a higher-ranked addon (vpc-cni, then kube-proxy,
   * then coredns, then aws-ebs-csi-driver, then any other) always comes
   * before a lower-ranked one.
   */
  lemma RankedAddonsComeFirst(addons: seq<Addon>, i: nat, j: nat)
    requires i < |PriorityOrder(Tagged(addons))| && j < |PriorityOrder(Tagged(addons))|
    requires Priority(PriorityOrder(Tagged(addons))[i].addon.name) < Priority(PriorityOrder(Tagged(addons))[j].addon.name)
    ensures i < j
  {
    var xs := Tagged(addons);
    var order := PriorityOrder(xs);
    PriorityOrderIsStableSort(xs);
    PriorityOrderMembers(xs, order[i]);
    PriorityOrderMembers(xs, order[j]);
  }

  // ---------------------------------------------------------------------
  // Runbook

  datatype Phase = Phase(name: string, duration: string, steps: seq<string>)

  const PreUpgradePhase := Phase("Pre-Upgrade Preparation", "2-4 hours", [
    "Complete all checklist items",
    "Backup cluster and workload data",
    "Verify rollback plan",
    "Communicate maintenance window"])

  const NodeGroupPhase := Phase("Node Group Updates", "1-2 hours", [
    "Update node group AMI to match control plane version",
    "Perform rolling update of nodes",
    "Monitor pod rescheduling",
    "Verify all nodes are ready"])

  const ValidationPhase := Phase("Post-Upgrade Validation", "30-60 minutes", [
    "Verify cluster version",
    "Check all nodes are ready",
    "Verify all pods are running",
    "Test critical workloads",
    "Review cluster logs",
    "Validate monitoring and alerts",
    "Run smoke tests"])

  function ControlPlanePhase(version: string): Phase {
    Phase("EKS Control Plane Upgrade to " + version, "30-45 minutes", [
      "Update cluster version to " + version,
      "Wait for control plane to be active",
      "Verify control plane health",
      "Check API server logs"])
  }

  /** The addons with the given timing, in order. */
  function WithTiming(xs: seq<OrderedAddon>, t: Timing): (r: seq<OrderedAddon>)
    ensures |r| <= |xs|
    ensures forall i :: 0 <= i < |r| ==> r[i].timing == t
  {
    if |xs| == 0 then []
    else (if xs[0].timing == t then [xs[0]] else []) + WithTiming(xs[1..], t)
  }

  lemma {:induction false} WithTimingMember(xs: seq<OrderedAddon>, t: Timing, x: OrderedAddon)
    ensures x in WithTiming(xs, t) <==> x in xs && x.timing == t
    decreases |xs|
  {
    if |xs| > 0 {
      WithTimingMember(xs[1..], t, x);
      assert xs == [xs[0]] + xs[1..];
    }
  }

  /** One step "Upgrade <name><suffix>" per addon. */
  function AddonSteps(xs: seq<OrderedAddon>, suffix: string): (r: seq<string>)
    ensures |r| == |xs|
    ensures forall i :: 0 <= i < |xs| ==> r[i] == "Upgrade " + xs[i].addon.name + suffix
  {
    seq(|xs|, i requires 0 <= i < |xs| => "Upgrade " + xs[i].addon.name + suffix)
  }

  datatype Runbook = Runbook(clusterName: string, upgradePath: seq<string>, phases: seq<Phase>)

  /** One "Upgrade <name><suffix>" step per addon, appended in order. */
  method CollectAddonSteps(xs: seq<OrderedAddon>, suffix: string) returns (steps: seq<string>)
    ensures steps == AddonSteps(xs, suffix)
  {
    steps := [];
    for i := 0 to |xs|
      invariant steps == AddonSteps(xs[..i], suffix)
    {
      steps := steps + ["Upgrade " + xs[i].addon.name + suffix];
    }
    assert xs[..|xs|] == xs;
  }

  /** One control-plane phase per version after the first in the path. */
  function ControlPlaneSeq(path: seq<string>): (r: seq<Phase>)
    ensures |r| == if |path| > 0 then |path| - 1 else 0
    ensures forall k :: 0 <= k < |r| ==> r[k] == ControlPlanePhase(path[k + 1])
  {
    seq(if |path| > 0 then |path| - 1 else 0, k requires 0 <= k < |path| - 1 => ControlPlanePhase(path[k + 1]))
  }

  /** The addon phase for `xs`, present only when `xs` is not empty. */
  function OptionalPhase(xs: seq<OrderedAddon>, name: string, duration: string, suffix: string): (r: seq<Phase>)
    ensures |r| == if |xs| > 0 then 1 else 0
  {
    if |xs| > 0 then [Phase(name, duration, AddonSteps(xs, suffix))] else []
  }

  /** The control-plane phases, appended one per version after the first in the path. */
  method ControlPlanePhases(path: seq<string>) returns (phases: seq<Phase>)
    ensures phases == ControlPlaneSeq(path)
  {
    phases := [];
    var later := if |path| > 0 then path[1..] else [];
    for k := 0 to |later|
      invariant |phases| == k
      invariant forall j :: 0 <= j < k ==> phases[j] == ControlPlanePhase(later[j])
    {
      phases := phases + [ControlPlanePhase(later[k])];
    }
  }

  /** The addons in upgrade order, split into those upgraded before and after the control plane. */
  method SplitByTiming(addons: seq<Addon>) returns (pre: seq<OrderedAddon>, post: seq<OrderedAddon>)
    ensures pre == WithTiming(PriorityOrder(Tagged(addons)), BeforeEks)
    ensures post == WithTiming(PriorityOrder(Tagged(addons)), AfterEks)
  {
    var ordered := DetermineAddonUpgradeOrder(addons);
    pre := WithTiming(ordered, BeforeEks);
    post := WithTiming(ordered, AfterEks);
  }

  function PreEksPhases(addons: seq<Addon>): seq<Phase> {
    OptionalPhase(WithTiming(PriorityOrder(Tagged(addons)), BeforeEks),
                  "Critical Addon Updates (Pre-EKS)", "30-60 minutes", " to compatible version")
  }

  function PostEksPhases(addons: seq<Addon>): seq<Phase> {
    OptionalPhase(WithTiming(PriorityOrder(Tagged(addons)), AfterEks),
                  "Additional Addon Updates (Post-EKS)", "20-30 minutes", " to recommended version")
  }

  /**
   * The phased runbook: preparation; the pre-EKS addon phase if any addon is
   * upgraded before the control plane; one control-plane phase per version
   * after the first in the path; node group updates; the post-EKS addon
   * phase if any addon is upgraded after; validation.
   */
  method CreateUpgradeRunbook(clusterName: string, path: seq<string>, addons: seq<Addon>, nodeGroups: seq<NodeGroup>)
    returns (rb: Runbook)
    ensures rb.clusterName == clusterName && rb.upgradePath == path
    ensures rb.phases == RunbookPhases(path, addons)
  {
    var phases := [PreUpgradePhase];
    var pre, post := SplitByTiming(addons);
    var prePhases := [];
    if |pre| > 0 {
      var steps := CollectAddonSteps(pre, " to compatible version");
      prePhases := [Phase("Critical Addon Updates (Pre-EKS)", "30-60 minutes", steps)];
    }
    phases := phases + prePhases;
    var cps := ControlPlanePhases(path);
    phases := phases + cps;
    phases := phases + [NodeGroupPhase];
    var postPhases := [];
    if |post| > 0 {
      var steps := CollectAddonSteps(post, " to recommended version");
      postPhases := [Phase("Additional Addon Updates (Post-EKS)", "20-30 minutes", steps)];
    }
    phases := phases + postPhases;
    phases := phases + [ValidationPhase];
    rb := Runbook(clusterName, path, phases);
  }

  /** The phases of a runbook, as `CreateUpgradeRunbook` lays them out. */
  function RunbookPhases(path: seq<string>, addons: seq<Addon>): seq<Phase> {
    [PreUpgradePhase] + PreEksPhases(addons) + ControlPlaneSeq(path)
    + [NodeGroupPhase] + PostEksPhases(addons) + [ValidationPhase]
  }

  /**
   * A runbook has one phase per version step, the preparation, node-group
   * and validation phases, and an addon phase on each side of the control
   * plane exactly when some addon is upgraded on that side.
   */
  lemma RunbookPhaseCount(path: seq<string>, addons: seq<Addon>)
    ensures |RunbookPhases(path, addons)| ==
      3 + (if |path| > 0 then |path| - 1 else 0)
      + (if exists i :: 0 <= i < |addons| && Priority(addons[i].name) <= 3 then 1 else 0)
      + (if exists i :: 0 <= i < |addons| && Priority(addons[i].name) > 3 then 1 else 0)
  {
    AddonPhasesPresent(addons);
  }

  /**
   * The runbook starts with preparation, then the pre-EKS addon phase if
   * there is one, then the control-plane upgrades in path order, then the
   * node groups, and ends with validation.
   */
  lemma RunbookPhaseOrder(path: seq<string>, addons: seq<Addon>)
    ensures
      var phases := RunbookPhases(path, addons);
      var first := 1 + |PreEksPhases(addons)|;
      var cp := |ControlPlaneSeq(path)|;
      && phases[0] == PreUpgradePhase
      && (|PreEksPhases(addons)| == 1 ==> phases[1].name == "Critical Addon Updates (Pre-EKS)")
      && (forall j :: first <= j < first + cp ==> phases[j] == ControlPlanePhase(path[j - first + 1]))
      && phases[first + cp] == NodeGroupPhase
      && (|PostEksPhases(addons)| == 1 ==> phases[first + cp + 1].name == "Additional Addon Updates (Post-EKS)")
      && phases[|phases| - 1] == ValidationPhase
  {
    PhaseLayout([PreUpgradePhase], PreEksPhases(addons), ControlPlaneSeq(path),
                [NodeGroupPhase], PostEksPhases(addons), [ValidationPhase]);
  }

  /** Positions in a concatenation of six phase lists whose first, fourth and last hold one phase each. */
  lemma PhaseLayout(a: seq<Phase>, b: seq<Phase>, c: seq<Phase>, d: seq<Phase>, e: seq<Phase>, f: seq<Phase>)
    requires |a| == 1 && |d| == 1 && |f| == 1
    ensures
      var s, first := a + b + c + d + e + f, 1 + |b|;
      && s[0] == a[0]
      && (|b| > 0 ==> s[1] == b[0])
      && (forall j :: first <= j < first + |c| ==> s[j] == c[j - first])
      && s[first + |c|] == d[0]
      && (|e| > 0 ==> s[first + |c| + 1] == e[0])
      && s[|s| - 1] == f[0]
  {
  }

  /**
   * The pre-EKS addon phase exists exactly when some addon has priority at
   * most 3, and the post-EKS one exactly when some addon has a higher one.
   */
  lemma AddonPhasesPresent(addons: seq<Addon>)
    ensures |WithTiming(PriorityOrder(Tagged(addons)), BeforeEks)| > 0 <==>
      exists i :: 0 <= i < |addons| && Priority(addons[i].name) <= 3
    ensures |WithTiming(PriorityOrder(Tagged(addons)), AfterEks)| > 0 <==>
      exists i :: 0 <= i < |addons| && Priority(addons[i].name) > 3
  {
    var xs := Tagged(addons);
    var order := PriorityOrder(xs);
    forall t: Timing ensures |WithTiming(order, t)| > 0 <==> exists i :: 0 <= i < |addons| && Tag(addons[i]).timing == t {
      var w := WithTiming(order, t);
      if |w| > 0 {
        assert w[0] in w;
        WithTimingMember(order, t, w[0]);
        PriorityOrderMembers(xs, w[0]);
      }
      if exists i :: 0 <= i < |addons| && Tag(addons[i]).timing == t {
        var i :| 0 <= i < |addons| && Tag(addons[i]).timing == t;
        assert xs[i] in xs;
        PriorityOrderMembers(xs, xs[i]);
        WithTimingMember(order, t, xs[i]);
      }
    }
  }

  // ---------------------------------------------------------------------
  // Node group rotation

  datatype NodeGroupPlan = NodeGroupPlan(
    name: string,
    currentVersion: string,
    currentCapacity: nat,
    strategy: string,
    steps: Option<seq<string>>)

  datatype RotationPlan = RotationPlan(strategy: string, nodeGroups: seq<NodeGroupPlan>, estimatedTime: string)

  /** The steps of the "rolling" and "blue-green" strategies; none for any other. */
  function RotationSteps(strategy: string): (r: Option<seq<string>>)
    ensures r.Some? <==> strategy == "rolling" || strategy == "blue-green"
    ensures r.Some? ==> |r.value| == 5 && "Verify workload health" in r.value
  {
    if strategy == "rolling" then
      Some(["Update node group AMI version",
            "Set max unavailable to 1",
            "Trigger rolling update",
            "Monitor node replacement",
            "Verify workload health"])
    else if strategy == "blue-green" then
      Some(["Create new node group with target version",
            "Cordon old nodes",
            "Drain workloads to new nodes",
            "Verify workload health",
            "Delete old node group"])
    else None
  }

  /** One plan entry per node group, in order, under the chosen strategy. */
  method PlanNodeGroupRotation(nodeGroups: seq<NodeGroup>, strategy: string) returns (plan: RotationPlan)
    ensures plan.strategy == strategy && plan.estimatedTime == "1-2 hours per node group"
    ensures |plan.nodeGroups| == |nodeGroups|
    ensures forall i :: 0 <= i < |nodeGroups| ==>
      plan.nodeGroups[i] == NodeGroupPlan(nodeGroups[i].name, nodeGroups[i].version,
                                          Capacity(nodeGroups[i]), strategy, RotationSteps(strategy))
  {
    var plans: seq<NodeGroupPlan> := [];
    for i := 0 to |nodeGroups|
      invariant |plans| == i
      invariant forall j :: 0 <= j < i ==>
        plans[j] == NodeGroupPlan(nodeGroups[j].name, nodeGroups[j].version,
                                  Capacity(nodeGroups[j]), strategy, RotationSteps(strategy))
    {
      var ng := nodeGroups[i];
      plans := plans + [NodeGroupPlan(ng.name, ng.version, Capacity(ng), strategy, RotationSteps(strategy))];
    }
    plan := RotationPlan(strategy, plans, "1-2 hours per node group");
  }

  // ---------------------------------------------------------------------
  // Checklist and time estimate

  datatype ChecklistItem = ChecklistItem(
    category: string,
    task: string,
    required: bool,
    estimatedTime: string,
    description: string)

  /** The three preparation items before the breaking-change review. */
  const ChecklistHead: seq<ChecklistItem> := [
    ChecklistItem("Backup", "Backup etcd and cluster configuration", true, "30 minutes",
                  "Create full cluster backup including etcd snapshots"),
    ChecklistItem("Backup", "Document current cluster state", true, "15 minutes",
                  "Record current versions, node counts, and configurations"),
    ChecklistItem("Testing", "Test upgrade in non-production environment", true, "2-4 hours",
                  "Perform complete upgrade test in staging/dev cluster")
  ]

  /** The breaking-change review, the one item that depends on the target version. */
  function ReviewItem(target: string): ChecklistItem {
    ChecklistItem("Validation", "Review breaking changes and deprecations", true, "1 hour",
                  "Review all breaking changes for target version " + target)
  }

  /** The six items after the review; the fifth, monitoring, is the only optional one. */
  const ChecklistTail: seq<ChecklistItem> := [
    ChecklistItem("Addon", "Verify addon compatibility", true, "30 minutes",
                  "Ensure all addons are compatible with target version"),
    ChecklistItem("Workload", "Update deprecated API usage in manifests", true, "1-3 hours",
                  "Update all workloads using deprecated APIs"),
    ChecklistItem("Planning", "Schedule maintenance window", true, "15 minutes",
                  "Coordinate downtime window with stakeholders"),
    ChecklistItem("Rollback", "Prepare rollback plan", true, "30 minutes",
                  "Document rollback procedure and test restoration"),
    ChecklistItem("Monitoring", "Set up enhanced monitoring", false, "20 minutes",
                  "Configure alerts for upgrade process"),
    ChecklistItem("Access", "Verify IAM permissions", true, "10 minutes",
                  "Ensure proper permissions for upgrade operations")
  ]

  /**
   * The fixed ten-item pre-upgrade checklist; only the ninth item, monitoring,
   * is optional, and the fourth, the validation review, names the target version.
   */
  function PreUpgradeChecklist(target: string): (r: seq<ChecklistItem>)
    ensures |r| == 10
    ensures forall i :: 0 <= i < |r| ==> (r[i].required <==> i != 8)
    ensures r[8].category == "Monitoring"
    ensures r[3].category == "Validation" && Contains(r[3].description, target)
  {
    ContainsInfix("Review all breaking changes for target version ", target, "");
    assert "Review all breaking changes for target version " + target + "" ==
      "Review all breaking changes for target version " + target;
    ChecklistHead + [ReviewItem(target)] + ChecklistTail
  }

  /** The integer-minute parts of `estimate_upgrade_time`. */
  datatype TimeEstimate = TimeEstimate(
    preUpgrade: int,
    controlPlane: int,
    nodeRotations: int,
    addonUpgrades: int,
    validation: int,
    totalMinutes: int)

  /**
   * Linear estimate: 120 min preparation, 40 per version step, 90 per node
   * group, 10 per addon, 45 validation. The total is the sum of the parts
   * and positive even for an empty path (one step fewer than none).
   */
  function EstimateUpgradeTime(path: seq<string>, nodeGroups: seq<NodeGroup>, addons: seq<Addon>): (e: TimeEstimate)
    ensures e.totalMinutes == e.preUpgrade + e.controlPlane + e.nodeRotations + e.addonUpgrades + e.validation
    ensures e.totalMinutes == 165 + 40 * (|path| - 1) + 90 * |nodeGroups| + 10 * |addons|
    ensures e.totalMinutes >= 125
    ensures |path| >= 1 ==> e.totalMinutes >= 165
  {
    var preUpgrade := 120;
    var controlPlane := 40 * (|path| - 1);
    var nodeTime := 90 * |nodeGroups|;
    var addonTime := 10 * |addons|;
    var validation := 45;
    TimeEstimate(preUpgrade, controlPlane, nodeTime, addonTime, validation,
                 preUpgrade + controlPlane + nodeTime + addonTime + validation)
  }
}

=== FILE: versions.dfy ===
/**
 * Kubernetes/EKS versions as (major, minor) pairs with lexicographic order,
 * parsed from a strict "<major>.<minor>" string (Python's
 * `s.split(".")` into exactly two parts, each read with `int(...)`).
 *
 * The source also compares versions with `float(...)` in places; that
 * reading is kept here only as `FloatAtLeast`, to exhibit where it
 * disagrees with the pair order the rest of the model uses.
 */
module Versions {
  import opened Wrappers
  import opened Text

  datatype Version = Version(major: nat, minor: nat)

  /** Lexicographic order on (major, minor). */
  predicate Less(a: Version, b: Version) {
    a.major < b.major || (a.major == b.major && a.minor < b.minor)
  }

  predicate AtLeast(a: Version, b: Version) {
    !Less(a, b)
  }

  /** `Less` is a strict total order. */
  lemma LessIsStrictTotalOrder(a: Version, b: Version, c: Version)
    ensures !Less(a, a)
    ensures Less(a, b) ==> !Less(b, a)
    ensures Less(a, b) && Less(b, c) ==> Less(a, c)
    ensures a == b || Less(a, b) || Less(b, a)
  {
  }

  /** Index of the first '.', or -1 when there is none. */
  function DotIndex(s: string): (i: int)
    ensures -1 <= i < |s|
    ensures i == -1 ==> '.' !in s
    ensures 0 <= i ==> s[i] == '.' && '.' !in s[..i]
  {
    if |s| == 0 then -1
    else if s[0] == '.' then 0
    else
      var j := DotIndex(s[1..]);
      assert s == [s[0]] + s[1..];
      if j == -1 then -1
      else
        assert s[..j + 1] == [s[0]] + s[1..][..j];
        j + 1
  }

  /** Exactly two dot-separated decimal numerals. */
  ghost predicate WellFormed(s: string) {
    exists i :: 0 <= i < |s| && s[i] == '.' && IsNumeral(s[..i]) && IsNumeral(s[i + 1..])
  }

  function ParseVersion(s: string): (r: Option<Version>)
  {
    var i := DotIndex(s);
    if i < 0 then None
    else if IsNumeral(s[..i]) && IsNumeral(s[i + 1..]) then
      Some(Version(NumeralValue(s[..i]), NumeralValue(s[i + 1..])))
    else None
  }

  /** Parsing succeeds exactly on well-formed strings, and reads both numerals. */
  lemma ParseVersionSpec(s: string)
    ensures ParseVersion(s).Some? <==> WellFormed(s)
    ensures ParseVersion(s).Some? ==>
      exists i :: 0 <= i < |s| && s[i] == '.' && IsNumeral(s[..i]) && IsNumeral(s[i + 1..]) &&
        ParseVersion(s).value == Version(NumeralValue(s[..i]), NumeralValue(s[i + 1..]))
  {
    var d := DotIndex(s);
    if WellFormed(s) {
      var i :| 0 <= i < |s| && s[i] == '.' && IsNumeral(s[..i]) && IsNumeral(s[i + 1..]);
      // the first dot is the one at i: numerals hold no dot
      assert d != -1 by { assert s[i] in s; }
      assert d == i;
    }
  }

  /** `f"{major}.{minor}"`. */
  function FormatVersion(v: Version): string {
    NatToString(v.major) + "." + NatToString(v.minor)
  }

  /** Formatting and parsing are inverse: the round trip returns the version. */
  lemma ParseFormat(v: Version)
    ensures ParseVersion(FormatVersion(v)) == Some(v)
  {
    var a, b := NatToString(v.major), NatToString(v.minor);
    var s := FormatVersion(v);
    assert s[|a|] == '.';
    assert s[..|a|] == a;
    assert s[|a| + 1..] == b;
    assert DotIndex(s) == |a|;
  }

  /** A "1.<d><d>" string parses to minor version <d><d> of major 1. */
  lemma ParseOneDotTwoDigits(s: string)
    requires |s| == 4 && s[0] == '1' && s[1] == '.' && IsDigit(s[2]) && IsDigit(s[3])
    ensures ParseVersion(s) == Some(Version(1, 10 * DigitValue(s[2]) + DigitValue(s[3])))
  {
    assert s[1..][0] == '.';
    assert DotIndex(s) == 1;
    var major, minor := s[..1], s[2..];
    assert major == ['1'] && major[..0] == [];
    assert NumeralValue(major) == 1;
    assert minor == [s[2], s[3]] && minor[..1] == [s[2]] && minor[..1][..0] == [];
    assert NumeralValue(minor[..1]) == DigitValue(s[2]);
  }

  /**
   * The source's `float(s)` on a "<digits>.<digits>" string, as the exact
   * decimal it denotes (None where `float` raises ValueError on this shape).
   * Rounding to a double keeps the order of decimals of at most 15
   * significant digits, every version string included, so on those this
   * reading decides `>=` and `<` as Python does. Longer decimals can round
   * to one double (`FloatAtLeastSplitsOneDouble`), and arithmetic on the
   * doubles is not given here either; for both see `DoubleValue`.
   */
  function FloatValue(s: string): (r: Option<real>)
    ensures r.Some? <==> ParseVersion(s).Some?
  {
    var i := DotIndex(s);
    if i < 0 then None
    else if IsNumeral(s[..i]) && IsNumeral(s[i + 1..]) then
      Some(NumeralValue(s[..i]) as real + NumeralValue(s[i + 1..]) as real / Pow10(|s| - i - 1) as real)
    else None
  }

  function Pow10(n: nat): (r: nat)
    ensures r >= 1
  {
    if n == 0 then 1 else 10 * Pow10(n - 1)
  }

  /** 2^52: in [1, 2) consecutive IEEE 754 doubles are 1 / TwoTo52 apart. */
  const TwoTo52: nat := 4503599627370496

  /** The integer nearest to a / b, the even one on a tie, as IEEE 754 rounds a significand. */
  function RoundHalfEven(a: nat, b: nat): (q: nat)
    requires b > 0
  {
    var q, r := a / b, a % b;
    if 2 * r > b || (2 * r == b && q % 2 == 1) then q + 1 else q
  }

  /** The rounded quotient is within half of a / b, and even on a tie. */
  lemma RoundHalfEvenNearest(a: nat, b: nat)
    requires b > 0
    ensures var q := RoundHalfEven(a, b);
      -(b as int) <= 2 * (q * b - a) <= b &&
      (2 * (q * b - a) == b || 2 * (a - q * b) == b ==> q % 2 == 0)
  {
    var q0, r := a / b, a % b;
    var p := q0 * b;
    assert a == p + r && 0 <= r < b;
    if RoundHalfEven(a, b) == q0 + 1 {
      assert (q0 + 1) * b == p + b;
    }
  }

  /**
   * `float(s)` as the IEEE 754 double Python computes, for a
   * "<digits>.<digits>" string whose value lies in [1, 2) (every "1.<minor>"
   * version): the nearest multiple of 1 / TwoTo52. None on ValueError and
   * for values outside [1, 2), which this model does not cover.
   */
  function DoubleValue(s: string): (r: Option<real>)
    ensures r.Some? ==> FloatValue(s).Some?
  {
    var i := DotIndex(s);
    if i < 0 then None
    else if IsNumeral(s[..i]) && IsNumeral(s[i + 1..]) then
      var d := Pow10(|s| - i - 1);
      var n := NumeralValue(s[..i]) * d + NumeralValue(s[i + 1..]);
      if d <= n < 2 * d then
        Some(RoundHalfEven(n * TwoTo52, d) as real / TwoTo52 as real)
      else None
    else None
  }

  /** A "1.<d><d>" string becomes the double nearest to its hundredths. */
  lemma DoubleOfOneDotTwoDigits(s: string)
    requires |s| == 4 && s[0] == '1' && s[1] == '.' && IsDigit(s[2]) && IsDigit(s[3])
    ensures DoubleValue(s) ==
      Some(RoundHalfEven((100 + 10 * DigitValue(s[2]) + DigitValue(s[3])) * TwoTo52, 100) as real / TwoTo52 as real)
  {
    ParseOneDotTwoDigits(s);
    assert DotIndex(s) == 1;
    assert Pow10(|s| - 2) == 100;
  }

  /**
   * `float(a) >= float(b)` as the source writes it, on exact decimals;
   * None on ValueError. It agrees with Python for decimals of at most 15
   * significant digits.
   */
  function FloatAtLeast(a: string, b: string): (r: Option<bool>)
    ensures r.Some? <==> ParseVersion(a).Some? && ParseVersion(b).Some?
  {
    match (FloatValue(a), FloatValue(b))
    case (Some(x), Some(y)) => Some(x >= y)
    case _ => None
  }

  /** `a >= b` in the pair order; None when either string does not parse. */
  function VersionAtLeast(a: string, b: string): (r: Option<bool>)
    ensures r.Some? <==> ParseVersion(a).Some? && ParseVersion(b).Some?
    ensures r == Some(true) ==> AtLeast(ParseVersion(a).value, ParseVersion(b).value)
    ensures r == Some(false) ==> Less(ParseVersion(a).value, ParseVersion(b).value)
  {
    match (ParseVersion(a), ParseVersion(b))
    case (Some(x), Some(y)) => Some(AtLeast(x, y))
    case _ => None
  }

  /** A "1.<d>" string parses to minor version <d> of major 1. */
  lemma ParseOneDotOneDigit(s: string)
    requires |s| == 3 && s[0] == '1' && s[1] == '.' && IsDigit(s[2])
    ensures ParseVersion(s) == Some(Version(1, DigitValue(s[2])))
  {
    assert s[1..][0] == '.';
    assert DotIndex(s) == 1;
    var major, minor := s[..1], s[2..];
    assert major == ['1'] && major[..0] == [];
    assert minor == [s[2]] && minor[..0] == [];
    assert IsNumeral(major) && IsNumeral(minor);
    assert NumeralValue(major) == 1;
    assert NumeralValue(minor) == DigitValue(s[2]);
  }

  /**
   * Reading "1.9" as the number 1.9 ranks it above "1.16" (1.16), while
   * Kubernetes 1.9 precedes 1.16.
   */
  lemma FloatOrderMisranksMinors()
    ensures FloatAtLeast("1.9", "1.16") == Some(true)
    ensures VersionAtLeast("1.9", "1.16") == Some(false)
  {
    ParseOneDotOneDigit("1.9");
    ParseOneDotTwoDigits("1.16");
    assert "1.9"[..1] == "1" && "1.9"[2..] == "9";
    assert "1.16"[..1] == "1" && "1.16"[2..] == "16";
  }
  /** A run of zeros denotes 0. */
  lemma {:induction false} ZerosDenoteZero(w: string)
    requires forall i :: 0 <= i < |w| ==> w[i] == '0'
    ensures AllDigits(w) && NumeralValue(w) == 0
  {
    if |w| > 0 {
      ZerosDenoteZero(w[..|w| - 1]);
    }
  }

  /** A run of zeros followed by a single '1' denotes 1. */
  lemma OneAfterZeros(z: string)
    requires |z| > 0 && z[|z| - 1] == '1'
    requires forall i :: 0 <= i < |z| - 1 ==> z[i] == '0'
    ensures AllDigits(z) && NumeralValue(z) == 1
  {
    ZerosDenoteZero(z[..|z| - 1]);
  }

  /** Powers of ten multiply by adding exponents. */
  lemma {:induction false} Pow10Sum(a: nat, b: nat)
    ensures Pow10(a + b) == Pow10(a) * Pow10(b)
  {
    if a > 0 {
      Pow10Sum(a - 1, b);
    }
  }

  /** 10^16, the denominator of a sixteen-digit fraction. */
  lemma Pow10Of16()
    ensures Pow10(16) == 10000000000000000
  {
    Pow10Sum(8, 8);
    Pow10Sum(4, 4);
  }

  /** "1.0000000000000001" parses as 1 and 1 / 10^16. */
  lemma LongOneParts(s: string)
    requires s == "1.0000000000000001"
    ensures DotIndex(s) == 1 && IsNumeral(s[..1]) && IsNumeral(s[2..])
    ensures NumeralValue(s[..1]) == 1 && NumeralValue(s[2..]) == 1
    ensures Pow10(|s| - 2) == 10000000000000000
  {
    var z := s[2..];
    assert z[15] == '1' && forall i :: 0 <= i < 15 ==> z[i] == '0';
    OneAfterZeros(z);
    assert s[..1] == "1";
    Pow10Of16();
  }

  /**
   * Beyond 15 significant digits two different decimals can round to one
   * double: "1.0000000000000001" becomes the double 1.0, so Python's
   * `float("1.0") >= float("1.0000000000000001")` holds, while the exact
   * decimals of `FloatAtLeast` order them the other way.
   */
  lemma FloatAtLeastSplitsOneDouble()
    ensures DoubleValue("1.0") == DoubleValue("1.0000000000000001") == Some(1.0)
    ensures FloatAtLeast("1.0", "1.0000000000000001") == Some(false)
  {
    var s := "1.0000000000000001";
    LongOneParts(s);
    var d: nat := 10000000000000000;
    var a: nat := (d + 1) * TwoTo52;
    assert a == TwoTo52 * d + TwoTo52 && TwoTo52 < d;
    assert a / d == TwoTo52 && a % d == TwoTo52;
    assert RoundHalfEven(a, d) == TwoTo52;
    assert DotIndex("1.0") == 1;
    assert "1.0"[..1] == "1" && "1.0"[2..] == "0";
  }
}

=== FILE: wrappers.dfy ===
/** Optional values: the model's rendering of Python's `None`. */
module Wrappers {

  datatype Option<+T> = None | Some(value: T) {

    /** The value, or `default` when absent (Python's `d.get(key, default)`). */
    function GetOr(default: T): T {
      match this
      case Some(v) => v
      case None => default
    }
  }
}
